=== FILE: README.md ===
# Regeneration core of Copybara, in Dafny

Copybara moves code between repositories. It imports a change from an
origin, transforms it, and writes it to a destination. This project models
the parts around **patch regeneration**:

- `copybara regenerate` recomputes the patch files and the consistency file
  of a pending destination change after someone edited that change by hand.
- The collaborators regeneration relies on:
  - the destination contract and the folder destination's reader;
  - the regenerate options and command;
  - the autopatch configuration.
- Smaller pieces from the same code base that feed it or share its types:
  - author parsing and map mappers;
  - the onboarding input resolver;
  - the Git and Mercurial history walkers and the baseline visitor;
  - version lists and selectors, and Cargo wildcard requirements;
  - Gerrit API errors, console line logging and `copybara info`;
  - GitHub approvals, `archive.extract` type inference, patch application;
  - the metadata transformations (expose label, scrub, save and restore the
    original author).

Every operation is a pure function or a short method over immutable data.
The model uses:

- `Result` for exceptions, with one error constructor per exception class;
- `Option` for `null`;
- `seq`/`set`/`map` for collections;
- `map<Path, Bytes>` for a directory tree.

Collaborators whose code is not part of this model are function-valued
parameters. The main one is the `Environment` of a regeneration, which holds
the origin, the writer, the import run, `ConsistencyFile` and
`AutoPatchUtil`. A regeneration returns the ordered log of the calls it made,
so properties such as "`updateChange` is called once, last" can be stated
about it.

Modules, one per source class or group (file → module):

- `wrappers.dfy` → `Wrappers`: `Option`, `Result` and the error kinds.
- `files.dfy` → `Files`: paths, trees and globs.
- `strings.dfy` → `Strings`, `Seqs`: splitting, joining, trimming and the
  list text `[a, b]`.
- `destination.dfy` → `Destination`.
- `folder_reader.dfy` → `FolderReader`.
- `autopatch_config.dfy` → `AutoPatchConfig`.
- `regenerate_options.dfy` → `RegenerateOptions`.
- `regenerate.dfy` → `Regeneration`, `RegenerateProperties`.
- `regenerate_cmd.dfy` → `RegenerateCommand`.
- `author_parser.dfy` → `AuthorParser`.
- `map_mapper.dfy` → `MapMapper`.
- `input_resolver.dfy` → `InputResolver`.
- `change_visitors.dfy` → `Changes`.
- `change_walk.dfy` → `ChangeWalk`.
- `version_lists.dfy` → `VersionLists`.
- `version_selectors.dfy` → `VersionSelectors`.
- `wildcard_requirement.dfy` → `WildcardRequirement`.
- `gerrit_api_exception.dfy` → `GerritApi`.
- `consoles.dfy` → `Consoles`.
- `info.dfy` → `MigrationInfo`.
- `approvals.dfy` → `Approvals`.
- `archive_module.dfy` → `Archive`.
- `patch_transformation.dfy` → `Patch`.
- `metadata.dfy` → `Metadata`.

## Model

| member | source | states |
|---|---|---|
| Regeneration.OpenWriter | java/com/google/copybara/regenerate/Regenerate.java:95-111 | The writer is opened for `resolve(null)` before anything else. A writer without a patch regenerator fails with the "does not support regenerating patch files" ValidationException. An origin or writer failure passes through unchanged. |
| Regeneration.ResolveTarget | java/com/google/copybara/regenerate/Regenerate.java:123-132 | An explicit `--regen-target` is used without asking the destination. Otherwise the destination's inferred target is used. If neither gives one, the run fails with a ValidationException naming the flag. |
| Regeneration.ResolveBaseline | java/com/google/copybara/regenerate/Regenerate.java:135-144 | A baseline is sought only for consistency-file merge-import workflows: the `--regen-baseline` flag first, then the destination's inference. No baseline means the import-baseline path. |
| Regeneration.PatchlessFiles | java/com/google/copybara/regenerate/Regenerate.java:244-255 | A path matches exactly when the destination glob matches it, the autopatch glob (when configured) does not, and it is not the consistency file. The roots are those of the destination glob. |
| Regeneration.CheckConsistencyFile | java/com/google/copybara/regenerate/Regenerate.java:225-231 | The destination reader at the baseline is asked for first, and its failure is the step's error. With a reader, a missing path is a NullPointerException. It succeeds exactly when the path is given and the file exists at the baseline. If the file is absent, the run fails with the "no consistency file found" ValidationException. |
| Regeneration.PrepareWithConsistencyFile | java/com/google/copybara/regenerate/Regenerate.java:233-280 | The baseline and the target are copied with the same patch-less glob, then the consistency file is copied. On success exactly one more call follows: the patch reversal when the consistency file reached `autopatches`, the missing-file warning otherwise. It succeeds exactly when every reader, copy and needed reversal succeeds. `next` is then the target's copy, `autopatches` the baseline's consistency-file copy, and `previous` the baseline's copy with the consistency file's patches reversed onto it when that file was copied. |
| Regeneration.ReverseIfCopied | java/com/google/copybara/regenerate/Regenerate.java:271-279 | Appends one call, chosen by whether the consistency file was copied. Without the file the directories pass through unchanged. With it, the step succeeds exactly when reversing the file's bytes onto `previous` succeeds, and the result is then the reversed tree with `next` and the patches unchanged. A failure is the reversal's error. |
| Regeneration.WithRunHelper | java/com/google/copybara/regenerate/Regenerate.java:362-367 | A resolved revision stands only when a run helper can be built for it. Otherwise the step fails with the helper's ValidationException. |
| Regeneration.ImportRevision | java/com/google/copybara/regenerate/Regenerate.java:295-333 | The revision to import is chosen in this order: the source ref; else the inferred import baseline; else `resolve(null)`. That last one is replaced by the last migrated revision only when history is supported and `--same-version` is set. A failed run-helper creation stops the step before the last revision is asked for. Each choice leaves its own call log. |
| Regeneration.PrepareWithImportBaseline | java/com/google/copybara/regenerate/Regenerate.java:282-361 | The previous state is exactly the imported revision's output, and `next` is the target reader's copy with the patch-less glob. `autopatches` stays empty. No consistency-mode call is made, and a failed revision choice stops the run there. |
| Regeneration.ImportThenCopy | java/com/google/copybara/regenerate/Regenerate.java:348-360 | The import, then the copy of the target into `checkout`, appended after the earlier calls. It succeeds exactly when the baseline reader, the import, the target reader and its copy succeed. `previous` is then the import's output and `next` the target's copy. |
| Regeneration.GenerationFailure | java/com/google/copybara/regenerate/Regenerate.java:172-187 | An inside-git-dir failure of consistency-file generation becomes the "Error generating consistency file" ValidationException; other failures pass through. |
| Regeneration.GenerateConsistencyFile | java/com/google/copybara/regenerate/Regenerate.java:172-187 | The consistency file is generated exactly for merge-import workflows, from the prepared previous and next states and the workflow's hash function. It succeeds exactly when the generator does. |
| Regeneration.PatchFilesFailure | java/com/google/copybara/regenerate/Regenerate.java:189-213 | An inside-git-dir failure of autopatch generation becomes a ValidationException naming the directory, the repository and the original message; other failures pass through. |
| Regeneration.GeneratePatchFiles | java/com/google/copybara/regenerate/Regenerate.java:189-213 | Autopatch files are generated exactly when autopatching is configured. Otherwise the next state is pushed as it is. |
| Regeneration.Artefacts | java/com/google/copybara/regenerate/Regenerate.java:172-218 | The consistency file is generated first, before any autopatch file, and only for merge-import workflows. It succeeds exactly when the needed generators succeed. The tree to push is the autopatch generator's output, or the target copy when autopatching is off, with the consistency file written in at its path for merge imports. |
| Regeneration.Finish | java/com/google/copybara/regenerate/Regenerate.java:215-222 | After the artefacts, `updateChange` is called exactly when the artefacts were built, at most once and as the last call. It receives the artefacts tree, the regen target and the full destination glob, and the run ends as that call does. A failed artefact step ends the run with its error. |
| Regeneration.Commit | java/com/google/copybara/regenerate/Regenerate.java:221-222 | The single `updateChange` call appended to a log that had none. The run ends as that call does. |
| Regeneration.Prepare | java/com/google/copybara/regenerate/Regenerate.java:146-170 | The mode choice. With a baseline, the consistency file is checked there first and only consistency-mode calls follow. Without one, the import path runs and no consistency-mode call is made. |
| Regeneration.Regenerate | java/com/google/copybara/regenerate/Regenerate.java:93-223 | The run always starts by resolving the origin at null. A writer without a regenerator, or an origin or writer failure, ends the run right there. |
| Regeneration.ConsistencyModeEvents | java/com/google/copybara/regenerate/Regenerate.java:233-280 | The consistency-file preparation makes only preparation calls, and none of the import-mode calls. |
| RegenerateProperties.Decompose | java/com/google/copybara/regenerate/Regenerate.java:93-223 | The run is open writer, resolve target, resolve baseline, prepare, finish. Its log is the concatenation of theirs, and the first failure ends it with that failure. |
| RegenerateProperties.CommitsOnceAndLast | java/com/google/copybara/regenerate/Regenerate.java:221-222 | Given a regenerator, the run either fails before `updateChange` or calls it exactly once, last. That call receives the workflow's name, the full destination glob and the resolved target. |
| RegenerateProperties.PushesArtefacts | java/com/google/copybara/regenerate/Regenerate.java:172-222 | Given a regenerator, `updateChange` is called exactly when the target and baseline resolve, the directories are prepared and the artefacts are built. The tree it pushes is the artefacts tree of the prepared directories. |
| RegenerateProperties.ExplicitTargetUsed | java/com/google/copybara/regenerate/Regenerate.java:123-132 | With `--regen-target` the destination is never asked to infer a target, and the updated change is that target. |
| RegenerateProperties.InferredTargetUsed | java/com/google/copybara/regenerate/Regenerate.java:123-132 | Without the flag, the second call asks the destination, and the updated change is the target it inferred. |
| RegenerateProperties.MissingTargetStops | java/com/google/copybara/regenerate/Regenerate.java:127-132 | With no flag and no inferred target, the run is exactly two calls and the "Regen target was neither supplied nor able to be inferred" ValidationException. |
| RegenerateProperties.ImportModeSelected | java/com/google/copybara/regenerate/Regenerate.java:160-170 | Without a baseline the whole run makes no consistency-mode call: no existence check, no copy into `premerge` or `autopatches`, no reversal. |
| RegenerateProperties.ConsistencyModeSelected | java/com/google/copybara/regenerate/Regenerate.java:146-159 | With a baseline the whole run checks the consistency file at that baseline and makes no import-mode call. |
| RegenerateProperties.ConsistencyFileCheckedAt | java/com/google/copybara/regenerate/Regenerate.java:146-150 | Exhibits the position in the run's log where the consistency file is checked at the baseline. |
| RegenerateProperties.ImportBaselineFlagIgnored | java/com/google/copybara/regenerate/Regenerate.java:136-146 | `--regen-import-baseline` changes nothing: the run makes the same calls with the same outcome whatever the flag's value. |
| RegenerateProperties.BaselineOnlyForMergeImport | java/com/google/copybara/regenerate/Regenerate.java:135-146 | A workflow that is not a consistency-file merge import never asks for a baseline and never takes the consistency path. |
| Destination.NotImplementedReader | java/com/google/copybara/Destination.java:100-110 | Every read, existence check and copy of `NOT_IMPLEMENTED` fails as unsupported. |
| Destination.DefaultWriterBehaviour | java/com/google/copybara/Destination.java:100-114 | A writer overriding nothing gives `NOT_IMPLEMENTED` from both `getDestinationReader` overloads and has no patch regenerator. |
| Destination.DefaultPatchRegeneratorBehaviour | java/com/google/copybara/Destination.java:137-169 | The default `updateChange` fails with a ValidationException. The defaults infer no regen baseline, no regen target and no import baseline. |
| Destination.DefaultHashFunction | java/com/google/copybara/Destination.java:200-202 | The default hash function is SHA-256. |
| Destination.NewDestinationStatus | java/com/google/copybara/Destination.java:214-217 | Succeeds exactly when neither argument is null, and then keeps both. A null argument is a NullPointerException. |
| Destination.StatusEqualityIsStructural | java/com/google/copybara/Destination.java:235-251 | Two statuses are equal exactly when their baselines and pending changes are. Equal statuses have equal hash codes, and the hash is a 32-bit `int`. |
| Destination.Utf16 | java/com/google/copybara/Destination.java:248-251 | A character is one code unit inside the Basic Multilingual Plane, else a high and a low surrogate that decode back to it, as the `String`s hashed for `DestinationStatus.hashCode` hold it. |
| Destination.SupplementaryHashesSurrogates | java/com/google/copybara/Destination.java:248-251 | Appending a character outside the Basic Multilingual Plane folds its two surrogates into the `String.hashCode`, one step each. |
| Destination.EmojiHash | java/com/google/copybara/Destination.java:248-251 | U+1F600 hashes to 1772899, from its UTF-16 pair, as `String.hashCode` gives. |
| RegenerateOptions.Default | java/com/google/copybara/regenerate/RegenerateOptions.java:44-71 | Before any flag: no baseline, no target, and the import-baseline flag off. |
| RegenerateOptions.GetRegenBaseline | java/com/google/copybara/regenerate/RegenerateOptions.java:32-34 | Empty exactly when the field is null, else its value. |
| RegenerateOptions.GetUseImportBaseline | java/com/google/copybara/regenerate/RegenerateOptions.java:36-38 | The import-baseline flag as set. |
| RegenerateOptions.GetRegenTarget | java/com/google/copybara/regenerate/RegenerateOptions.java:40-42 | Empty exactly when the field is null, else its value. |
| RegenerateOptions.SetThenGet | java/com/google/copybara/regenerate/RegenerateOptions.java:50-76 | Each setter's value reads back from its getter, and null reads back as empty. Setting one field leaves the other getters unchanged. |
| RegenerateCommand.SourceRef | java/com/google/copybara/regenerate/RegenerateCmd.java:61 | With at most one ref: none is null, and one is that ref. |
| RegenerateCommand.RunCmd | java/com/google/copybara/regenerate/RegenerateCmd.java:51-95 | More than one source ref is a command-line error. A migration that is not a workflow is a ValidationException. Otherwise exactly one regeneration runs, with the options, `--same-version` and the ref. The command succeeds exactly when that run does and fails with its error. |
| RegenerateCommand.MultipleRefsMessageListsRefs | java/com/google/copybara/regenerate/RegenerateCmd.java:55-60 | The multiple-refs error lists every ref given, in order, readable back from the message. |
| AutoPatchConfig.Create | java/com/google/copybara/AutoPatchfileConfiguration.java:32-58 | Null is refused for the suffix, the prefix and the glob, and accepted for the header and the directory. Every argument is kept. |
| AutoPatchConfig.CreateIsInjective | java/com/google/copybara/AutoPatchfileConfiguration.java:26-58 | Value semantics: two configurations are equal exactly when all seven arguments are. |
| FolderReader.FileExists | java/com/google/copybara/folder/FolderDestinationReader.java:91-94 | True exactly for the folder itself, one of its files, or a directory holding a file. |
| Files.AsciiIsUtf8 | java/com/google/copybara/folder/FolderDestinationReader.java:48 | ASCII bytes always decode as UTF-8. |
| Files.Utf8Concat | java/com/google/copybara/folder/FolderDestinationReader.java:48 | Two well-formed UTF-8 texts concatenate to a well-formed one. |
| FolderReader.ReadFile | java/com/google/copybara/folder/FolderDestinationReader.java:45-52 | Gives the file's content exactly when it exists and decodes as UTF-8. Otherwise it fails with the "Unable to read file" RepoException. |
| FolderReader.AsciiFileReads | java/com/google/copybara/folder/FolderDestinationReader.java:45-52 | An ASCII file always reads back as its content. |
| FolderReader.MalformedFileUnreadable | java/com/google/copybara/folder/FolderDestinationReader.java:45-52 | A file that starts with a byte no UTF-8 character can start with exists but cannot be read. |
| FolderReader.Found | java/com/google/copybara/folder/FolderDestinationReader.java:72-78 | The files a walk of one root yields are exactly the glob-matched files under that root, with their content. |
| FolderReader.CopyRoots | java/com/google/copybara/folder/FolderDestinationReader.java:72-88 | Copying root by root keeps what the directory held. Every failure is the one "Failed to cooper files" RepoException. |
| FolderReader.CopyRootsSucceeds | java/com/google/copybara/folder/FolderDestinationReader.java:72-88 | The copy succeeds exactly when every root exists, no matched file is already in the target, and no file is matched under two roots. |
| FolderReader.CopyRootsContentAll | java/com/google/copybara/folder/FolderDestinationReader.java:80-84 | After a copy the directory holds its old files plus every matched file under a root, each with its content from the folder. |
| FolderReader.CopyToDirectory | java/com/google/copybara/folder/FolderDestinationReader.java:67-89 | Matched files land at the same relative paths and nothing is replaced. A missing root or an existing target fails with a RepoException. |
| FolderReader.TargetDirectory | java/com/google/copybara/folder/FolderDestinationReader.java:57-64 | Without a path the copy goes to the work directory, else to the checkout path. |
| FolderReader.CopyDestinationFiles | java/com/google/copybara/folder/FolderDestinationReader.java:54-88 | Succeeds exactly when the copy into the target directory is allowed, and otherwise fails with the copy error. The target then holds its old files plus every matched file. Every other directory is untouched. |
| FolderReader.CopyDestinationFilesIsCopyToDirectory | java/com/google/copybara/folder/FolderDestinationReader.java:54-65 | The copy through a checkout path is the directory copy into the target directory: the same success, content and error. |
| FolderReader.AsDestinationReader | java/com/google/copybara/folder/FolderDestinationReader.java:45-94 | Through the `DestinationReader` interface, read, exists and copy behave as the folder operations above. |
| FolderReader.CopyIntoEmpty | java/com/google/copybara/folder/FolderDestinationReader.java:67-89 | Copying into an empty directory, with existing, non-overlapping roots, gives exactly the matched files under the roots. |
| FolderReader.CopyOntoExistingFails | java/com/google/copybara/folder/FolderDestinationReader.java:80-87 | A matched file already present in the target makes the copy fail. |
| AuthorParser.Unquote | java/com/google/copybara/authoring/AuthorParser.java:70-73 | A text wholly in matching single or double quotes, holding no newline, loses the quotes. Any other text is kept. |
| AuthorParser.ParseUnquoted | java/com/google/copybara/authoring/AuthorParser.java:74-79 | A failure is always the "Must be in the form of 'Name <email>'" error naming the text. |
| AuthorParser.Parse | java/com/google/copybara/authoring/AuthorParser.java:70-79 | A quoted author is parsed without its quotes, and any other text is parsed as it stands. The error names the unquoted text. |
| AuthorParser.QuotedAuthorParsed | java/com/google/copybara/authoring/AuthorParser.java:41-79 | A double-quoted `name<email>` with no newline inside parses to the trimmed name and email. A carriage return inside is accepted and trimmed away. |
| AuthorParser.ParseNullable | java/com/google/copybara/authoring/AuthorParser.java:57-58 | Null is rejected; anything else is parsed. |
| AuthorParser.AuthorFormUnique | java/com/google/copybara/authoring/AuthorParser.java:39-40 | A text splits into name and email in at most one way. |
| AuthorParser.ParseUnquotedIsPattern | java/com/google/copybara/authoring/AuthorParser.java:74-77 | Accepted exactly when the text has the `Name<email>` form. The result is then the trimmed name and email. |
| AuthorParser.ParseIsPattern | java/com/google/copybara/authoring/AuthorParser.java:70-79 | `parse` accepts exactly the texts whose unquoted form is `Name<email>`, and gives the trimmed name and email. |
| AuthorParser.FormIsAccepted | java/com/google/copybara/authoring/AuthorParser.java:74-76 | Every `Name<email>` text parses to its trimmed parts. |
| AuthorParser.AcceptedHasForm | java/com/google/copybara/authoring/AuthorParser.java:74-76 | Every accepted text has the `Name<email>` form. |
| AuthorParser.EmptyEmailAccepted | java/com/google/copybara/authoring/AuthorParser.java:30-40 | The parser is lenient: `Name <>` is accepted with an empty email. |
| WildcardRequirement.Create | java/com/google/copybara/rust/WildcardRustVersionRequirement.java:32-42 | Succeeds exactly on the requirements the pattern accepts. Any other text is a ValidationException naming it. |
| WildcardRequirement.HandlesExactlyWildcards | java/com/google/copybara/rust/WildcardRustVersionRequirement.java:29-30 | One to three digit groups joined by dots, followed by `.*`, is always accepted. |
| WildcardRequirement.HandledIsWildcard | java/com/google/copybara/rust/WildcardRustVersionRequirement.java:29-30 | Every accepted requirement is one to three digit groups joined by dots, followed by `.*`. |
| WildcardRequirement.RejectsBareStar | java/com/google/copybara/rust/WildcardRustVersionRequirement.java:29-30 | A bare `*`, and any text not ending in `.*`, is rejected. |
| WildcardRequirement.ParseVersion | java/com/google/copybara/rust/WildcardRustVersionRequirement.java:57 | A release version parses exactly when it is one to three digit groups. The minor part is present exactly when written. |
| WildcardRequirement.NextVersion | java/com/google/copybara/rust/WildcardRustVersionRequirement.java:60-69 | Always above the required version. It is the next minor with patch 0 when a minor was written, else the next major. |
| WildcardRequirement.FulfillsWith | java/com/google/copybara/rust/WildcardRustVersionRequirement.java:71-78 | Fails exactly when either version fails to parse. Otherwise a version fulfils exactly when it is at least the required one and below the next. |
| WildcardRequirement.AsWrittenNeverStripsWildcard | java/com/google/copybara/rust/WildcardRustVersionRequirement.java:54-58 | As written, the literal replacement leaves every accepted requirement unchanged, so every `fulfills` call fails. |
| WildcardRequirement.RequiredText | java/com/google/copybara/rust/WildcardRustVersionRequirement.java:54-58 | The corrected required version is the requirement without its trailing `.*`. It is a valid release version with no `*`. |
| WildcardRequirement.FulfillsIsWildcardMatch | java/com/google/copybara/rust/WildcardRustVersionRequirement.java:71-78 | Corrected: `M.*` admits exactly major M, and `M.m.*` exactly major M with minor m. `M.m.p.*` admits major M, minor m and patch at least p. Only an unparsable candidate fails. |
| MapMapper.NewMapper | java/com/google/copybara/MapMapper.java:29-31 | Null is rejected; any map is kept as it is. |
| MapMapper.Apply | java/com/google/copybara/MapMapper.java:43-47 | A mapped key gives its value; any other string is returned unchanged. |
| MapMapper.Inverse | java/com/google/copybara/MapMapper.java:34-40 | The inverse of a one-to-one map sends each value back to its key, and is itself one-to-one. |
| MapMapper.ReverseMapping | java/com/google/copybara/MapMapper.java:34-40 | Succeeds exactly when no two keys share a value, with the values as keys. Otherwise it fails with a NonReversibleValidationException. |
| MapMapper.ReverseUndoesApply | java/com/google/copybara/MapMapper.java:36 | The reverse mapper undoes the mapping on every key. |
| MapMapper.ReverseTwice | java/com/google/copybara/MapMapper.java:34-40 | Reversing a reversible mapper twice gives it back. |
| MapMapper.SharedValueIsIrreversible | java/com/google/copybara/MapMapper.java:34-40 | Two keys with one value make the mapper irreversible. |
| Consoles.Lines | java/com/google/copybara/util/console/Consoles.java:62-71 | The text's `\n`-separated pieces, dropping only a final empty piece. |
| Consoles.LogLines | java/com/google/copybara/util/console/Consoles.java:62-71 | One message per line, in order, each with the prefix. |
| Consoles.LinesRebuildText | java/com/google/copybara/util/console/Consoles.java:64-71 | Joining the lines with `\n`, plus the final line break if there was one, gives the text back. Interior empty lines are kept. |
| Consoles.EmptyTextEmitsNothing | java/com/google/copybara/util/console/Consoles.java:38-44 | An empty text logs no line. |
| Consoles.TrailingNewlineAddsNoLine | java/com/google/copybara/util/console/Consoles.java:67-69 | A line break after the last line adds no empty line. |
| Consoles.LastPieceEmpty | java/com/google/copybara/util/console/Consoles.java:64-69 | The last piece is empty exactly when the text is empty or ends in a line break. |
| Consoles.FormatLogErrorKeepsParts | java/com/google/copybara/util/console/Consoles.java:97-99 | The error starts with the message and ends with `)`. The arguments read back from it, in order. |
| Changes.NewBaselineVisitor | java/com/google/copybara/BaselinesWithoutLabelVisitor.java:41-48 | Succeeds exactly for a positive limit, starting with no result and keeping every argument. |
| Changes.Visit | java/com/google/copybara/BaselinesWithoutLabelVisitor.java:56-67 | The first change (under skip-first) and the change to skip are passed over. A change touching the roots is collected, and the visit terminates exactly when the limit is reached. |
| Changes.VisitAllCollects | java/com/google/copybara/BaselinesWithoutLabelVisitor.java:56-67 | Visiting a list collects the first `limit` selected revisions, in order. It terminates exactly when there were that many. |
| Changes.FreshVisitorKeepsFirstMatches | java/com/google/copybara/BaselinesWithoutLabelVisitor.java:41-67 | A fresh visitor that skips nothing keeps the first `limit` changes touching the roots. |
| ChangeWalk.VisitPage | java/com/google/copybara/git/GitVisitorUtil.java:64-69 | One page is visited in order, up to and including the first TERMINATE. If the visitor never terminates, the whole page is visited. |
| ChangeWalk.VisitPageLoop | java/com/google/copybara/git/GitVisitorUtil.java:64-69 | The `for` loop over a page computes the reference visit. |
| ChangeWalk.QueriesAdvanceByPageSize | java/com/google/copybara/git/GitVisitorUtil.java:45-63 | The first query is at the start skip. Every query but the last got a non-empty page, and the next skip advances by that page's size. |
| ChangeWalk.WalkEndsAtLastQuery | java/com/google/copybara/git/GitVisitorUtil.java:48-70 | The walk ends at the last page asked for. That page failed (and the walk carries its error), came back empty, or is where the visitor terminated. |
| ChangeWalk.WalkFollowsStream | java/com/google/copybara/git/GitVisitorUtil.java:52-69 | The visitor sees a prefix of the history, each page reversed, and all of it unless it terminated. |
| ChangeWalk.WalkChanges | java/com/google/copybara/git/GitVisitorUtil.java:44-71 | The paging loop computes the reference walk from skip 0. |
| ChangeWalk.GitVisitChanges | java/com/google/copybara/git/GitVisitorUtil.java:36-75 | A null start is rejected. Otherwise the outcome is the reader's error, CannotResolveRevision when no change came back, or the visitor's state. |
| ChangeWalk.GitEmptyHistoryFails | java/com/google/copybara/git/GitVisitorUtil.java:72-74 | The Git walk cannot resolve the start exactly when the first page is empty. |
| ChangeWalk.HgError | java/com/google/copybara/hg/HgVisitorUtil.java:65-68 | A ValidationException from the log reader becomes a RepoException with its message prefixed. Other errors pass through. |
| ChangeWalk.HgVisitChanges | java/com/google/copybara/hg/HgVisitorUtil.java:39-84 | A null start is rejected. Otherwise the outcome is the reader's error, rewritten as above, or the visitor's state. |
| ChangeWalk.HgEmptyHistorySucceeds | java/com/google/copybara/hg/HgVisitorUtil.java:71-73 | Unlike Git, an empty Mercurial history succeeds, and the visitor sees nothing. |
| ChangeWalk.HgNeverValidationError | java/com/google/copybara/hg/HgVisitorUtil.java:57-68 | A Mercurial walk never ends with a ValidationException. |
| InputResolver.Create | java/com/google/copybara/onboard/core/InputProviderResolverImpl.java:45-79 | Exactly the offered inputs are registered. Each combines every provider offering it and asks the user unless it is infer-only. The loop detector starts empty. |
| InputResolver.Resolve | java/com/google/copybara/onboard/core/InputProviderResolverImpl.java:95-131 | A name already being resolved is a loop: IllegalStateException, and no provider is asked. A registered input goes to its provider with the name added to the loop detector. An unregistered one gets an asking provider with no value, kept in the table. |
| InputResolver.Check | java/com/google/copybara/onboard/core/InputProviderResolverImpl.java:133-152 | No answer is a CannotProvideException naming the input. A value of the wrong type is an IllegalStateException. Only a value of the right type is returned. |
| InputResolver.SelfRequestIsLoop | java/com/google/copybara/onboard/core/InputProviderResolverImpl.java:98-104 | A provider asking for its own input through the resolver it was given is stopped with an IllegalStateException. |
| InputResolver.LoopDetectorGrows | java/com/google/copybara/onboard/core/InputProviderResolverImpl.java:122-130 | A delegate's loop detector is the outer names plus the new one, with no name twice. |
| InputResolver.OnDemandProviderIsKept | java/com/google/copybara/onboard/core/InputProviderResolverImpl.java:108-114 | An input nobody offers is registered on first use, before its provider is asked. Later resolutions reuse that provider. |
| InputResolver.NestedRegistrationShared | java/com/google/copybara/onboard/core/InputProviderResolverImpl.java:108-130 | The provider table is shared with nested resolutions. An input registered while a provider answered is handed, on the outer resolver's next request, to that same provider, and is not registered again. |
| InputResolver.ParseStarlark | java/com/google/copybara/onboard/core/InputProviderResolverImpl.java:153-161 | Returns the converter's value only when it has the requested type. Otherwise it fails with the converter's error or a CannotConvertException. |
| InputResolver.NewConstantProvider | java/com/google/copybara/onboard/core/ConstantProvider.java:37-39 | The two-argument constructor uses the default priority. |
| InputResolver.Provides | java/com/google/copybara/onboard/core/ConstantProvider.java:57-60 | Offers exactly its one input, at its priority. |
| InputResolver.ConstantResolve | java/com/google/copybara/onboard/core/ConstantProvider.java:48-55 | Answers its constant for its own input. Any other input is an IllegalArgumentException. |
| InputResolver.NoValueCannotProvide | java/com/google/copybara/onboard/core/ConstantProvider.java:48-55 | A constant provider without a value makes resolution fail with CannotProvideException. |
| GerritApi.ParseResponseCode | java/com/google/copybara/git/gerritapi/GerritApiException.java:59-62 | The constant whose code it is; UNKNOWN for any other code. |
| GerritApi.ParseCodeRoundTrip | java/com/google/copybara/git/gerritapi/GerritApiException.java:33-35 | Every constant is found again from its code. |
| GerritApi.UnlistedIsUnknown | java/com/google/copybara/git/gerritapi/GerritApiException.java:88-98 | Server errors and other unlisted codes are UNKNOWN. |
| GerritApi.NewGerritApiException | java/com/google/copybara/git/gerritapi/GerritApiException.java:42-49 | The response code is derived from the exit code, and the texts are kept. |
| GerritApi.ExitCodeKept | java/com/google/copybara/git/gerritapi/GerritApiException.java:55-57 | `getExitCode` gives the exit code back. A listed code has a response code with that number. |
| GerritApi.ExtractError | java/com/google/copybara/git/gerritapi/GerritApiException.java:72-78 | Without a `<pre>…</pre>` pair, the whole response. Otherwise the greedy match: from the last opening tag before the last closing tag, up to that closing tag, case-insensitively. |
| GerritApi.ExtractWrapped | java/com/google/copybara/git/gerritapi/GerritApiException.java:72-78 | A message wrapped in `<pre>` tags, with no other `<`, is extracted exactly. |
| GerritApi.ExtractWithoutTags | java/com/google/copybara/git/gerritapi/GerritApiException.java:72-78 | A response with no `<` is its own error text. |
| GerritApi.MessageEmbedsParts | java/com/google/copybara/git/gerritapi/GerritApiException.java:64-70 | The message starts with the exception's message, then the code and the extracted error. It ends with the full response. |
| Archive.ParseType | java/com/google/copybara/archive/ArchiveModule.java:99-101 | Accepts exactly the four constant names and gives that constant. Any other string is a Starlark error. |
| Archive.Extension | java/com/google/copybara/archive/ArchiveModule.java:117 | The extension never holds a dot. |
| Archive.ResolveArchiveTypeAsWritten | java/com/google/copybara/archive/ArchiveModule.java:116-133 | As written, a failure is the "couldn't be inferred" error naming the file. |
| Archive.AsWrittenInfersByExtension | java/com/google/copybara/archive/ArchiveModule.java:117-129 | As written, the type is inferred exactly for the extensions zip, jar, tar and tgz. They give ZIP, JAR, TAR and TAR_GZ, each exactly for its own extension. |
| Archive.TarGzNotInferredAsWritten | java/com/google/copybara/archive/ArchiveModule.java:117-128 | As written, `a.tar.gz` has extension `gz` and is not recognised. |
| Archive.ResolveArchiveType | java/com/google/copybara/archive/ArchiveModule.java:116-133 | Corrected: a file name ending in `.tar.gz` is TAR_GZ. Failures are the "couldn't be inferred" error. |
| Archive.CorrectionOnlyAddsTarGz | java/com/google/copybara/archive/ArchiveModule.java:125-128 | Every name recognised as written keeps its type. The only names newly recognised end in `.tar.gz`. |
| Archive.ExtractPlan | java/com/google/copybara/archive/ArchiveModule.java:95-103 | Under "AUTO", the extensions zip, jar, tar and tgz give the plans ZIP, JAR, TAR and TAR_GZ. Every other extension fails with the "couldn't be inferred" error. Any other string must name a type. Without a destination, the archive's own folder is used. |
| Archive.TarGzNameHasGzExtension | java/com/google/copybara/archive/ArchiveModule.java:117 | A file name ending in `.tar.gz` has the extension `gz`. |
| Archive.AutoRefusesTarGz | java/com/google/copybara/archive/ArchiveModule.java:95-98 | `extract` with "AUTO" refuses every `.tar.gz` archive with the "couldn't be inferred" error. |
| Archive.IntendedExtractPlan | java/com/google/copybara/archive/ArchiveModule.java:95-103 | Corrected: under "AUTO" a `.tar.gz` archive is extracted as TAR_GZ. |
| Archive.IntendedPlanOnlyAddsTarGz | java/com/google/copybara/archive/ArchiveModule.java:95-128 | The corrected plan agrees with `extract` wherever `extract` succeeds. It differs only on "AUTO" `.tar.gz` archives, which `extract` refuses. |
| Archive.ExplicitTypeAlwaysAccepted | java/com/google/copybara/archive/ArchiveModule.java:97-101 | Naming a type explicitly always works, whatever the file is called. |
| Patch.PatchAll | java/com/google/copybara/transform/patch/PatchTransformation.java:81-101 | The loop over the patches computes the reference run. |
| Patch.RunShape | java/com/google/copybara/transform/patch/PatchTransformation.java:83-99 | The patches are announced in list order, numbered from 1 out of the list's size. A run succeeds only after all of them, and the first failure ends it. An unreadable file is also reported on the console. |
| Patch.Transform | java/com/google/copybara/transform/patch/PatchTransformation.java:66-79 | The patches are applied with no git directory. A checkout inside a git directory becomes a ValidationException naming both directories and the output-root flag. |
| Patch.InsideGitNeverOtherwise | java/com/google/copybara/transform/patch/PatchTransformation.java:94-99 | A run fails only with a ValidationException or the inside-git-dir error. |
| Patch.Reverse | java/com/google/copybara/transform/patch/PatchTransformation.java:103-107 | The reverse applies the same patches in reverse order and in the other direction. It keeps the excluded paths, strip and directory. |
| Patch.ReverseTwice | java/com/google/copybara/transform/patch/PatchTransformation.java:105-106 | Reversing twice gives the transformation back. |
| Patch.ReverseStartsWithLast | java/com/google/copybara/transform/patch/PatchTransformation.java:103-107 | The reversed transformation first applies the original's last patch, backwards. |
| Patch.DescribeListsPaths | java/com/google/copybara/transform/patch/PatchTransformation.java:109-113 | The description lists the patch paths in order, readable back. |
| VersionLists.TypeRefspec | java/com/google/copybara/git/version/RefspecVersionList.java:84-86 | The tag or branch refspec matches every ref under `refs/<type>/`. |
| VersionLists.Patterns | java/com/google/copybara/git/version/RefspecVersionList.java:45-52 | The patterns asked for are exactly the refspecs' origins. |
| VersionLists.StripAll | java/com/google/copybara/git/version/RefspecVersionList.java:61-66 | Every name loses as many characters as the prefix has. A shorter name is out of bounds. |
| VersionLists.List | java/com/google/copybara/git/version/RefspecVersionList.java:45-81 | A failing `ls-remote` fails the list, and a refspec list gives the reported ref names. The tag and branch lists cut 10 or 11 characters from every reported name. They fail with IndexOutOfBounds exactly when some name is shorter than the cut. |
| VersionLists.TagAndBranchPatterns | java/com/google/copybara/git/version/RefspecVersionList.java:56-58 | The tag and branch lists ask for `refs/tags/*` and `refs/heads/*`. |
| VersionLists.TagNamesRoundTrip | java/com/google/copybara/git/version/RefspecVersionList.java:61-66 | When only tags are reported, a name is listed exactly when `refs/tags/<name>` was reported. |
| VersionLists.BranchNamesRoundTrip | java/com/google/copybara/git/version/RefspecVersionList.java:76-81 | When only branches are reported, a name is listed exactly when `refs/heads/<name>` was reported. |
| VersionLists.StrippedNoLarger | java/com/google/copybara/git/version/RefspecVersionList.java:62-66 | Stripping never makes the list larger than what was reported. |
| VersionSelectors.Select | java/com/google/copybara/version/RequestedExactMatchSelector.java:32-39 | The plain selector returns the requested ref without listing. The exact-match selector lists only for a non-null ref and fails with the listing's error. It picks the ref exactly when the list has it. |
| VersionSelectors.ExactMatchRefinesRequested | java/com/google/copybara/version/RequestedVersionSelector.java:30-35 | Whatever the exact-match selector picks, the plain one picks too. They differ only on refs missing from the list. |
| VersionSelectors.OnlyListingFails | java/com/google/copybara/version/RequestedExactMatchSelector.java:35-38 | Only the exact-match selector's listing can fail a selection. |
| MigrationInfo.CreateWithVersions | java/com/google/copybara/Info.java:50-60 | Keeps the descriptions, the references and the versions. |
| MigrationInfo.Create | java/com/google/copybara/Info.java:39-48 | The same with no versions. |
| MigrationInfo.Empty | java/com/google/copybara/Info.java:35-37 | `EMPTY` has no descriptions, references or versions. |
| MigrationInfo.NewReference | java/com/google/copybara/Info.java:85-92 | The four-argument reference keeps all its arguments. |
| MigrationInfo.NewReferenceFromChange | java/com/google/copybara/Info.java:94-103 | The last migrated revision is the last migrated change's revision, or none. |
| MigrationInfo.FromChangeIsConsistent | java/com/google/copybara/Info.java:85-103 | The three-argument form is the four-argument one given the change's revision. |
| MigrationInfo.LastAvailableToMigrate | java/com/google/copybara/Info.java:136-144 | None exactly when nothing is available, else the revision of the last available change. |
| Approvals.AddApprovals | java/com/google/copybara/git/GitHubUserApprovalsValidator.java:128 | The predicates are appended; the change is kept. |
| Approvals.FindNode | java/com/google/copybara/git/GitHubUserApprovalsValidator.java:155-169 | The first history node with the commit's id, or none when no node has it. |
| Approvals.AssociatedPullRequests | java/com/google/copybara/git/GitHubUserApprovalsValidator.java:155-169 | The first matching node's pull requests, or null when no node matches. |
| Approvals.Approvers | java/com/google/copybara/git/GitHubUserApprovalsValidator.java:171-176 | Exactly the logins of reviews in state APPROVED. |
| Approvals.ApprovalPredicates | java/com/google/copybara/git/GitHubUserApprovalsValidator.java:130-141 | One approval predicate per approver, in order, with the change's URL and the "approved change" text. |
| Approvals.PullRequestPredicates | java/com/google/copybara/git/GitHubUserApprovalsValidator.java:117-141 | The pull request's author as OWNER, then one approval predicate per approving review, in review order. |
| Approvals.Provisioned | java/com/google/copybara/git/GitHubUserApprovalsValidator.java:103-144 | A commit without a pull request is left as it is. Otherwise the first pull request's predicates are appended to the change's own. |
| Approvals.AddPullRequestApprovals | java/com/google/copybara/git/GitHubUserApprovalsValidator.java:117-143 | Adding the owner and then each approver one at a time appends exactly the pull request's predicates. |
| Approvals.Provision | java/com/google/copybara/git/GitHubUserApprovalsValidator.java:104-116 | There is a warning exactly when the commit has no pull request, and it names the commit. |
| Approvals.Repository | java/com/google/copybara/git/GitHubUserApprovalsValidator.java:91-92 | The part of the project name after its last `/`. |
| Approvals.ChooseBranch | java/com/google/copybara/git/GitHubUserApprovalsValidator.java:178-189 | A non-empty branch is used as given. Otherwise the default branch is used, or null when looking it up fails. |
| Approvals.QueryFor | java/com/google/copybara/git/GitHubUserApprovalsValidator.java:88-102 | The query uses the organization and repository of the last change's URL, and the chosen branch. It fails exactly when the URL cannot be parsed, with the error of the first lookup that fails. |
| Approvals.History | java/com/google/copybara/git/GitHubUserApprovalsValidator.java:88-102 | The query and its answer. The first failing call, the URL parsing and then the history query, gives the error. |
| Approvals.NoWarningsIffAllHavePullRequests | java/com/google/copybara/git/GitHubUserApprovalsValidator.java:106-116 | No warning is logged exactly when every change's commit has a pull request. |
| Approvals.ProvisionAll | java/com/google/copybara/git/GitHubUserApprovalsValidator.java:103-144 | Each change, in order, is provisioned from the history. One warning is logged per change without a pull request, in order. |
| Approvals.MapApprovals | java/com/google/copybara/git/GitHubUserApprovalsValidator.java:82-146 | No changes means no call at all. Otherwise it succeeds exactly when the URL parsing and the history query do, and fails with the first failing call's error. On success each change, in order, is provisioned from that history. The log is the branch message followed by one warning per change without a pull request. |
| Approvals.ApproversInOrder | java/com/google/copybara/git/GitHubUserApprovalsValidator.java:171-176 | A non-approving review adds nothing. An approving one adds its author at the end. |
| Metadata.ExposeTransform | java/com/google/copybara/transform/metadata/ExposeLabelInMessage.java:65-107 | A missing label fails with "Cannot find label" unless ignored. Otherwise the single value, or every distinct value, is re-added visibly. |
| Metadata.ExposeShape | java/com/google/copybara/transform/metadata/ExposeLabelInMessage.java:77-103 | Every added label is visible, under the new name and separator. The old label is removed first exactly when the name is kept. |
| Metadata.ExposeOne | java/com/google/copybara/transform/metadata/ExposeLabelInMessage.java:66-82 | The single value is removed first when the name is kept, then added visibly. |
| Metadata.ExposeAll | java/com/google/copybara/transform/metadata/ExposeLabelInMessage.java:84-107 | Every value is re-added: the removal first, then the distinct values, or them joined. |
| Metadata.Exposed | java/com/google/copybara/transform/metadata/ExposeLabelInMessage.java:93-104 | The effects are the removal, then one visible label per exposed value. |
| Metadata.ExposeAllOnce | java/com/google/copybara/transform/metadata/ExposeLabelInMessage.java:85-104 | Exposing all values without a joiner adds each value once and nothing else. |
| Metadata.ExposeAllInFirstOccurrenceOrder | java/com/google/copybara/transform/metadata/ExposeLabelInMessage.java:85-104 | The added values keep the order of their first occurrence. |
| Metadata.JoinedLabelSplitsBack | java/com/google/copybara/transform/metadata/ExposeLabelInMessage.java:97-99 | With a one-character joiner that no value contains, the joined label splits back into the distinct values. |
| Metadata.ScrubTransform | java/com/google/copybara/transform/metadata/Scrubber.java:53-79 | A replacement naming a missing group is a ValidationException. A changed message is set. An unchanged message fails when `failIfNoMatch` is set, else the default public message (if any) is set. |
| Metadata.ScrubTwice | java/com/google/copybara/transform/metadata/Scrubber.java:53-79 | Scrubbing again with an idempotent replacement finds nothing: it fails with `failIfNoMatch`, or leaves the message or puts the default. |
| Metadata.NoopReversal | java/com/google/copybara/transform/metadata/Scrubber.java:81-84 | Exposing and scrubbing reverse to a no-op that reverses back to them. |
| Metadata.Inspected | java/com/google/copybara/transform/metadata/RestoreOriginalAuthor.java:54-71 | All current changes, or only the first. |
| Metadata.LastAuthorIsLastParsed | java/com/google/copybara/transform/metadata/RestoreOriginalAuthor.java:54-71 | No author is restored exactly when no label parses. Otherwise the author is from a change whose label parses, with no parsing label after it. |
| Metadata.UnparsableKeepsAuthor | java/com/google/copybara/transform/metadata/RestoreOriginalAuthor.java:62-66 | A label that does not parse never clears the author found before it. |
| Metadata.RestoreTransform | java/com/google/copybara/transform/metadata/RestoreOriginalAuthor.java:51-77 | Always succeeds: warnings for labels that do not parse, then, if an author was found, that author and the label's removal. |
| Metadata.AuthorReversals | java/com/google/copybara/transform/metadata/RestoreOriginalAuthor.java:79-82 | Saving reverses twice to itself. Restoring does too, except that the round trip looks at the first change only. |
| Metadata.NewExpose | java/com/google/copybara/transform/metadata/ExposeLabelInMessage.java:48-63 | A null label, new name or separator is a NullPointerException. Otherwise every argument is kept. |
| Metadata.NewScrub | java/com/google/copybara/transform/metadata/Scrubber.java:44-51 | A null pattern or replacement is a NullPointerException. The default message may be null. Every argument is kept. |
| Metadata.NewSave | java/com/google/copybara/transform/metadata/SaveOriginalAuthor.java:37-42 | A null label or separator is a NullPointerException. Otherwise both are kept. |
| Metadata.SaveTransform | java/com/google/copybara/transform/metadata/SaveOriginalAuthor.java:44-49 | Always one add-or-replace of the label with its separator, holding exactly the author's text form. |
| Metadata.Reverse | java/com/google/copybara/transform/metadata/SaveOriginalAuthor.java:51-54 | Saving and restoring reverse to each other, the restore looking at the first change only. Exposing and scrubbing reverse to a no-op. |
| Metadata.SaveThenRestore | java/com/google/copybara/transform/metadata/SaveOriginalAuthor.java:44-54 | Restoring undoes saving: when the first change carries the saved text and it parses back, the reversal sets the author and drops the label. |

## Left out

- I/O, consoles and clocks. These are not modelled:
  - directory creation, the profiler and console output, except where a message is part of an operation's result;
  - the `AuthorParser` cache, which gives the same answers as the parser;
  - the Starlark `Location` objects.
- Collaborators whose code is not part of this model are parameters of the operations:
  - `ConsistencyFile`, `AutoPatchUtil`, the origin import run and `WorkflowMode`;
  - `Glob` matching (a glob is a match predicate plus its roots; `difference` keeps the first glob's roots);
  - `SemanticVersion` beyond release versions;
  - the `TransformWork` label operations, re2j's `replaceAll`, `Author.parse` and `Author.toString`;
  - the GitHub REST and GraphQL clients, `git ls-remote`, `PatchingOptions.patch` and the log readers;
  - the combined onboarding providers (`PrioritizedInputProvider`, `AskInputProvider`, `CachedInputProvider`).
- Destination.NotImplementedReader: `NOT_IMPLEMENTED` is defined in DestinationReader.java, which is not part of this model. It is taken to fail every operation as unsupported.
- Destination.DefaultHashFunction: the hash function is named, not computed.
- ChangeWalk.WalkChanges: the history must be finite (past some skip every page is empty); a reader that never returns an empty page is not modelled.
- Changes.NewBaselineVisitor: `checkArgument` without a message is an IllegalArgumentException with an empty message.
- InputResolver.NewConstantProvider: `DEFAULT_PRIORITY` is a parameter, its value not being part of this model.
- InputResolver.Check: the wrong-type message leaves out the provider's and the classes' `toString` forms.
- Patch.Transform: the output-root flag name is a parameter.
- Archive.ParseType: the text of the Starlark error from `stringToEnum` is not modelled.
- Regeneration.CheckConsistencyFile: a null consistency-file path at a reader that exists is taken to fail with a NullPointerException, as `Path.resolve(null)` does in FolderDestinationReader.java:92-94. What other destination readers do with a null path is not modelled.
- Archive.ExtractPlan: the extraction itself, and `..` in paths (a parent is the path without its last component), are not modelled.
- VersionLists.TypeRefspec: `createRefSpec` is taken to give a refspec whose origin is the pattern itself.
- Approvals.AddApprovals: `addApprovals` (ChangeWithApprovals is not part of this model) is taken to append.
- GerritApi.ExtractError: case folding of the tags is ASCII-only.
- MapMapper.ReverseMapping: the error text is fixed, not Guava's duplicate-value message.
- MigrationInfo.CreateWithVersions: a multimap is the list of its entries in insertion order.
- Destination.StatusEqualityIsStructural: of the classes' `hashCode`s, only `DestinationStatus`'s is modelled.
- Metadata.Reverse: reversals are modelled by their shape: `IntentionalNoop`, and an `ExplicitReversal` that runs its first transformation and reverses to its second.
- WildcardRequirement.ParseVersion: pre-release and build metadata are not modelled.
- InputResolver.Resolve: the providers' answers are a parameter that also gives back the shared table. Only that table's growth is assumed (`SharesTable`), by the lemmas that need it.
- FolderReader.ReadFile: the decoded text is kept as its bytes. Decoding is strict UTF-8, as in section 4 of RFC 3629.
- FolderReader.CopyDestinationFiles: a copy that fails part-way is a plain failure. The files the Java code already copied into the target before the failure are not modelled.
- Regeneration.ImportRevision: the run helper is modelled only by whether it can be built; its other use is the history and import parameters.

## Findings

| source | as written | input that shows it | evidently intended | confidence | as-written member | corrected member |
|---|---|---|---|---|---|---|
| java/com/google/copybara/rust/WildcardRustVersionRequirement.java:57 | `replace("\\.*", "")` is a literal replacement of the three characters backslash, dot, star. No accepted requirement contains a backslash, so the required-version text keeps its `.*`. | requirement `1.2.*` with candidate `1.2.5`: the required text stays `1.2.*`, which is not a version, so `fulfills` fails | strip the trailing `.*`, so `1.2.*` admits exactly the versions 1.2.x | not executed; assumes `SemanticVersion` rejects `1.2.*` | WildcardRequirement.AsWrittenNeverStripsWildcard | WildcardRequirement.FulfillsIsWildcardMatch |
| java/com/google/copybara/archive/ArchiveModule.java:117-128 | the switch is over Guava's `getFileExtension`, the text after the last dot, so its `"tar.gz"` case can never be reached | `a.tar.gz` with type "AUTO": the extension is `gz`, and the type "couldn't be inferred" | a file name ending in `.tar.gz` is inferred as TAR_GZ | not executed | Archive.TarGzNotInferredAsWritten | Archive.CorrectionOnlyAddsTarGz |

=== FILE: approvals.dfy ===
/** `GitHubUserApprovalsValidator.mapApprovalsForUserPredicates`: marks
    each change with who authored its pull request and who approved it, as
    read from one GitHub commit-history query.

    The GitHub calls are data: the host's URL parsing, the REST lookup of
    the default branch and the GraphQL history query are functions in
    `GitHub`, and the query's answer is the list of history nodes. */
module Approvals {
  import opened Wrappers
  import Strings

  datatype PredicateType = Owner | Approved

  /** A `UserPredicate`: a user, what they did, where, and why. */
  datatype UserPredicate = UserPredicate(user: string, kind: PredicateType, url: string, description: string)

  /** A `ChangeWithApprovals`: the change's SHA-1 and URL and the predicates
      collected for it, in the order they were added. */
  datatype ChangeWithApprovals = ChangeWithApprovals(sha: string, url: string, approvals: seq<UserPredicate>)

  datatype Review = Review(state: string, login: string)

  /** A pull request associated with a commit: its author and its latest
      opinionated reviews. */
  datatype PullRequest = PullRequest(author: string, reviews: seq<Review>)

  /** A node of the commit history: the commit and the edges of its
      associated pull requests. */
  datatype HistoryNode = HistoryNode(oid: string, pullRequests: seq<PullRequest>)

  datatype GitHub = GitHub(
    userNameOf: string -> Result<string>,
    projectNameOf: string -> Result<string>,
    defaultBranch: string -> Result<string>,
    commitHistory: (string, string, Option<string>) -> Result<seq<HistoryNode>>)

  datatype Message = Info(text: string) | Warn(text: string)

  /** The history query made: organization, repository and branch. */
  datatype Query = Query(organization: string, repository: string, branch: Option<string>)

  datatype Mapped = Mapped(changes: seq<ChangeWithApprovals>, query: Option<Query>, log: seq<Message>)

  /** `addApprovals`: the predicates are appended. */
  function AddApprovals(c: ChangeWithApprovals, ps: seq<UserPredicate>): (r: ChangeWithApprovals)
    ensures r.sha == c.sha && r.url == c.url && r.approvals == c.approvals + ps
  {
    c.(approvals := c.approvals + ps)
  }

  /** `Iterables.tryFind` over the history: the position of the first node
      for the commit. */
  function FindNode(sha: string, nodes: seq<HistoryNode>): (r: Option<nat>)
    ensures r.None? <==> forall i :: 0 <= i < |nodes| ==> nodes[i].oid != sha
    ensures r.Some? ==> r.value < |nodes| && nodes[r.value].oid == sha
    ensures r.Some? ==> forall j :: 0 <= j < r.value ==> nodes[j].oid != sha
  {
    if |nodes| == 0 then None
    else if nodes[0].oid == sha then Some(0)
    else
      var r := FindNode(sha, nodes[1..]);
      if r.None? then None else Some(r.value + 1)
  }

  /** `getAssociatedPullRequest`: the pull requests of the first history
      node for the commit; `None` (null) when there is no such node. */
  function AssociatedPullRequests(sha: string, nodes: seq<HistoryNode>): (r: Option<seq<PullRequest>>)
    ensures r.None? <==> FindNode(sha, nodes).None?
    ensures r.Some? ==> r.value == nodes[FindNode(sha, nodes).value].pullRequests
  {
    match FindNode(sha, nodes)
    case None => None
    case Some(i) => Some(nodes[i].pullRequests)
  }

  /** `extractApprovers`: the logins of the reviews in state exactly
      "APPROVED", in review order. */
  function Approvers(reviews: seq<Review>): (r: seq<string>)
    ensures |r| <= |reviews|
    ensures forall login :: login in r <==> exists i :: 0 <= i < |reviews| && reviews[i].state == "APPROVED" && reviews[i].login == login
  {
    if |reviews| == 0 then []
    else
      var rest := Approvers(reviews[1..]);
      assert forall i :: 0 < i < |reviews| ==> reviews[i] == reviews[1..][i - 1];
      if reviews[0].state == "APPROVED" then [reviews[0].login] + rest else rest
  }

  function OwnerDescription(author: string, sha: string): string {
    "GitHub user '" + author + "' authored change with sha '" + sha + "'."
  }

  function ApproverDescription(login: string, sha: string): string {
    "GitHub user '" + login + "' approved change with sha '" + sha + "'."
  }

  function NoPullRequestMsg(sha: string): string {
    "Expected to find at least one " + "pull request associated with " + "commit sha '" + sha
      + "', but found 0'. Consider " + "expanding the commit history " + "validation window via"
      + " --gql-commit-history-override." + " Skipping authorship and " + "approval predicate"
      + " provisioning for this commit..."
  }

  /** The approval predicates for a list of approvers. */
  function ApprovalPredicates(approvers: seq<string>, url: string, sha: string): (r: seq<UserPredicate>)
    ensures |r| == |approvers|
    ensures forall i :: 0 <= i < |r| ==> r[i] == UserPredicate(approvers[i], Approved, url, ApproverDescription(approvers[i], sha))
  {
    seq(|approvers|, i requires 0 <= i < |approvers| => UserPredicate(approvers[i], Approved, url, ApproverDescription(approvers[i], sha)))
  }

  /** The commit has an associated pull request in the history. */
  predicate HasPullRequest(sha: string, nodes: seq<HistoryNode>) {
    var prs := AssociatedPullRequests(sha, nodes);
    prs.Some? && |prs.value| > 0
  }

  /** The predicates a pull request gives a change: its author as OWNER,
      then one approval per approving review, in review order. */
  function PullRequestPredicates(c: ChangeWithApprovals, pr: PullRequest): (r: seq<UserPredicate>)
    ensures |r| == 1 + |Approvers(pr.reviews)|
    ensures r[0] == UserPredicate(pr.author, Owner, c.url, OwnerDescription(pr.author, c.sha))
    ensures forall k :: 0 <= k < |Approvers(pr.reviews)| ==>
      r[k + 1] == UserPredicate(Approvers(pr.reviews)[k], Approved, c.url, ApproverDescription(Approvers(pr.reviews)[k], c.sha))
  {
    [UserPredicate(pr.author, Owner, c.url, OwnerDescription(pr.author, c.sha))]
      + ApprovalPredicates(Approvers(pr.reviews), c.url, c.sha)
  }

  /** What provisioning does to a change: nothing when its commit has no
      associated pull request in the history; otherwise the first pull
      request's predicates are added after the change's own. */
  function Provisioned(c: ChangeWithApprovals, nodes: seq<HistoryNode>): (r: ChangeWithApprovals)
    ensures r.sha == c.sha && r.url == c.url && c.approvals <= r.approvals
    ensures !HasPullRequest(c.sha, nodes) ==> r == c
    ensures HasPullRequest(c.sha, nodes) ==>
      r.approvals[|c.approvals|..] == PullRequestPredicates(c, AssociatedPullRequests(c.sha, nodes).value[0])
  {
    if !HasPullRequest(c.sha, nodes) then c
    else
      var pr := AssociatedPullRequests(c.sha, nodes).value[0];
      var r := AddApprovals(c, PullRequestPredicates(c, pr));
      assert r.approvals[|c.approvals|..] == PullRequestPredicates(c, pr);
      r
  }

  /** One change with a pull request: the owner, then one approver at a
      time. */
  method AddPullRequestApprovals(c: ChangeWithApprovals, pr: PullRequest) returns (r: ChangeWithApprovals)
    ensures r == AddApprovals(c, PullRequestPredicates(c, pr))
  {
    var owner := UserPredicate(pr.author, Owner, c.url, OwnerDescription(pr.author, c.sha));
    r := AddApprovals(c, [owner]);
    var approvers := Approvers(pr.reviews);
    ghost var granted := ApprovalPredicates(approvers, c.url, c.sha);
    var i := 0;
    while i < |approvers|
      invariant i <= |approvers|
      invariant r.sha == c.sha && r.url == c.url
      invariant r.approvals == c.approvals + ([owner] + granted[..i])
    {
      var p := UserPredicate(approvers[i], Approved, c.url, ApproverDescription(approvers[i], c.sha));
      assert granted[..i + 1] == granted[..i] + [p];
      assert c.approvals + ([owner] + granted[..i]) + [p] == c.approvals + ([owner] + granted[..i + 1]);
      r := AddApprovals(r, [p]);
      i := i + 1;
    }
    assert granted[..i] == granted;
    assert [owner] + granted == PullRequestPredicates(c, pr);
  }

  /** One change, with the warning for a commit without pull request. */
  method Provision(c: ChangeWithApprovals, nodes: seq<HistoryNode>) returns (r: ChangeWithApprovals, warning: Option<string>)
    ensures r == Provisioned(c, nodes)
    ensures warning.Some? <==> !HasPullRequest(c.sha, nodes)
    ensures warning.Some? ==> warning.value == NoPullRequestMsg(c.sha)
  {
    var prs := AssociatedPullRequests(c.sha, nodes);
    if prs.None? || |prs.value| == 0 {
      return c, Some(NoPullRequestMsg(c.sha));
    }
    r := AddPullRequestApprovals(c, prs.value[0]);
    warning := None;
  }

  /** The repository of a project name `owner/name`: what follows its last
      `/`, the whole name when it has none. */
  function Repository(projectName: string): (r: string)
    ensures '/' !in r
    ensures |r| <= |projectName| && projectName[|projectName| - |r|..] == r
  {
    projectName[Strings.LastIndexOf(projectName, '/') + 1..]
  }

  /** The branch to query: the given one unless null or empty, else the
      repository's default branch, or null when that lookup fails. */
  function ChooseBranch(branch: Option<string>, projectName: string, gh: GitHub): (r: (Option<string>, seq<Message>))
    ensures branch.Some? && branch.value != "" ==> r == (branch, [])
    ensures (branch.None? || branch.value == "") && gh.defaultBranch(projectName).Success? ==>
      r.0 == Some(gh.defaultBranch(projectName).value)
    ensures (branch.None? || branch.value == "") && gh.defaultBranch(projectName).Failure? ==> r.0.None?
  {
    if branch.Some? && branch.value != "" then (branch, [])
    else match gh.defaultBranch(projectName)
      case Success(b) => (Some(b), [Info("Inferred primary branch as '" + b + "'")])
      case Failure(e) => (None, [Warn("Failed to get branch for project " + projectName + " with error '" + ErrorMessage(e) + "'")])
  }

  /** `getMessage` of an exception. */
  function ErrorMessage(e: Error): string {
    match e
    case Validation(m) => m
    case Repo(m) => m
    case _ => ""
  }

  /** The history query for a non-empty list of changes: the organization
      and the repository of the last change's project, and the branch. */
  function QueryFor(changes: seq<ChangeWithApprovals>, branch: Option<string>, gh: GitHub): (r: Result<(Query, seq<Message>)>)
    requires |changes| > 0
    ensures var url := changes[|changes| - 1].url;
      r.Success? <==> gh.userNameOf(url).Success? && gh.projectNameOf(url).Success?
    ensures var url := changes[|changes| - 1].url;
      gh.userNameOf(url).Failure? ==> r == Failure(gh.userNameOf(url).error)
    ensures var url := changes[|changes| - 1].url;
      gh.userNameOf(url).Success? && gh.projectNameOf(url).Failure? ==> r == Failure(gh.projectNameOf(url).error)
    ensures r.Success? ==>
      var url := changes[|changes| - 1].url;
      var project := gh.projectNameOf(url).value;
      r.value.0 == Query(gh.userNameOf(url).value, Repository(project), ChooseBranch(branch, project, gh).0)
  {
    var url := changes[|changes| - 1].url;
    var organization :- gh.userNameOf(url);
    var projectName :- gh.projectNameOf(url);
    var (queryBranch, log) := ChooseBranch(branch, projectName, gh);
    Success((Query(organization, Repository(projectName), queryBranch), log))
  }

  /** The warnings provisioning logs: one per change whose commit has no
      pull request, in the order of the changes. */
  function MissingPullRequestWarnings(changes: seq<ChangeWithApprovals>, nodes: seq<HistoryNode>): (w: seq<Message>)
    ensures |w| <= |changes|
  {
    if |changes| == 0 then []
    else
      var last := changes[|changes| - 1];
      MissingPullRequestWarnings(changes[..|changes| - 1], nodes)
        + (if HasPullRequest(last.sha, nodes) then [] else [Warn(NoPullRequestMsg(last.sha))])
  }

  lemma WarningsStep(changes: seq<ChangeWithApprovals>, nodes: seq<HistoryNode>, i: nat, warning: Option<string>)
    requires i < |changes|
    requires warning.Some? <==> !HasPullRequest(changes[i].sha, nodes)
    requires warning.Some? ==> warning.value == NoPullRequestMsg(changes[i].sha)
    ensures MissingPullRequestWarnings(changes[..i + 1], nodes) == MissingPullRequestWarnings(changes[..i], nodes)
      + (if warning.Some? then [Warn(warning.value)] else [])
  {
    assert changes[..i + 1][..i] == changes[..i];
  }

  lemma ProvisionedStep(out: seq<ChangeWithApprovals>, changes: seq<ChangeWithApprovals>, nodes: seq<HistoryNode>, c: ChangeWithApprovals)
    requires |out| < |changes|
    requires forall k :: 0 <= k < |out| ==> out[k] == Provisioned(changes[k], nodes)
    requires c == Provisioned(changes[|out|], nodes)
    ensures forall k :: 0 <= k < |out| + 1 ==> (out + [c])[k] == Provisioned(changes[k], nodes)
  {
  }

  /** No warning is logged exactly when every change has a pull request. */
  lemma {:induction false} NoWarningsIffAllHavePullRequests(changes: seq<ChangeWithApprovals>, nodes: seq<HistoryNode>)
    ensures MissingPullRequestWarnings(changes, nodes) == [] <==>
      forall i :: 0 <= i < |changes| ==> HasPullRequest(changes[i].sha, nodes)
  {
    if |changes| > 0 {
      var init := changes[..|changes| - 1];
      NoWarningsIffAllHavePullRequests(init, nodes);
      assert forall i :: 0 <= i < |init| ==> init[i] == changes[i];
    }
  }

  /** The query for a non-empty list of changes and its answer: the first
      failing call (the URL parsing, then the history query) gives the
      error. */
  function History(changes: seq<ChangeWithApprovals>, branch: Option<string>, gh: GitHub)
    : (r: Result<(Query, seq<Message>, seq<HistoryNode>)>)
    requires |changes| > 0
    ensures QueryFor(changes, branch, gh).Failure? ==> r == Failure(QueryFor(changes, branch, gh).error)
    ensures QueryFor(changes, branch, gh).Success? ==>
      var (q, log) := QueryFor(changes, branch, gh).value;
      && (r.Success? <==> gh.commitHistory(q.organization, q.repository, q.branch).Success?)
      && (r.Failure? ==> r == Failure(gh.commitHistory(q.organization, q.repository, q.branch).error))
      && (r.Success? ==> r.value == (q, log, gh.commitHistory(q.organization, q.repository, q.branch).value))
  {
    var (query, log) :- QueryFor(changes, branch, gh);
    var nodes :- gh.commitHistory(query.organization, query.repository, query.branch);
    Success((query, log, nodes))
  }

  /** Every change provisioned from one history, in order, with the
      warnings logged on the way. */
  method ProvisionAll(changes: seq<ChangeWithApprovals>, nodes: seq<HistoryNode>)
    returns (out: seq<ChangeWithApprovals>, warnings: seq<Message>)
    ensures |out| == |changes|
    ensures forall k :: 0 <= k < |changes| ==> out[k] == Provisioned(changes[k], nodes)
    ensures warnings == MissingPullRequestWarnings(changes, nodes)
  {
    out, warnings := [], [];
    var i := 0;
    while i < |changes|
      invariant i <= |changes|
      invariant |out| == i
      invariant forall k :: 0 <= k < i ==> out[k] == Provisioned(changes[k], nodes)
      invariant warnings == MissingPullRequestWarnings(changes[..i], nodes)
    {
      var c, warning := Provision(changes[i], nodes);
      WarningsStep(changes, nodes, i, warning);
      if warning.Some? {
        warnings := warnings + [Warn(warning.value)];
      }
      assert warnings == MissingPullRequestWarnings(changes[..i + 1], nodes);
      ProvisionedStep(out, changes, nodes, c);
      out := out + [c];
      i := i + 1;
    }
    assert changes[..i] == changes;
  }

  /** `mapApprovalsForUserPredicates(changes, branch)`: no call at all for
      no changes; otherwise one history query, and one result per change,
      in order, each provisioned from that history. The first failing call
      ends it with its error. */
  method MapApprovals(changes: seq<ChangeWithApprovals>, branch: Option<string>, gh: GitHub) returns (r: Result<Mapped>)
    ensures |changes| == 0 ==> r == Success(Mapped([], None, []))
    ensures |changes| > 0 ==> (r.Success? <==> History(changes, branch, gh).Success?)
    ensures |changes| > 0 && History(changes, branch, gh).Failure? ==> r == Failure(History(changes, branch, gh).error)
    ensures r.Success? ==> |r.value.changes| == |changes|
    ensures r.Success? && |changes| > 0 ==>
      var (q, log, nodes) := History(changes, branch, gh).value;
      && r.value.query == Some(q)
      && (forall i :: 0 <= i < |changes| ==> r.value.changes[i] == Provisioned(changes[i], nodes))
      && r.value.log == log + MissingPullRequestWarnings(changes, nodes)
  {
    if |changes| == 0 {
      return Success(Mapped([], None, []));
    }
    var h :- History(changes, branch, gh);
    var (query, log, nodes) := h;
    var out, warnings := ProvisionAll(changes, nodes);
    return Success(Mapped(out, Some(query), log + warnings));
  }

  /** Only approving reviews count: a review in any other state adds
      nothing, and each approving one adds its author once, in order. */
  lemma ApproversInOrder(reviews: seq<Review>, extra: Review)
    ensures extra.state != "APPROVED" ==> Approvers(reviews + [extra]) == Approvers(reviews)
    ensures extra.state == "APPROVED" ==> Approvers(reviews + [extra]) == Approvers(reviews) + [extra.login]
    decreases |reviews|
  {
    if |reviews| > 0 {
      assert (reviews + [extra])[1..] == reviews[1..] + [extra];
      ApproversInOrder(reviews[1..], extra);
    }
  }
}

=== FILE: archive_module.dfy ===
/** The choices `archive.extract` makes before extracting: the archive type
    (given by name, or inferred from the file extension under "AUTO") and
    the destination folder. The extraction itself is not modelled. */
module Archive {
  import opened Wrappers
  import Strings
  import opened Files

  datatype ExtractType = Jar | Zip | Tar | TarGz

  /** The enum constant names `SkylarkUtil.stringToEnum` accepts. */
  function TypeName(t: ExtractType): string {
    match t
    case Jar => "JAR"
    case Zip => "ZIP"
    case Tar => "TAR"
    case TarGz => "TAR_GZ"
  }

  /** `stringToEnum("type", s, ExtractType.class)`: the constant of that
      exact name; any other string is a Starlark error (its text is not
      modelled). */
  function ParseType(s: string): (r: Result<ExtractType>)
    ensures r.Success? <==> s in {"JAR", "ZIP", "TAR", "TAR_GZ"}
    ensures r.Success? ==> TypeName(r.value) == s
    ensures r.Failure? ==> r.error.Eval?
  {
    match s
    case "JAR" => Success(Jar)
    case "ZIP" => Success(Zip)
    case "TAR" => Success(Tar)
    case "TAR_GZ" => Success(TarGz)
    case _ => Failure(Eval(""))
  }

  /** The last component of a path. */
  function FileName(p: Path): (n: string)
    ensures '/' !in n
    ensures |n| <= |p| && p[|p| - |n|..] == n
  {
    var i := Strings.LastIndexOf(p, '/');
    LastComponent(p, i);
    p[i + 1..]
  }

  lemma LastComponent(p: Path, i: int)
    requires i == Strings.LastIndexOf(p, '/')
    ensures -1 <= i < |p|
    ensures '/' !in p[i + 1..]
  {
  }

  /** Guava's `Files.getFileExtension`: what follows the last dot of the file
      name, "" when it has none. */
  function Extension(p: Path): (e: string)
    ensures '.' !in e
  {
    var name := FileName(p);
    var i := Strings.LastIndexOf(name, '.');
    if i < 0 then "" else name[i + 1..]
  }

  function CannotInferMsg(p: Path): string {
    "The archive type couldn't be inferred for the file: " + p
  }

  /** `resolveArchiveType` as written: the switch over the extension, whose
      "tar.gz" label can never be reached because an extension holds no dot. */
  function ResolveArchiveTypeAsWritten(p: Path): (r: Result<ExtractType>)
    ensures r.Failure? ==> r.error == Eval(CannotInferMsg(p))
  {
    match Extension(p)
    case "zip" => Success(Zip)
    case "jar" => Success(Jar)
    case "tar" => Success(Tar)
    case "tgz" => Success(TarGz)
    case "tar.gz" => Success(TarGz)
    case _ => Failure(Eval(CannotInferMsg(p)))
  }

  /** The type inferred as written, by extension alone. */
  lemma AsWrittenInfersByExtension(p: Path)
    ensures ResolveArchiveTypeAsWritten(p).Success? <==> Extension(p) in {"zip", "jar", "tar", "tgz"}
    ensures Extension(p) == "zip" <==> ResolveArchiveTypeAsWritten(p) == Success(Zip)
    ensures Extension(p) == "jar" <==> ResolveArchiveTypeAsWritten(p) == Success(Jar)
    ensures Extension(p) == "tar" <==> ResolveArchiveTypeAsWritten(p) == Success(Tar)
    ensures Extension(p) == "tgz" <==> ResolveArchiveTypeAsWritten(p) == Success(TarGz)
  {
  }

  /** The counterexample: a `.tar.gz` archive is not recognised, because its
      extension is "gz". */
  lemma TarGzNotInferredAsWritten()
    ensures Extension("a.tar.gz") == "gz"
    ensures ResolveArchiveTypeAsWritten("a.tar.gz").Failure?
  {
    var p := "a.tar.gz";
    assert p[5] == '.' && p[6..] == "gz";
    assert '/' !in p;
    ExtensionAfterLastDot(p, 5);
    GzNotRecognised(p);
  }

  /** A plain name's extension is what follows its last dot. */
  lemma ExtensionAfterLastDot(p: Path, k: nat)
    requires '/' !in p && k < |p| && p[k] == '.' && '.' !in p[k + 1..]
    ensures Extension(p) == p[k + 1..]
  {
    assert FileName(p) == p;
    Strings.LastIndexOfUnique(p, '.', k);
  }

  /** The extension "gz" is not one the switch knows. */
  lemma GzNotRecognised(p: Path)
    requires Extension(p) == "gz"
    ensures ResolveArchiveTypeAsWritten(p).Failure?
  {
    AsWrittenInfersByExtension(p);
    assert |Extension(p)| == 2;
  }

  /** The file name ends with `.tar.gz`. */
  predicate IsTarGzName(p: Path) {
    var n := FileName(p);
    |n| >= 7 && n[|n| - 7..] == ".tar.gz"
  }

  /** `resolveArchiveType` as evidently intended: a file name ending in
      `.tar.gz` is a gzipped tarball; otherwise the extension decides. */
  function ResolveArchiveType(p: Path): (r: Result<ExtractType>)
    ensures IsTarGzName(p) ==> r == Success(TarGz)
    ensures r.Failure? ==> r.error == Eval(CannotInferMsg(p))
  {
    if IsTarGzName(p) then Success(TarGz) else ResolveArchiveTypeAsWritten(p)
  }

  /** The correction only adds `.tar.gz`: every name the switch recognised
      keeps its type, and the only names newly recognised end in `.tar.gz`. */
  lemma CorrectionOnlyAddsTarGz(p: Path)
    ensures ResolveArchiveTypeAsWritten(p).Success? ==> ResolveArchiveType(p) == ResolveArchiveTypeAsWritten(p)
    ensures ResolveArchiveType(p).Success? && ResolveArchiveTypeAsWritten(p).Failure? ==> IsTarGzName(p)
  {
    if IsTarGzName(p) {
      var n := FileName(p);
      var i := Strings.LastIndexOf(n, '.');
      assert n[|n| - 3] == '.';
      assert i >= |n| - 3;
      assert n[i + 1..] == "gz";
    }
  }

  /** The archive type and destination `extract` uses. */
  datatype Plan = Plan(kind: ExtractType, destination: Path)

  /** `extract`'s choices: "AUTO" infers the type with the switch as
      written, any other string names it; without a destination folder the
      archive's own folder is used. */
  function ExtractPlan(archive: Path, typeStr: string, destination: Option<Path>): (r: Result<Plan>)
    ensures typeStr == "AUTO" ==>
      (r.Success? <==> Extension(archive) in {"zip", "jar", "tar", "tgz"})
    ensures typeStr == "AUTO" && r.Failure? ==> r.error == Eval(CannotInferMsg(archive))
    ensures typeStr != "AUTO" ==> (r.Success? <==> typeStr in {"JAR", "ZIP", "TAR", "TAR_GZ"})
    ensures r.Success? && typeStr != "AUTO" ==> TypeName(r.value.kind) == typeStr
    ensures typeStr == "AUTO" && Extension(archive) == "zip" ==>
      r == Success(Plan(Zip, destination.GetOr(Parent(archive))))
    ensures typeStr == "AUTO" && Extension(archive) == "jar" ==>
      r == Success(Plan(Jar, destination.GetOr(Parent(archive))))
    ensures typeStr == "AUTO" && Extension(archive) == "tar" ==>
      r == Success(Plan(Tar, destination.GetOr(Parent(archive))))
    ensures typeStr == "AUTO" && Extension(archive) == "tgz" ==>
      r == Success(Plan(TarGz, destination.GetOr(Parent(archive))))
    ensures r.Success? && typeStr == "AUTO" ==> (r.value.kind == TarGz <==> Extension(archive) == "tgz")
    ensures r.Success? ==> r.value.destination == destination.GetOr(Parent(archive))
  {
    AsWrittenInfersByExtension(archive);
    var kind :- if typeStr == "AUTO" then ResolveArchiveTypeAsWritten(archive) else ParseType(typeStr);
    Success(Plan(kind, destination.GetOr(Parent(archive))))
  }

  /** A file name ending in `.tar.gz` has the extension "gz". */
  lemma TarGzNameHasGzExtension(p: Path)
    requires IsTarGzName(p)
    ensures Extension(p) == "gz"
  {
    var n := FileName(p);
    assert n[|n| - 3] == '.' && n[|n| - 2..] == "gz";
    assert '.' !in n[|n| - 2..];
    Strings.LastIndexOfUnique(n, '.', |n| - 3);
  }

  /** So `extract` with "AUTO" refuses every `.tar.gz` archive, wherever it
      lies and whatever the destination. */
  lemma AutoRefusesTarGz(archive: Path, destination: Option<Path>)
    requires IsTarGzName(archive)
    ensures ExtractPlan(archive, "AUTO", destination) == Failure(Eval(CannotInferMsg(archive)))
  {
    TarGzNameHasGzExtension(archive);
  }

  /** `extract`'s choices with the corrected inference. */
  function IntendedExtractPlan(archive: Path, typeStr: string, destination: Option<Path>): (r: Result<Plan>)
    ensures typeStr == "AUTO" && IsTarGzName(archive) ==>
      r == Success(Plan(TarGz, destination.GetOr(Parent(archive))))
    ensures typeStr == "AUTO" && r.Failure? ==> r.error == Eval(CannotInferMsg(archive))
  {
    var kind :- if typeStr == "AUTO" then ResolveArchiveType(archive) else ParseType(typeStr);
    Success(Plan(kind, destination.GetOr(Parent(archive))))
  }

  /** The corrected plan differs from `extract`'s only on AUTO `.tar.gz`
      archives, which it accepts where `extract` fails. */
  lemma IntendedPlanOnlyAddsTarGz(archive: Path, typeStr: string, destination: Option<Path>)
    ensures ExtractPlan(archive, typeStr, destination).Success? ==>
      IntendedExtractPlan(archive, typeStr, destination) == ExtractPlan(archive, typeStr, destination)
    ensures IntendedExtractPlan(archive, typeStr, destination) != ExtractPlan(archive, typeStr, destination) ==>
      typeStr == "AUTO" && IsTarGzName(archive) && ExtractPlan(archive, typeStr, destination).Failure?
  {
    CorrectionOnlyAddsTarGz(archive);
  }

  /** Naming a type explicitly is the way around inference: every type
      can be asked for by name, whatever the file is called. */
  lemma ExplicitTypeAlwaysAccepted(archive: Path, t: ExtractType, destination: Option<Path>)
    ensures ExtractPlan(archive, TypeName(t), destination) == Success(Plan(t, destination.GetOr(Parent(archive))))
  {
    assert TypeName(t) != "AUTO" by {
      assert TypeName(t)[0] != 'A';
    }
    assert ParseType(TypeName(t)) == Success(t);
  }
}

=== FILE: author_parser.dfy ===
/** `AuthorParser`: reads the `Name <email>` author form used by Git,
    Mercurial and the configuration. It is lenient: the email may be empty
    and is not checked to look like an address. */
module AuthorParser {
  import opened Wrappers
  import Strings

  datatype Author = Author(name: string, email: string)

  /** The one character `.` does not match in a re2j pattern compiled
      without the `s` flag: the newline. */
  predicate LineTerminator(c: char) {
    c == '\n'
  }

  /** The whole text is one of `".+"` or `'.+'`: at least one character
      between two equal quotes, none of them a newline. */
  predicate InQuotes(s: string) {
    && |s| >= 3
    && ((s[0] == '"' && s[|s| - 1] == '"') || (s[0] == '\'' && s[|s| - 1] == '\''))
    && forall i :: 1 <= i < |s| - 1 ==> !LineTerminator(s[i])
  }

  /** The quotes a whole-quoted author is wrapped in are dropped. */
  function Unquote(s: string): (r: string)
    ensures InQuotes(s) ==> r == s[1..|s| - 1]
    ensures !InQuotes(s) ==> r == s
  {
    if InQuotes(s) then s[1..|s| - 1] else s
  }

  /** `s` is `name<email>` as the pattern `[^<]+<[^>]*>` reads it: a
      non-empty name without `<` and an email without `>`. */
  predicate AuthorForm(s: string, name: string, email: string) {
    && |name| >= 1 && '<' !in name && '>' !in email
    && s == name + "<" + email + ">"
  }

  function InvalidAuthorMsg(s: string): string {
    "Invalid author '" + s + "'. Must be in the form of 'Name <email>'"
  }

  /** Matches an unquoted author: the name runs to the first `<`, and the
      email from there to the closing `>` at the very end. */
  function ParseUnquoted(s: string): (r: Result<Author>)
    ensures r.Failure? ==> r.error == InvalidAuthor(InvalidAuthorMsg(s))
  {
    if '<' !in s then Failure(InvalidAuthor(InvalidAuthorMsg(s)))
    else
      var i := Strings.IndexOf(s, '<');
      if i >= 1 && |s| >= i + 2 && s[|s| - 1] == '>' && '>' !in s[i + 1..|s| - 1] then
        Success(Author(Strings.Trim(s[..i]), Strings.Trim(s[i + 1..|s| - 1])))
      else Failure(InvalidAuthor(InvalidAuthorMsg(s)))
  }

  /** `AuthorParser.parse` (`internalParse`; the cache in front of it gives
      the same answers). The error names the author after unquoting. */
  function Parse(s: string): (r: Result<Author>)
    ensures r.Failure? ==> r.error == InvalidAuthor(InvalidAuthorMsg(Unquote(s)))
    ensures InQuotes(s) ==> r == ParseUnquoted(s[1..|s| - 1])
    ensures !InQuotes(s) ==> r == ParseUnquoted(s)
  {
    ParseUnquoted(Unquote(s))
  }

  /** `parse` with a possibly null argument: null is rejected. */
  function ParseNullable(s: Option<string>): (r: Result<Author>)
    ensures s.None? ==> r == Failure(NullPointer)
    ensures s.Some? ==> r == Parse(s.value)
  {
    match s
    case None => Failure(NullPointer)
    case Some(a) => Parse(a)
  }

  /** The split into name and email is unique: the name ends at the first
      `<` and the email at the last character. */
  lemma AuthorFormUnique(s: string, n1: string, e1: string, n2: string, e2: string)
    requires AuthorForm(s, n1, e1) && AuthorForm(s, n2, e2)
    ensures n1 == n2 && e1 == e2
  {
    assert '<' in s by { assert s[|n1|] == '<'; }
    FirstLessThan(s, n1, e1);
    FirstLessThan(s, n2, e2);
    assert e1 == s[|n1| + 1..|s| - 1];
    assert e2 == s[|n2| + 1..|s| - 1];
  }

  lemma FirstLessThan(s: string, n: string, e: string)
    requires AuthorForm(s, n, e)
    ensures '<' in s && Strings.IndexOf(s, '<') == |n|
    ensures s[..|n|] == n
  {
    assert s[|n|] == '<';
    assert s[..|n|] == n;
  }

  /** An unquoted author is accepted exactly when it has the `Name <email>`
      form, and then the name and email are its two parts, trimmed. */
  lemma ParseUnquotedIsPattern(s: string)
    ensures ParseUnquoted(s).Success? <==> exists n, e :: AuthorForm(s, n, e)
    ensures forall n, e :: AuthorForm(s, n, e) ==>
      ParseUnquoted(s) == Success(Author(Strings.Trim(n), Strings.Trim(e)))
  {
    if ParseUnquoted(s).Success? {
      var n, e := AcceptedHasForm(s);
    }
    forall n, e | AuthorForm(s, n, e)
      ensures ParseUnquoted(s) == Success(Author(Strings.Trim(n), Strings.Trim(e)))
    {
      FormIsAccepted(s, n, e);
    }
  }

  lemma AcceptedHasForm(s: string) returns (n: string, e: string)
    requires ParseUnquoted(s).Success?
    ensures AuthorForm(s, n, e)
  {
    var i := Strings.IndexOf(s, '<');
    assert i >= 1 && |s| >= i + 2 && s[|s| - 1] == '>' && '>' !in s[i + 1..|s| - 1];
    n, e := s[..i], s[i + 1..|s| - 1];
    Reassemble(s, i);
  }

  lemma Reassemble(s: string, i: nat)
    requires i >= 1 && |s| >= i + 2 && s[|s| - 1] == '>' && s[i] == '<'
    ensures s == s[..i] + "<" + s[i + 1..|s| - 1] + ">"
  {
    assert s == s[..i] + [s[i]] + s[i + 1..|s| - 1] + [s[|s| - 1]];
  }

  lemma FormIsAccepted(s: string, n: string, e: string)
    requires AuthorForm(s, n, e)
    ensures ParseUnquoted(s) == Success(Author(Strings.Trim(n), Strings.Trim(e)))
  {
    FirstLessThan(s, n, e);
    assert s[|n| + 1..|s| - 1] == e;
  }

  /** The lenient case: an empty email is accepted. */
  lemma EmptyEmailAccepted(name: string)
    requires |name| >= 1 && '<' !in name && !InQuotes(name + "<>")
    ensures Parse(name + "<>") == Success(Author(Strings.Trim(name), ""))
  {
    var s := name + "<>";
    assert AuthorForm(s, name, "");
    ParseUnquotedIsPattern(s);
  }

  /** `parse` accepts exactly the authors whose unquoted text has the
      `Name <email>` form, and gives its two parts, trimmed. */
  lemma ParseIsPattern(s: string)
    ensures Parse(s).Success? <==> exists n, e :: AuthorForm(Unquote(s), n, e)
    ensures forall n, e :: AuthorForm(Unquote(s), n, e) ==>
      Parse(s) == Success(Author(Strings.Trim(n), Strings.Trim(e)))
  {
    ParseUnquotedIsPattern(Unquote(s));
  }

  /** A double-quoted `name<email>` with no newline inside is parsed as
      what the quotes hold; a carriage return, say, is no line break to the
      quote pattern and is simply trimmed away. */
  lemma QuotedAuthorParsed(name: string, email: string)
    requires |name| >= 1 && '<' !in name && '>' !in email
    requires '\n' !in name && '\n' !in email
    ensures Parse("\"" + name + "<" + email + ">\"") == Success(Author(Strings.Trim(name), Strings.Trim(email)))
  {
    var u := name + "<" + email + ">";
    var s := "\"" + name + "<" + email + ">\"";
    assert s == "\"" + u + "\"";
    assert s[1..|s| - 1] == u;
    assert forall i :: 1 <= i < |s| - 1 ==> s[i] == u[i - 1];
    assert forall i :: 0 <= i < |u| ==> u[i] != '\n' by {
      forall i | 0 <= i < |u| ensures u[i] != '\n' {
        if i < |name| { assert u[i] == name[i]; }
        else if |name| < i < |name| + 1 + |email| { assert u[i] == email[i - |name| - 1]; }
      }
    }
    assert InQuotes(s);
    assert AuthorForm(u, name, email);
    FormIsAccepted(u, name, email);
    assert Parse(s) == ParseUnquoted(u);
  }
}

=== FILE: autopatch_config.dfy ===
/** `AutoPatchfileConfiguration`: the value record that tells regeneration how
    to write automatic patch files. */
module AutoPatchConfig {
  import opened Wrappers
  import opened Files

  /** `header` and `directory` are the nullable fields. */
  datatype AutoPatchfileConfiguration = AutoPatchfileConfiguration(
    header: Option<string>,
    suffix: string,
    directoryPrefix: string,
    directory: Option<string>,
    stripFilenames: bool,
    stripLineNumbers: bool,
    glob: Glob)

  /** `AutoPatchfileConfiguration.create`; `None` is a null argument. The
      generated constructor refuses null for the non-nullable `suffix`,
      `directoryPrefix` and `glob`, and accepts it for `header` and `directory`. */
  function Create(
    header: Option<string>,
    suffix: Option<string>,
    directoryPrefix: Option<string>,
    directory: Option<string>,
    stripFilenames: bool,
    stripLineNumbers: bool,
    glob: Option<Glob>): (r: Result<AutoPatchfileConfiguration>)
    ensures r.Success? <==> suffix.Some? && directoryPrefix.Some? && glob.Some?
    ensures r.Failure? ==> r.error == NullPointer
    ensures r.Success? ==>
      && r.value.header == header
      && r.value.suffix == suffix.value
      && r.value.directoryPrefix == directoryPrefix.value
      && r.value.directory == directory
      && r.value.stripFilenames == stripFilenames
      && r.value.stripLineNumbers == stripLineNumbers
      && r.value.glob == glob.value
  {
    if suffix.None? || directoryPrefix.None? || glob.None? then Failure(NullPointer)
    else Success(AutoPatchfileConfiguration(
      header, suffix.value, directoryPrefix.value, directory, stripFilenames, stripLineNumbers, glob.value))
  }

  /** Value semantics: two configurations built by `create` are equal exactly
      when all seven arguments are. */
  lemma CreateIsInjective(
    h1: Option<string>, s1: string, p1: string, d1: Option<string>, f1: bool, l1: bool, g1: Glob,
    h2: Option<string>, s2: string, p2: string, d2: Option<string>, f2: bool, l2: bool, g2: Glob)
    ensures Create(h1, Some(s1), Some(p1), d1, f1, l1, Some(g1)) == Create(h2, Some(s2), Some(p2), d2, f2, l2, Some(g2))
      <==> h1 == h2 && s1 == s2 && p1 == p2 && d1 == d2 && f1 == f2 && l1 == l2 && g1 == g2
  {
  }
}

=== FILE: change_visitors.dfy ===
/** Changes as the history walkers hand them to a visitor, and
    `BaselinesWithoutLabelVisitor`, which collects the revisions of the
    first changes that touch the origin files. */
module Changes {
  import opened Wrappers
  import opened Files

  /** A change: its revision and the files it touches. */
  datatype Change = Change(revision: string, files: set<Path>)

  datatype VisitResult = Continue | Terminate

  /** A `BaselinesWithoutLabelVisitor`. `affectsRoots(files)` is
      `Glob.affectsRoots(originFiles.roots(), files)` for the origin glob. */
  datatype BaselineVisitor = BaselineVisitor(
    result: seq<string>,
    limit: int,
    affectsRoots: set<Path> -> bool,
    skipFirst: bool,
    toSkip: Option<string>)

  /** The constructor: the limit must be positive; the result starts empty. */
  function NewBaselineVisitor(affectsRoots: set<Path> -> bool, limit: int, toSkip: Option<string>, skipFirst: bool)
    : (r: Result<BaselineVisitor>)
    ensures r.Success? <==> limit > 0
    ensures r.Failure? ==> r.error == IllegalArgument("")
    ensures r.Success? ==>
      && r.value.result == [] && r.value.limit == limit && r.value.skipFirst == skipFirst
      && r.value.toSkip == toSkip && r.value.affectsRoots == affectsRoots
  {
    if limit > 0 then Success(BaselineVisitor([], limit, affectsRoots, skipFirst, toSkip))
    else Failure(IllegalArgument(""))
  }

  /** The change is skipped: it is the first one and `skipFirst` is set, or
      it is the revision to skip. */
  predicate Skipped(v: BaselineVisitor, c: Change) {
    v.skipFirst || v.toSkip == Some(c.revision)
  }

  /** `visit(change)`: the visitor after the visit and the answer. */
  function Visit(v: BaselineVisitor, c: Change): (r: (BaselineVisitor, VisitResult))
    ensures r.0.limit == v.limit && r.0.affectsRoots == v.affectsRoots && r.0.toSkip == v.toSkip
    ensures !r.0.skipFirst
    ensures Skipped(v, c) ==> r.0.result == v.result && r.1 == Continue
    ensures !Skipped(v, c) && v.affectsRoots(c.files) ==> r.0.result == v.result + [c.revision]
    ensures !Skipped(v, c) && !v.affectsRoots(c.files) ==> r.0.result == v.result && r.1 == Continue
    ensures r.1 == Terminate <==> !Skipped(v, c) && v.affectsRoots(c.files) && |v.result| + 1 >= v.limit
  {
    if Skipped(v, c) then (v.(skipFirst := false), Continue)
    else if v.affectsRoots(c.files) then
      var result := v.result + [c.revision];
      (v.(result := result), if |result| < v.limit then Continue else Terminate)
    else (v, Continue)
  }

  /** `getResult`: a copy of the revisions collected so far. */
  function GetResult(v: BaselineVisitor): seq<string>
  {
    v.result
  }

  /** Visits the changes in order until the visitor answers TERMINATE; gives
      the visitor afterwards and whether it terminated. */
  function VisitAll(v: BaselineVisitor, cs: seq<Change>): (BaselineVisitor, bool)
    decreases |cs|
  {
    if |cs| == 0 then (v, false)
    else
      var (v', r) := Visit(v, cs[0]);
      if r == Terminate then (v', true) else VisitAll(v', cs[1..])
  }

  /** The revisions the visitor is after, in visit order: the changes past
      the skipped first one, except the revision to skip, that touch the
      origin roots. */
  function Selected(cs: seq<Change>, skipFirst: bool, toSkip: Option<string>, affectsRoots: set<Path> -> bool): seq<string>
  {
    if |cs| == 0 then []
    else if skipFirst || toSkip == Some(cs[0].revision) then Selected(cs[1..], false, toSkip, affectsRoots)
    else if affectsRoots(cs[0].files) then [cs[0].revision] + Selected(cs[1..], false, toSkip, affectsRoots)
    else Selected(cs[1..], false, toSkip, affectsRoots)
  }

  function Take<T>(s: seq<T>, n: nat): (r: seq<T>)
    ensures |r| == if n < |s| then n else |s|
    ensures r <= s
  {
    if n < |s| then s[..n] else s
  }

  /** Visiting `cs` collects the first `limit` selected revisions, in
      order, and terminates exactly when there were that many. */
  ghost predicate Collects(v: BaselineVisitor, cs: seq<Change>)
    requires |v.result| < v.limit
  {
    var sel := Selected(cs, v.skipFirst, v.toSkip, v.affectsRoots);
    && VisitAll(v, cs).0.result == v.result + Take(sel, v.limit - |v.result|)
    && (VisitAll(v, cs).1 <==> |sel| >= v.limit - |v.result|)
  }

  /** Visiting a list of changes collects the first `limit` selected
      revisions, in order, and terminates exactly when there were that many. */
  lemma {:induction false} VisitAllCollects(v: BaselineVisitor, cs: seq<Change>)
    requires |v.result| < v.limit
    ensures Collects(v, cs)
    decreases |cs|
  {
    if |cs| > 0 {
      var c := cs[0];
      var v' := Visit(v, c).0;
      if Skipped(v, c) {
        VisitAllCollects(v', cs[1..]);
        SkippedStep(v, cs);
      } else if v.affectsRoots(c.files) {
        if |v'.result| < v.limit {
          VisitAllCollects(v', cs[1..]);
        }
        SelectedStep(v, cs);
      } else {
        VisitAllCollects(v', cs[1..]);
        IgnoredStep(v, cs);
      }
    }
  }

  /** A skipped change leaves the rest of the visit to collect. */
  lemma SkippedStep(v: BaselineVisitor, cs: seq<Change>)
    requires |v.result| < v.limit && |cs| > 0 && Skipped(v, cs[0])
    requires Collects(Visit(v, cs[0]).0, cs[1..])
    ensures Collects(v, cs)
  {
    assert VisitAll(v, cs) == VisitAll(Visit(v, cs[0]).0, cs[1..]);
  }

  /** A change off the roots leaves the rest of the visit to collect. */
  lemma IgnoredStep(v: BaselineVisitor, cs: seq<Change>)
    requires |v.result| < v.limit && |cs| > 0 && !Skipped(v, cs[0]) && !v.affectsRoots(cs[0].files)
    requires Collects(Visit(v, cs[0]).0, cs[1..])
    ensures Collects(v, cs)
  {
    assert VisitAll(v, cs) == VisitAll(Visit(v, cs[0]).0, cs[1..]);
  }

  /** A selected change is collected; it ends the visit when it is the
      last one the limit allows. */
  lemma SelectedStep(v: BaselineVisitor, cs: seq<Change>)
    requires |v.result| < v.limit && |cs| > 0 && !Skipped(v, cs[0]) && v.affectsRoots(cs[0].files)
    requires var v' := Visit(v, cs[0]).0; |v'.result| < v.limit ==> Collects(v', cs[1..])
    ensures Collects(v, cs)
  {
    var c := cs[0];
    var (v', r) := Visit(v, c);
    var sel := Selected(cs, v.skipFirst, v.toSkip, v.affectsRoots);
    var rest := Selected(cs[1..], false, v.toSkip, v.affectsRoots);
    assert sel == [c.revision] + rest;
    if r == Terminate {
      assert VisitAll(v, cs) == (v', true);
      assert Take(sel, v.limit - |v.result|) == [c.revision];
    } else {
      assert VisitAll(v, cs) == VisitAll(v', cs[1..]);
      var n := v.limit - |v'.result|;
      assert Take([c.revision] + rest, n + 1) == [c.revision] + Take(rest, n);
    }
  }

  /** A fresh visitor that skips nothing keeps the first `limit` changes
      touching the roots. */
  lemma FreshVisitorKeepsFirstMatches(affectsRoots: set<Path> -> bool, limit: int, cs: seq<Change>)
    requires limit > 0
    ensures var v := NewBaselineVisitor(affectsRoots, limit, None, false).value;
      GetResult(VisitAll(v, cs).0) == Take(Selected(cs, false, None, affectsRoots), limit)
  {
    VisitAllCollects(NewBaselineVisitor(affectsRoots, limit, None, false).value, cs);
  }
}

=== FILE: change_walk.dfy ===
/** `GitVisitorUtil.visitChanges` and `HgVisitorUtil.visitChanges`: walk a
    repository's history from a start revision, one page of the log at a
    time, handing each change to a visitor until it answers TERMINATE.

    The log reader is `query(skip)`: the page of at most the page size
    changes after skipping `skip`, newest first, or the error the reader
    raised. The history is finite: past some bound every page is empty. The
    visitor is any state machine `visit(state, change) = (state', answer)`. */
module ChangeWalk {
  import opened Wrappers
  import opened Changes
  import Seqs

  type Query = nat -> Result<seq<Change>>

  /** Every page from `bound` on is empty. */
  ghost predicate FiniteHistory(query: Query, bound: nat) {
    forall skip: nat :: skip >= bound ==> query(skip) == Success([])
  }

  /** What a walk did: the visitor's final state, the changes handed to it in
      order, the skip values queried in order, the final skip, whether the
      visitor terminated it, and the error it ended with, if any. */
  datatype Walk<S> = Walk(state: S, visited: seq<Change>, queries: seq<nat>, skip: nat, terminated: bool, error: Option<Error>)

  /** The inner loop over one page: visits in order and stops right after the
      first TERMINATE; gives the state, how many were visited and whether the
      visitor terminated. */
  function VisitPage<S>(visit: (S, Change) -> (S, VisitResult), s: S, page: seq<Change>): (r: (S, nat, bool))
    ensures r.1 <= |page|
    ensures !r.2 ==> r.1 == |page|
    ensures r.2 ==> r.1 >= 1
    decreases |page|
  {
    if |page| == 0 then (s, 0, false)
    else
      var (s1, answer) := visit(s, page[0]);
      if answer == Terminate then (s1, 1, true)
      else
        var (s2, n, t) := VisitPage(visit, s1, page[1..]);
        (s2, n + 1, t)
  }

  function Measure(bound: nat, skip: nat): nat {
    if skip <= bound then bound - skip else 0
  }

  /** The reference walk from `skip` on. */
  function WalkFrom<S>(query: Query, bound: nat, visit: (S, Change) -> (S, VisitResult), s: S, skip: nat): Walk<S>
    requires FiniteHistory(query, bound)
    decreases Measure(bound, skip)
  {
    match query(skip)
    case Failure(e) => Walk(s, [], [skip], skip, false, Some(e))
    case Success(log) =>
      if |log| == 0 then Walk(s, [], [skip], skip, false, None)
      else
        var page := Seqs.Reverse(log);
        var (s1, n, term) := VisitPage(visit, s, page);
        if term then Walk(s1, page[..n], [skip], skip + |log|, true, None)
        else
          var rest := WalkFrom(query, bound, visit, s1, skip + |log|);
          Walk(rest.state, page + rest.visited, [skip] + rest.queries, rest.skip, rest.terminated, rest.error)
  }

  /** The changes the history offers from `skip` on: each page reversed, up
      to the first empty or failing page. */
  function Stream(query: Query, bound: nat, skip: nat): seq<Change>
    requires FiniteHistory(query, bound)
    decreases Measure(bound, skip)
  {
    match query(skip)
    case Failure(_) => []
    case Success(log) =>
      if |log| == 0 then [] else Seqs.Reverse(log) + Stream(query, bound, skip + |log|)
  }

  /** Every page asked for but the last was a non-empty page, and the next
      skip is the previous one advanced by that page's size. */
  lemma {:induction false} QueriesAdvanceByPageSize<S>(query: Query, bound: nat, visit: (S, Change) -> (S, VisitResult), s: S, skip: nat)
    requires FiniteHistory(query, bound)
    ensures var w := WalkFrom(query, bound, visit, s, skip);
      && |w.queries| >= 1 && w.queries[0] == skip
      && (forall i :: 0 <= i < |w.queries| - 1 ==>
            && query(w.queries[i]).Success? && |query(w.queries[i]).value| > 0
            && w.queries[i + 1] == w.queries[i] + |query(w.queries[i]).value|)
    decreases Measure(bound, skip)
  {
    match query(skip)
    case Failure(_) =>
    case Success(log) =>
      if |log| > 0 {
        var (s1, n, term) := VisitPage(visit, s, Seqs.Reverse(log));
        if !term {
          QueriesAdvanceByPageSize(query, bound, visit, s1, skip + |log|);
          var rest := WalkFrom(query, bound, visit, s1, skip + |log|);
          assert WalkFrom(query, bound, visit, s, skip).queries == [skip] + rest.queries;
        }
      }
  }

  /** The last page asked for is empty, failed, or is where the visitor
      terminated; the walk ends with the error of a failed page. */
  ghost predicate EndsAtLastQuery<S>(query: Query, w: Walk<S>) {
    && |w.queries| >= 1
    && var last := w.queries[|w.queries| - 1];
       (w.error.Some? <==> query(last).Failure?)
       && (w.error.Some? ==> w.error.value == query(last).error)
       && (!w.terminated && w.error.None? ==> query(last) == Success([]))
  }

  /** Every walk ends that way. */
  lemma {:induction false} WalkEndsAtLastQuery<S>(query: Query, bound: nat, visit: (S, Change) -> (S, VisitResult), s: S, skip: nat)
    requires FiniteHistory(query, bound)
    ensures EndsAtLastQuery(query, WalkFrom(query, bound, visit, s, skip))
    decreases Measure(bound, skip)
  {
    var w := WalkFrom(query, bound, visit, s, skip);
    match query(skip)
    case Failure(e) =>
      assert w == Walk(s, [], [skip], skip, false, Some(e));
      assert EndsAtLastQuery(query, w);
    case Success(log) =>
      if |log| == 0 {
        assert w == Walk(s, [], [skip], skip, false, None);
        assert EndsAtLastQuery(query, w);
      } else {
        var page := Seqs.Reverse(log);
        var (s1, n, term) := VisitPage(visit, s, page);
        if term {
          assert w == Walk(s1, page[..n], [skip], skip + |log|, true, None);
          assert EndsAtLastQuery(query, w);
        } else {
          WalkEndsAtLastQuery(query, bound, visit, s1, skip + |log|);
          var rest := WalkFrom(query, bound, visit, s1, skip + |log|);
          assert w.queries == [skip] + rest.queries;
          assert w.error == rest.error && w.terminated == rest.terminated;
          EndsAtLastQueryPrepend(query, rest, w, skip);
          assert EndsAtLastQuery(query, w);
        }
      }
  }

  /** A walk that asked once more before another ends as that other did. */
  lemma EndsAtLastQueryPrepend<S>(query: Query, rest: Walk<S>, w: Walk<S>, skip: nat)
    requires EndsAtLastQuery(query, rest)
    requires w.queries == [skip] + rest.queries
    requires w.error == rest.error && w.terminated == rest.terminated
    ensures EndsAtLastQuery(query, w)
  {
    assert w.queries[|w.queries| - 1] == rest.queries[|rest.queries| - 1];
  }

  /** The visitor sees the history in order, each page reversed: what it saw
      is a prefix of the stream, and all of it unless it terminated. */
  lemma {:induction false} WalkFollowsStream<S>(query: Query, bound: nat, visit: (S, Change) -> (S, VisitResult), s: S, skip: nat)
    requires FiniteHistory(query, bound)
    ensures var w := WalkFrom(query, bound, visit, s, skip);
      && w.visited <= Stream(query, bound, skip)
      && (!w.terminated ==> w.visited == Stream(query, bound, skip))
    decreases Measure(bound, skip)
  {
    match query(skip)
    case Failure(_) =>
    case Success(log) =>
      if |log| > 0 {
        var page := Seqs.Reverse(log);
        var (s1, n, term) := VisitPage(visit, s, page);
        if !term {
          WalkFollowsStream(query, bound, visit, s1, skip + |log|);
        }
      }
  }

  /** The inner `for` loop over one page. */
  method VisitPageLoop<S>(visit: (S, Change) -> (S, VisitResult), s0: S, page: seq<Change>)
    returns (s: S, n: nat, term: bool)
    ensures (s, n, term) == VisitPage(visit, s0, page)
  {
    s, n, term := s0, 0, false;
    while n < |page| && !term
      invariant n <= |page|
      invariant !term ==> VisitPage(visit, s0, page) == Shift(VisitPage(visit, s, page[n..]), n)
      invariant term ==> VisitPage(visit, s0, page) == (s, n, true)
    {
      var (s', answer) := visit(s, page[n]);
      assert page[n..][1..] == page[n + 1..];
      s, n := s', n + 1;
      if answer == Terminate {
        term := true;
      }
    }
    if !term {
      assert page[n..] == [];
    }
  }

  function Shift<S>(r: (S, nat, bool), k: nat): (S, nat, bool) {
    (r.0, r.1 + k, r.2)
  }

  /** The reference walk with some pages already done. */
  function After<S>(visited: seq<Change>, queries: seq<nat>, w: Walk<S>): Walk<S> {
    Walk(w.state, visited + w.visited, queries + w.queries, w.skip, w.terminated, w.error)
  }

  /** One full page visited without termination: the walk goes on from the
      next skip. */
  lemma WalkStep<S>(query: Query, bound: nat, visit: (S, Change) -> (S, VisitResult), s: S, skip: nat,
                    visited: seq<Change>, queries: seq<nat>)
    requires FiniteHistory(query, bound)
    requires query(skip).Success? && |query(skip).value| > 0
    requires !VisitPage(visit, s, Seqs.Reverse(query(skip).value)).2
    ensures skip < bound
    ensures var log := query(skip).value;
      var s1 := VisitPage(visit, s, Seqs.Reverse(log)).0;
      After(visited, queries, WalkFrom(query, bound, visit, s, skip))
        == After(visited + Seqs.Reverse(log), queries + [skip], WalkFrom(query, bound, visit, s1, skip + |log|))
  {
    var log := query(skip).value;
    var s1 := VisitPage(visit, s, Seqs.Reverse(log)).0;
    var rest := WalkFrom(query, bound, visit, s1, skip + |log|);
    assert visited + (Seqs.Reverse(log) + rest.visited) == (visited + Seqs.Reverse(log)) + rest.visited;
    assert queries + ([skip] + rest.queries) == (queries + [skip]) + rest.queries;
  }

  /** The walk's last page: a failed or empty one, or the one the visitor
      terminated on. */
  lemma WalkLast<S>(query: Query, bound: nat, visit: (S, Change) -> (S, VisitResult), s: S, skip: nat,
                    visited: seq<Change>, queries: seq<nat>)
    requires FiniteHistory(query, bound)
    ensures var w := After(visited, queries, WalkFrom(query, bound, visit, s, skip));
      query(skip).Failure? ==> w == Walk(s, visited, queries + [skip], skip, false, Some(query(skip).error))
    ensures var w := After(visited, queries, WalkFrom(query, bound, visit, s, skip));
      query(skip) == Success([]) ==> w == Walk(s, visited, queries + [skip], skip, false, None)
    ensures var w := After(visited, queries, WalkFrom(query, bound, visit, s, skip));
      query(skip).Success? && |query(skip).value| > 0 ==>
      var page := Seqs.Reverse(query(skip).value);
      var (s1, n, term) := VisitPage(visit, s, page);
      term ==> w == Walk(s1, visited + page[..n], queries + [skip], skip + |page|, true, None)
  {
  }

  /** Nothing done yet: the reference walk itself. */
  lemma AfterNothing<S>(w: Walk<S>)
    ensures After([], [], w) == w
  {
  }

  /** The paging loop shared by both walkers. */
  method WalkChanges<S>(query: Query, bound: nat, visit: (S, Change) -> (S, VisitResult), s0: S)
    returns (w: Walk<S>)
    requires FiniteHistory(query, bound)
    ensures w == WalkFrom(query, bound, visit, s0, 0)
  {
    var skip: nat := 0;
    var s := s0;
    var visited: seq<Change> := [];
    var queries: seq<nat> := [];
    var done := false;
    w := Walk(s0, [], [], 0, false, None);
    AfterNothing(WalkFrom(query, bound, visit, s0, 0));
    while !done
      invariant !done ==> WalkFrom(query, bound, visit, s0, 0) == After(visited, queries, WalkFrom(query, bound, visit, s, skip))
      invariant done ==> w == WalkFrom(query, bound, visit, s0, 0)
      decreases !done, Measure(bound, skip)
    {
      var res := query(skip);
      WalkLast(query, bound, visit, s, skip, visited, queries);
      if res.Failure? {
        w := Walk(s, visited, queries + [skip], skip, false, Some(res.error));
        done := true;
      } else if |res.value| == 0 {
        w := Walk(s, visited, queries + [skip], skip, false, None);
        done := true;
      } else {
        var page := Seqs.Reverse(res.value);
        var s', n, term := VisitPageLoop(visit, s, page);
        var skip' := skip + |res.value|;
        if term {
          w := Walk(s', visited + page[..n], queries + [skip], skip', true, None);
          done := true;
        } else {
          WalkStep(query, bound, visit, s, skip, visited, queries);
          queries := queries + [skip];
          visited := visited + page;
        }
        s, skip := s', skip';
      }
    }
  }

  function CannotResolveMsg(sha: string): string {
    "Cannot resolve reference " + sha
  }

  /** How the Git walk ends: the reader's error, or CannotResolveRevision
      when no change was ever returned, or the visitor's final state. */
  function GitOutcome<S>(sha: string, w: Walk<S>): Result<S> {
    if w.error.Some? then Failure(w.error.value)
    else if w.skip == 0 then Failure(CannotResolveRevision(CannotResolveMsg(sha)))
    else Success(w.state)
  }

  /** `GitVisitorUtil.visitChanges`; `None` is a null start. */
  method GitVisitChanges<S>(start: Option<string>, query: Query, bound: nat, visit: (S, Change) -> (S, VisitResult), s0: S)
    returns (r: Result<S>, w: Walk<S>)
    requires FiniteHistory(query, bound)
    ensures start.None? ==> r == Failure(NullPointer)
    ensures start.Some? ==> w == WalkFrom(query, bound, visit, s0, 0) && r == GitOutcome(start.value, w)
  {
    w := Walk(s0, [], [], 0, false, None);
    if start.None? {
      return Failure(NullPointer), w;
    }
    w := WalkChanges(query, bound, visit, s0);
    r := GitOutcome(start.value, w);
  }

  /** A Git walk fails to resolve the start exactly when the very first page
      is empty; the visitor then saw nothing. */
  lemma GitEmptyHistoryFails<S>(sha: string, query: Query, bound: nat, visit: (S, Change) -> (S, VisitResult), s0: S)
    requires FiniteHistory(query, bound)
    ensures var w := WalkFrom(query, bound, visit, s0, 0);
      && (w.error.None? && w.skip == 0 <==> query(0) == Success([]))
      && (query(0) == Success([]) ==> GitOutcome(sha, w) == Failure(CannotResolveRevision(CannotResolveMsg(sha))))
  {
    var w := WalkFrom(query, bound, visit, s0, 0);
    if query(0).Success? && |query(0).value| > 0 {
      SkipGrows(query, bound, visit, s0, 0);
    }
  }

  /** The final skip is at least the skip after the first non-empty page. */
  lemma {:induction false} SkipGrows<S>(query: Query, bound: nat, visit: (S, Change) -> (S, VisitResult), s: S, skip: nat)
    requires FiniteHistory(query, bound)
    requires query(skip).Success? && |query(skip).value| > 0
    ensures WalkFrom(query, bound, visit, s, skip).skip >= skip + |query(skip).value|
    decreases Measure(bound, skip)
  {
    var log := query(skip).value;
    var (s1, n, term) := VisitPage(visit, s, Seqs.Reverse(log));
    if !term {
      var next := skip + |log|;
      if query(next).Success? && |query(next).value| > 0 {
        SkipGrows(query, bound, visit, s1, next);
      }
    }
  }

  /** Hg rethrows a ValidationException from the reader as a RepoException. */
  function HgError(e: Error): (r: Error)
    ensures e.Validation? ==> r == Repo("Error querying changes: " + e.msg)
    ensures !e.Validation? ==> r == e
  {
    if e.Validation? then Repo("Error querying changes: " + e.msg) else e
  }

  /** How the Hg walk ends: an empty history is not an error. */
  function HgOutcome<S>(w: Walk<S>): Result<S> {
    if w.error.Some? then Failure(HgError(w.error.value)) else Success(w.state)
  }

  /** `HgVisitorUtil.visitChanges`; `None` is a null start. */
  method HgVisitChanges<S>(start: Option<string>, query: Query, bound: nat, visit: (S, Change) -> (S, VisitResult), s0: S)
    returns (r: Result<S>, w: Walk<S>)
    requires FiniteHistory(query, bound)
    ensures start.None? ==> r == Failure(NullPointer)
    ensures start.Some? ==> w == WalkFrom(query, bound, visit, s0, 0) && r == HgOutcome(w)
  {
    w := Walk(s0, [], [], 0, false, None);
    if start.None? {
      return Failure(NullPointer), w;
    }
    w := WalkChanges(query, bound, visit, s0);
    r := HgOutcome(w);
  }

  /** An Hg walk over an empty history succeeds and leaves the visitor as it was. */
  lemma HgEmptyHistorySucceeds<S>(query: Query, bound: nat, visit: (S, Change) -> (S, VisitResult), s0: S)
    requires FiniteHistory(query, bound) && query(0) == Success([])
    ensures HgOutcome(WalkFrom(query, bound, visit, s0, 0)) == Success(s0)
    ensures WalkFrom(query, bound, visit, s0, 0).visited == []
  {
  }

  /** Only the reader's errors end an Hg walk with an error, and never a
      ValidationException. */
  lemma HgNeverValidationError<S>(query: Query, bound: nat, visit: (S, Change) -> (S, VisitResult), s0: S)
    requires FiniteHistory(query, bound)
    ensures var r := HgOutcome(WalkFrom(query, bound, visit, s0, 0));
      r.Failure? ==> !r.error.Validation?
  {
  }
}

=== FILE: consoles.dfy ===
/** `Consoles`: logging a text line by line on a console, and the text of
    a logged error. The console itself is the list of messages it is given. */
module Consoles {
  import opened Wrappers
  import Strings

  /** The lines `consoleLogLines` emits, unprefixed: the text's `\n`-separated
      pieces, except a final empty piece. */
  function Lines(text: string): (lines: seq<string>)
    ensures var pieces := Strings.Split(text, '\n');
      && (|pieces[|pieces| - 1]| == 0 ==> lines == pieces[..|pieces| - 1])
      && (|pieces[|pieces| - 1]| > 0 ==> lines == pieces)
  {
    var pieces := Strings.Split(text, '\n');
    if |pieces[|pieces| - 1]| == 0 then pieces[..|pieces| - 1] else pieces
  }

  /** `consoleLogLines(prefix, text, level)` (and so `logLines`,
      `errorLogLines` and `verboseLogLines`): the messages handed to the
      console, in order. */
  method LogLines(prefix: string, text: string) returns (emitted: seq<string>)
    ensures |emitted| == |Lines(text)|
    ensures forall k :: 0 <= k < |emitted| ==> emitted[k] == prefix + Lines(text)[k]
  {
    var pieces := Strings.Split(text, '\n');
    ghost var lines := Lines(text);
    assert lines == pieces[..|lines|];
    assert |lines| == |pieces| || (|lines| == |pieces| - 1 && |pieces[|pieces| - 1]| == 0);
    emitted := [];
    var i := 0;
    while i < |pieces|
      invariant 0 <= i <= |lines|
      invariant |emitted| == i
      invariant forall k :: 0 <= k < i ==> emitted[k] == prefix + lines[k]
    {
      var line := pieces[i];
      if |line| == 0 && i + 1 == |pieces| {
        break;
      }
      assert lines[i] == line;
      emitted := emitted + [prefix + line];
      i := i + 1;
    }
  }

  /** Joining the emitted lines back with `\n`, plus the final line break
      the text ended with, gives the text: nothing is lost or invented, and
      interior empty lines are kept. */
  lemma {:induction false} LinesRebuildText(text: string)
    ensures Strings.Join(Lines(text), "\n") + (if |text| > 0 && text[|text| - 1] == '\n' then "\n" else "") == text
  {
    var pieces := Strings.Split(text, '\n');
    var n := |pieces|;
    Strings.JoinSplit(text, '\n');
    LastPieceEmpty(text);
    if |pieces[n - 1]| == 0 && n >= 2 {
      JoinLast(pieces, "\n");
      assert Lines(text) == pieces[..n - 1];
      assert Strings.Join(pieces, "\n") == Strings.Join(pieces[..n - 1], "\n") + "\n";
    } else if |pieces[n - 1]| == 0 {
      assert pieces == [""];
      assert text == "";
    } else {
      assert Lines(text) == pieces;
    }
  }

  /** The last piece is empty exactly when the text is empty or ends in a
      line break. */
  lemma {:induction false} LastPieceEmpty(text: string)
    ensures |Strings.Split(text, '\n')[|Strings.Split(text, '\n')| - 1]| == 0
        <==> |text| == 0 || text[|text| - 1] == '\n'
    decreases |text|
  {
    if '\n' in text {
      var i := Strings.IndexOf(text, '\n');
      var rest := text[i + 1..];
      LastPieceEmpty(rest);
      if |rest| > 0 {
        assert text[|text| - 1] == rest[|rest| - 1];
      }
    }
  }

  /** The join of two or more parts ends with the separator and the last part. */
  lemma {:induction false} JoinLast(parts: seq<string>, sep: string)
    requires |parts| >= 2
    ensures Strings.Join(parts, sep) == Strings.Join(parts[..|parts| - 1], sep) + sep + parts[|parts| - 1]
  {
    if |parts| > 2 {
      JoinLast(parts[1..], sep);
      assert parts[1..][..|parts| - 2] == parts[..|parts| - 1][1..];
    } else {
      assert parts[..1] == [parts[0]];
    }
  }

  /** An empty text emits nothing. */
  lemma EmptyTextEmitsNothing()
    ensures Lines("") == []
  {
  }

  /** A line break added after the last line emits no extra empty line. */
  lemma TrailingNewlineAddsNoLine(text: string)
    requires |text| > 0 && text[|text| - 1] != '\n'
    ensures Lines(text + "\n") == Lines(text)
  {
    SplitAppendSeparator(text);
    LastPieceEmpty(text);
    var p := Strings.Split(text, '\n');
    assert (p + [""])[..|p|] == p;
  }

  /** Splitting after appending the separator adds one empty piece. */
  lemma {:induction false} SplitAppendSeparator(text: string)
    ensures Strings.Split(text + "\n", '\n') == Strings.Split(text, '\n') + [""]
    decreases |text|
  {
    var t := text + "\n";
    if '\n' in text {
      var i := Strings.IndexOf(text, '\n');
      assert t[..i] == text[..i];
      Strings.IndexOfUnique(t, '\n', i);
      assert t[i + 1..] == text[i + 1..] + "\n";
      SplitAppendSeparator(text[i + 1..]);
    } else {
      assert t[..|text|] == text;
      Strings.IndexOfUnique(t, '\n', |text|);
      assert t[|text| + 1..] == "";
    }
  }

  /** `formatLogError`: the message followed by the command's arguments. */
  function FormatLogError(message: string, args: seq<string>): string {
    message + " (command args: " + Strings.ListText(args) + ")"
  }

  /** The logged error starts with the message, and the arguments can be
      read back from it in order when none contains a comma. */
  lemma FormatLogErrorKeepsParts(message: string, args: seq<string>)
    requires |args| >= 1
    requires forall i :: 0 <= i < |args| ==> ',' !in args[i]
    ensures var r := FormatLogError(message, args);
      var head := message + " (command args: ";
      && head <= r && r[|r| - 1] == ')'
      && Strings.ListElements(r[|head|..|r| - 1]) == Some(args)
  {
    var r := FormatLogError(message, args);
    var head := message + " (command args: ";
    assert r[|head|..|r| - 1] == Strings.ListText(args);
    Strings.ListTextRoundTrip(args);
  }
}

=== FILE: destination.dfy ===
/** The destination contract used by regeneration (java/.../Destination.java):
    the reader of one destination revision, the writer's optional
    `PatchRegenerator`, the interface defaults, the preferred hash function
    and `DestinationStatus`. */
module Destination {
  import opened Wrappers
  import opened Files

  /** `DestinationReader` of one destination revision. `copyTo(g, dir)` copies
      the files matched by `g` into the directory whose current content is
      `dir`, giving that directory's new content. */
  datatype DestinationReader = DestinationReader(
    readFile: Path -> Result<Bytes>,
    copyTo: (Glob, Tree) -> Result<Tree>,
    fileExists: Path -> Result<bool>)

  /** `DestinationReader.NOT_IMPLEMENTED`: every operation fails. */
  function NotImplementedReader(): (r: DestinationReader)
    ensures forall p :: r.readFile(p) == Failure(Unsupported) && r.fileExists(p) == Failure(Unsupported)
    ensures forall g, t :: r.copyTo(g, t) == Failure(Unsupported)
  {
    DestinationReader(_ => Failure(Unsupported), (_, _) => Failure(Unsupported), _ => Failure(Unsupported))
  }

  /** A `PatchRegenerator`: its three inference hooks and `updateChange`,
      given as the answers the destination would produce.
      `updateChange(workflowName, tree, destinationFiles, changeToUpdate)`. */
  datatype PatchRegenerator = PatchRegenerator(
    updateChange: (string, Tree, Glob, string) -> Outcome,
    inferRegenBaseline: Result<Option<string>>,
    inferRegenTarget: Result<Option<string>>,
    inferImportBaseline: string -> Result<Option<string>>)

  const UpdateChangeNotImplemented := "update change not implemented for this destination"

  /** A `PatchRegenerator` that overrides none of the interface defaults. */
  function DefaultPatchRegenerator(): PatchRegenerator
  {
    PatchRegenerator(
      (_, _, _, _) => Fail(Validation(UpdateChangeNotImplemented)),
      Success(None),
      Success(None),
      _ => Success(None))
  }

  /** The defaults: `updateChange` always fails with a ValidationException,
      and no regen baseline, regen target or import baseline is ever inferred. */
  lemma DefaultPatchRegeneratorBehaviour(name: string, t: Tree, g: Glob, change: string, target: string)
    ensures DefaultPatchRegenerator().updateChange(name, t, g, change).Fail?
    ensures DefaultPatchRegenerator().updateChange(name, t, g, change).error.Validation?
    ensures DefaultPatchRegenerator().inferRegenBaseline == Success(None)
    ensures DefaultPatchRegenerator().inferRegenTarget == Success(None)
    ensures DefaultPatchRegenerator().inferImportBaseline(target) == Success(None)
  {
  }

  /** The part of a `Destination.Writer` regeneration uses:
      `getDestinationReader(console, String baseline, workdir)`,
      `getDestinationReader(console, Origin.Baseline baseline, workdir)`
      (`None` is a null baseline) and `getPatchRegenerator(console)`. */
  datatype Writer = Writer(
    readerAt: string -> Result<DestinationReader>,
    readerAtBaseline: Option<string> -> Result<DestinationReader>,
    patchRegenerator: Option<PatchRegenerator>)

  /** A writer that overrides none of the `Writer` defaults. */
  function DefaultWriter(): Writer
  {
    Writer(_ => Success(NotImplementedReader()), _ => Success(NotImplementedReader()), None)
  }

  /** Both default `getDestinationReader` overloads give `NOT_IMPLEMENTED`,
      and the default `getPatchRegenerator` is empty. */
  lemma DefaultWriterBehaviour(baseline: string, originBaseline: Option<string>, p: Path)
    ensures DefaultWriter().patchRegenerator.None?
    ensures DefaultWriter().readerAt(baseline).Success?
    ensures DefaultWriter().readerAt(baseline).value.fileExists(p) == Failure(Unsupported)
    ensures DefaultWriter().readerAtBaseline(originBaseline).Success?
    ensures DefaultWriter().readerAtBaseline(originBaseline).value.readFile(p) == Failure(Unsupported)
  {
  }

  datatype HashFunction = Sha256 | OtherHash(name: string)

  /** `Destination.getHashFunction` default. */
  function DefaultHashFunction(): (h: HashFunction)
    ensures h == Sha256
  {
    Sha256
  }

  /** `DestinationStatus`: the last migrated baseline and the pending
      changes, oldest first. */
  datatype DestinationStatus = DestinationStatus(baseline: string, pendingChanges: seq<string>)

  /** The constructor; `None` is a null argument. */
  function NewDestinationStatus(baseline: Option<string>, pendingChanges: Option<seq<string>>): (r: Result<DestinationStatus>)
    ensures r.Success? <==> baseline.Some? && pendingChanges.Some?
    ensures r.Failure? ==> r.error == NullPointer
    ensures r.Success? ==> r.value.baseline == baseline.value && r.value.pendingChanges == pendingChanges.value
  {
    if baseline.None? || pendingChanges.None? then Failure(NullPointer)
    else Success(DestinationStatus(baseline.value, pendingChanges.value))
  }

  /** Java `int` arithmetic: the value modulo 2^32, in [-2^31, 2^31). */
  function Int32(x: int): (r: int)
    ensures -0x8000_0000 <= r < 0x8000_0000
    ensures (r - x) % 0x1_0000_0000 == 0
  {
    var m := x % 0x1_0000_0000;
    if m >= 0x8000_0000 then m - 0x1_0000_0000 else m
  }

  /** The UTF-16 code units of a character, as a Java `String` holds it:
      one unit inside the Basic Multilingual Plane, else a surrogate pair
      (section 2.1 of RFC 2781). */
  function Utf16(c: char): (u: seq<int>)
    ensures |u| == 1 <==> (c as int) < 0x1_0000
    ensures |u| == 1 ==> u[0] == c as int
    ensures |u| != 1 ==>
      && |u| == 2
      && 0xD800 <= u[0] < 0xDC00 && 0xDC00 <= u[1] < 0xE000
      && 0x1_0000 + (u[0] - 0xD800) * 0x400 + (u[1] - 0xDC00) == c as int
  {
    var v := c as int;
    if v < 0x1_0000 then [v]
    else [0xD800 + (v - 0x1_0000) / 0x400, 0xDC00 + (v - 0x1_0000) % 0x400]
  }

  /** The code units of a string, character by character. */
  function Utf16String(s: string): (u: seq<int>)
    ensures |s| <= |u| <= 2 * |s|
  {
    if |s| == 0 then [] else Utf16String(s[..|s| - 1]) + Utf16(s[|s| - 1])
  }

  /** Java's fold over code units: u[0]*31^(n-1) + ... + u[n-1], in int
      arithmetic. */
  function UnitsHash(u: seq<int>): int
  {
    if |u| == 0 then 0 else Int32(31 * UnitsHash(u[..|u| - 1]) + u[|u| - 1])
  }

  /** `String.hashCode`, over the string's UTF-16 code units. */
  function StringHash(s: string): int
  {
    UnitsHash(Utf16String(s))
  }

  /** A character outside the Basic Multilingual Plane adds two steps of
      the fold, one per surrogate. */
  lemma {:induction false} SupplementaryHashesSurrogates(s: string, c: char)
    requires (c as int) >= 0x1_0000
    ensures var u := Utf16(c);
      StringHash(s + [c]) == Int32(31 * Int32(31 * StringHash(s) + u[0]) + u[1])
  {
    var p := Utf16String(s);
    var u := Utf16(c);
    assert Utf16String(s + [c]) == p + [u[0]] + [u[1]] by {
      Utf16StringSnoc(s, c);
      assert p + u == p + [u[0]] + [u[1]];
    }
    UnitsHashSnoc2(p, u[0], u[1]);
  }

  lemma UnitsHashSnoc2(p: seq<int>, a: int, b: int)
    ensures UnitsHash(p + [a] + [b]) == Int32(31 * Int32(31 * UnitsHash(p) + a) + b)
  {
    UnitsHashSnoc(p + [a], b);
    UnitsHashSnoc(p, a);
  }

  lemma Utf16StringSnoc(s: string, c: char)
    ensures Utf16String(s + [c]) == Utf16String(s) + Utf16(c)
  {
    var t := s + [c];
    assert t[..|t| - 1] == s;
  }

  lemma UnitsHashSnoc(p: seq<int>, x: int)
    ensures UnitsHash(p + [x]) == Int32(31 * UnitsHash(p) + x)
  {
    var q := p + [x];
    assert q[..|q| - 1] == p;
  }

  /** For instance U+1F600 hashes as its pair D83D DE00:
      31 * 0xD83D + 0xDE00 = 1772899, not 0x1F600. */
  lemma EmojiHash()
    ensures StringHash("\U{1F600}") == 1772899
  {
    var c := '\U{1F600}';
    assert Utf16(c) == [0xD83D, 0xDE00];
    SupplementaryHashesSurrogates("", c);
    assert "" + [c] == "\U{1F600}";
    assert UnitsHash([]) == 0;
  }

  /** `List.hashCode`: starting from 1, `31 * h + e.hashCode()` per element. */
  function ListHash(l: seq<string>): int
  {
    if |l| == 0 then 1 else Int32(31 * ListHash(l[..|l| - 1]) + StringHash(l[|l| - 1]))
  }

  /** `DestinationStatus.hashCode`: `Objects.hash(baseline, pendingChanges)`. */
  function StatusHash(s: DestinationStatus): int
  {
    Int32(31 * Int32(31 * 1 + StringHash(s.baseline)) + ListHash(s.pendingChanges))
  }

  /** Equality is structural on (baseline, pendingChanges), and the hash
      code agrees with it. */
  lemma StatusEqualityIsStructural(a: DestinationStatus, b: DestinationStatus)
    ensures a == b <==> a.baseline == b.baseline && a.pendingChanges == b.pendingChanges
    ensures a == b ==> StatusHash(a) == StatusHash(b)
    ensures -0x8000_0000 <= StatusHash(a) < 0x8000_0000
  {
  }
}

=== FILE: files.dfy ===
/** File trees and file-set selectors.

    A directory is a map from relative path to content; only regular files
    appear in it. A glob is the predicate it matches with, plus the list of
    directories under which every match lives (`Glob.roots()`); the pattern
    language itself is not modelled. */
module Files {
  import Strings

  type Path = string

  newtype byte = x: int | 0 <= x < 256

  type Bytes = seq<byte>

  type Tree = map<Path, Bytes>

  datatype Glob = Glob(matches: Path -> bool, roots: seq<Path>)

  /** `Glob.difference(a, b)`: matched by `a` and not by `b`, under `a`'s roots. */
  function Difference(a: Glob, b: Glob): (g: Glob)
    ensures forall p :: g.matches(p) <==> a.matches(p) && !b.matches(p)
    ensures g.roots == a.roots
  {
    Glob(p => a.matches(p) && !b.matches(p), a.roots)
  }

  /** The parent directory of a relative path; "" for a top-level file. */
  function Parent(p: Path): (d: Path)
    ensures |d| < |p| || (d == "" && p == "")
  {
    var i := Strings.LastIndexOf(p, '/');
    if i < 0 then "" else p[..i]
  }

  /** `Glob.createGlob(ImmutableList.of(path))` for a literal path: matches
      exactly that path; its root is the path's directory. */
  function Single(path: Path): (g: Glob)
    ensures forall p :: g.matches(p) <==> p == path
  {
    Glob(p => p == path, [Parent(path)])
  }

  /** `p` is `root` itself or lies somewhere below it; "" is the top. */
  predicate UnderRoot(p: Path, root: Path) {
    root == "" || p == root || root + "/" <= p
  }

  /** The files of `t` that `g` matches. */
  function Restrict(t: Tree, g: Glob): (r: Tree)
    ensures r.Keys <= t.Keys
    ensures forall p :: p in r <==> p in t && g.matches(p)
    ensures forall p :: p in r ==> r[p] == t[p]
  {
    map p | p in t && g.matches(p) :: t[p]
  }

  predicate Continuation(b: byte) {
    0x80 <= b <= 0xBF
  }

  /** The length of the UTF-8 character `b` starts with, following the
      table of well-formed byte sequences in section 4 of RFC 3629
      (no overlong forms, no surrogates, nothing above U+10FFFF); 0 when
      `b` does not start with one. */
  function Utf8CharLength(b: Bytes): (n: nat)
    ensures n <= |b| && n <= 4
    ensures |b| > 0 && b[0] <= 0x7F ==> n == 1
    ensures |b| > 0 && (b[0] in {0xC0, 0xC1} || b[0] >= 0xF5 || Continuation(b[0])) ==> n == 0
  {
    if |b| == 0 then 0
    else
      var b0 := b[0];
      if b0 <= 0x7F then 1
      else if 0xC2 <= b0 <= 0xDF then
        if |b| >= 2 && Continuation(b[1]) then 2 else 0
      else if 0xE0 <= b0 <= 0xEF then
        var lo: byte, hi: byte := if b0 == 0xE0 then 0xA0 else 0x80, if b0 == 0xED then 0x9F else 0xBF;
        if |b| >= 3 && lo <= b[1] <= hi && Continuation(b[2]) then 3 else 0
      else if 0xF0 <= b0 <= 0xF4 then
        var lo: byte, hi: byte := if b0 == 0xF0 then 0x90 else 0x80, if b0 == 0xF4 then 0x8F else 0xBF;
        if |b| >= 4 && lo <= b[1] <= hi && Continuation(b[2]) && Continuation(b[3]) then 4 else 0
      else 0
  }

  /** The bytes decode as UTF-8 with nothing malformed: a sequence of
      well-formed characters. */
  predicate WellFormedUtf8(b: Bytes)
    decreases |b|
  {
    |b| == 0 || (Utf8CharLength(b) > 0 && WellFormedUtf8(b[Utf8CharLength(b)..]))
  }

  /** ASCII text is well-formed UTF-8. */
  lemma {:induction false} AsciiIsUtf8(b: Bytes)
    requires forall i :: 0 <= i < |b| ==> b[i] <= 0x7F
    ensures WellFormedUtf8(b)
  {
    if |b| > 0 {
      assert Utf8CharLength(b) == 1;
      AsciiIsUtf8(b[1..]);
    }
  }

  /** A character's length depends only on its own bytes, so what follows
      it does not change it. */
  lemma CharLengthPrefix(a: Bytes, c: Bytes)
    requires Utf8CharLength(a) > 0
    ensures Utf8CharLength(a + c) == Utf8CharLength(a)
  {
    var n := Utf8CharLength(a);
    assert forall i :: 0 <= i < |a| ==> (a + c)[i] == a[i];
  }

  /** Well-formed UTF-8 texts concatenate to a well-formed text. */
  lemma {:induction false} Utf8Concat(a: Bytes, c: Bytes)
    requires WellFormedUtf8(a) && WellFormedUtf8(c)
    ensures WellFormedUtf8(a + c)
  {
    if |a| == 0 {
      assert a + c == c;
    } else {
      var n := Utf8CharLength(a);
      CharLengthPrefix(a, c);
      assert (a + c)[n..] == a[n..] + c;
      Utf8Concat(a[n..], c);
    }
  }
}

=== FILE: folder_reader.dfy ===
/** `FolderDestinationReader`: a `DestinationReader` over a local folder.

    The folder is a map from relative path to file content. Directories are
    implied by the paths of the files under them; an empty directory is not
    represented. */
module FolderReader {
  import opened Wrappers
  import opened Files
  import Destination

  datatype FolderDestinationReader = FolderDestinationReader(folder: Tree, folderPath: Path, workDir: Path)

  /** `p` names a directory of the folder: some file lies below it. */
  predicate IsDirectory(folder: Tree, p: Path) {
    exists q :: q in folder && p + "/" <= q
  }

  /** `Files.exists(folderPath.resolve(p))`: the folder itself, a file or a directory. */
  predicate Exists(folder: Tree, p: Path) {
    p == "" || p in folder || IsDirectory(folder, p)
  }

  /** `exists(p)`: whether `p` is present in the folder. Only the folder's
      content decides; no revision or baseline is involved. */
  function FileExists(r: FolderDestinationReader, p: Path): (b: bool)
    ensures b <==> p == "" || p in r.folder || exists q :: q in r.folder && p + "/" <= q
  {
    Exists(r.folder, p)
  }

  /** `readFile(p)`: `Files.readString`, which decodes the file as UTF-8
      and fails on a malformed byte sequence as it does on a missing file;
      either way the RepoException names `p`. The text is kept as its bytes. */
  function ReadFile(r: FolderDestinationReader, p: Path): (res: Result<Bytes>)
    ensures res.Success? <==> p in r.folder && WellFormedUtf8(r.folder[p])
    ensures res.Success? ==> res.value == r.folder[p]
    ensures res.Failure? ==> res.error == Repo("Unable to read file " + p + ".")
  {
    if p in r.folder && WellFormedUtf8(r.folder[p]) then Success(r.folder[p])
    else Failure(Repo("Unable to read file " + p + "."))
  }

  /** Every ASCII file of the folder reads back as its content. */
  lemma AsciiFileReads(r: FolderDestinationReader, p: Path)
    requires p in r.folder
    requires forall i :: 0 <= i < |r.folder[p]| ==> r.folder[p][i] <= 0x7F
    ensures ReadFile(r, p) == Success(r.folder[p])
  {
    AsciiIsUtf8(r.folder[p]);
  }

  /** A file that starts with a byte no UTF-8 character starts with (a
      continuation byte, 0xC0, 0xC1 or 0xF5 and above) cannot be read, though
      it exists. */
  lemma MalformedFileUnreadable(r: FolderDestinationReader, p: Path)
    requires p in r.folder && |r.folder[p]| > 0
    requires var b := r.folder[p][0]; b in {0xC0, 0xC1} || b >= 0xF5 || Continuation(b)
    ensures FileExists(r, p)
    ensures ReadFile(r, p) == Failure(Repo("Unable to read file " + p + "."))
  {
  }

  /** The regular files a walk of `root` finds that `g` matches. */
  function Found(folder: Tree, g: Glob, root: Path): (m: Tree)
    ensures forall p :: p in m <==> p in folder && g.matches(p) && UnderRoot(p, root)
    ensures forall p :: p in m ==> m[p] == folder[p]
  {
    map p | p in folder && g.matches(p) && UnderRoot(p, root) :: folder[p]
  }

  /** The message of the RepoException every copy failure becomes. */
  function CopyFailure(folderPath: Path): Error {
    Repo("Failed to cooper files from " + folderPath + ".")
  }

  /** Copying `roots` in order, one walk per root, into a directory whose
      content is `dest`. A missing root, or a target file that already exists
      (the copy has no replace option), fails the whole copy. */
  function CopyRoots(r: FolderDestinationReader, g: Glob, roots: seq<Path>, dest: Tree): (res: Result<Tree>)
    ensures res.Failure? ==> res.error == CopyFailure(r.folderPath)
    ensures res.Success? ==> dest.Keys <= res.value.Keys
    decreases |roots|
  {
    if |roots| == 0 then Success(dest)
    else if !Exists(r.folder, roots[0]) then Failure(CopyFailure(r.folderPath))
    else
      var found := Found(r.folder, g, roots[0]);
      if found.Keys !! dest.Keys then CopyRoots(r, g, roots[1..], dest + found)
      else Failure(CopyFailure(r.folderPath))
  }

  /** Every root is present, no matched file is already in `dest`, and no
      matched file lies under two roots. */
  predicate CopyAllowed(r: FolderDestinationReader, g: Glob, roots: seq<Path>, dest: Tree) {
    && (forall i :: 0 <= i < |roots| ==> Exists(r.folder, roots[i]))
    && (forall i, p :: 0 <= i < |roots| && p in Found(r.folder, g, roots[i]) ==> p !in dest)
    && (forall i, j, p :: 0 <= i < j < |roots| && p in Found(r.folder, g, roots[i]) ==> p !in Found(r.folder, g, roots[j]))
  }

  /** The copy succeeds exactly when it is allowed. */
  lemma {:induction false} CopyRootsSucceeds(r: FolderDestinationReader, g: Glob, roots: seq<Path>, dest: Tree)
    ensures CopyRoots(r, g, roots, dest).Success? <==> CopyAllowed(r, g, roots, dest)
    decreases |roots|
  {
    if |roots| > 0 && Exists(r.folder, roots[0]) {
      var found := Found(r.folder, g, roots[0]);
      var tail := roots[1..];
      if found.Keys !! dest.Keys {
        CopyRootsSucceeds(r, g, tail, dest + found);
        if CopyAllowed(r, g, tail, dest + found) {
          forall i, p | 0 <= i < |roots| && p in Found(r.folder, g, roots[i])
            ensures p !in dest
          {
            if i > 0 {
              assert roots[i] == tail[i - 1];
            }
          }
          forall i, j, p | 0 <= i < j < |roots| && p in Found(r.folder, g, roots[i])
            ensures p !in Found(r.folder, g, roots[j])
          {
            assert roots[j] == tail[j - 1];
            if i > 0 {
              assert roots[i] == tail[i - 1];
            }
          }
          forall i | 0 <= i < |roots|
            ensures Exists(r.folder, roots[i])
          {
            if i > 0 {
              assert roots[i] == tail[i - 1];
            }
          }
        }
        if CopyAllowed(r, g, roots, dest) {
          forall i, p | 0 <= i < |tail| && p in Found(r.folder, g, tail[i])
            ensures p !in dest + found
          {
            assert tail[i] == roots[i + 1];
          }
          forall i, j, p | 0 <= i < j < |tail| && p in Found(r.folder, g, tail[i])
            ensures p !in Found(r.folder, g, tail[j])
          {
            assert tail[i] == roots[i + 1] && tail[j] == roots[j + 1];
          }
          forall i | 0 <= i < |tail|
            ensures Exists(r.folder, tail[i])
          {
            assert tail[i] == roots[i + 1];
          }
        }
      } else {
        var p :| p in found && p in dest;
        assert !CopyAllowed(r, g, roots, dest) by {
          assert p in Found(r.folder, g, roots[0]);
        }
      }
    }
  }

  /** A successful copy holds the files already there plus every matched
      file under some root, each with its content from the folder. */
  lemma {:induction false} CopyRootsContent(r: FolderDestinationReader, g: Glob, roots: seq<Path>, dest: Tree, p: Path)
    requires CopyRoots(r, g, roots, dest).Success?
    ensures p in CopyRoots(r, g, roots, dest).value <==>
      p in dest || exists i :: 0 <= i < |roots| && p in Found(r.folder, g, roots[i])
    ensures p in CopyRoots(r, g, roots, dest).value ==>
      if p in dest then CopyRoots(r, g, roots, dest).value[p] == dest[p]
      else p in r.folder && CopyRoots(r, g, roots, dest).value[p] == r.folder[p]
    decreases |roots|
  {
    if |roots| > 0 {
      var found := Found(r.folder, g, roots[0]);
      var tail := roots[1..];
      CopyRootsContent(r, g, tail, dest + found, p);
      if exists i :: 0 <= i < |tail| && p in Found(r.folder, g, tail[i]) {
        var i :| 0 <= i < |tail| && p in Found(r.folder, g, tail[i]);
        assert tail[i] == roots[i + 1];
      }
      if exists i :: 0 <= i < |roots| && p in Found(r.folder, g, roots[i]) {
        var i :| 0 <= i < |roots| && p in Found(r.folder, g, roots[i]);
        if i > 0 {
          assert roots[i] == tail[i - 1];
        }
      }
    }
  }

  lemma CopyRootsContentAll(r: FolderDestinationReader, g: Glob, roots: seq<Path>, dest: Tree)
    requires CopyRoots(r, g, roots, dest).Success?
    ensures forall p :: p in CopyRoots(r, g, roots, dest).value <==>
      p in dest || exists i :: 0 <= i < |roots| && p in Found(r.folder, g, roots[i])
    ensures forall p :: p in CopyRoots(r, g, roots, dest).value ==>
      if p in dest then CopyRoots(r, g, roots, dest).value[p] == dest[p]
      else p in r.folder && CopyRoots(r, g, roots, dest).value[p] == r.folder[p]
  {
    forall p {
      CopyRootsContent(r, g, roots, dest, p);
    }
  }

  /** `cooperDestinationFilesToDirectory(g, directory)`: every regular file
      under one of `g`'s roots that `g` matches lands at the same relative
      path of the directory; nothing already there is replaced, and a missing
      root fails the copy with a RepoException. */
  function CopyToDirectory(r: FolderDestinationReader, g: Glob, dest: Tree): (res: Result<Tree>)
    ensures res.Success? <==> CopyAllowed(r, g, g.roots, dest)
    ensures res.Failure? ==> res.error == CopyFailure(r.folderPath)
    ensures res.Success? ==> forall p :: p in res.value <==>
      p in dest || exists i :: 0 <= i < |g.roots| && p in Found(r.folder, g, g.roots[i])
    ensures res.Success? ==> forall p :: p in res.value ==> if p in dest then res.value[p] == dest[p]
      else p in r.folder && res.value[p] == r.folder[p]
  {
    CopyRootsSucceeds(r, g, g.roots, dest);
    var res := CopyRoots(r, g, g.roots, dest);
    if res.Success? then
      CopyRootsContentAll(r, g, g.roots, dest);
      res
    else res
  }

  /** A starlark `CheckoutPath`: a path inside a checkout directory. */
  datatype CheckoutPath = CheckoutPath(checkoutDir: Path, path: Path)

  /** The directory `cooperDestinationFiles(glob, path)` copies into. */
  function TargetDirectory(r: FolderDestinationReader, path: Option<CheckoutPath>): (d: Path)
    ensures path.None? ==> d == r.workDir
    ensures path.Some? ==> d == path.value.checkoutDir + "/" + path.value.path
  {
    match path
    case None => r.workDir
    case Some(c) => c.checkoutDir + "/" + c.path
  }

  /** What directory `d` of a file system holds: nothing if it is absent. */
  function ContentOf(fs: map<Path, Tree>, d: Path): Tree {
    if d in fs then fs[d] else map[]
  }

  /** `cooperDestinationFiles(glob, path)` over a file system of directories:
      the matched files are copied into the target directory, which is
      created when missing; it fails exactly when the copy into that
      directory is not allowed, and only the target directory changes. */
  function CopyDestinationFiles(r: FolderDestinationReader, g: Glob, path: Option<CheckoutPath>, fs: map<Path, Tree>): (res: Result<map<Path, Tree>>)
    ensures res.Success? <==> CopyAllowed(r, g, g.roots, ContentOf(fs, TargetDirectory(r, path)))
    ensures res.Failure? ==> res.error == CopyFailure(r.folderPath)
    ensures res.Success? ==> forall d :: d in fs && d != TargetDirectory(r, path) ==> d in res.value && res.value[d] == fs[d]
    ensures res.Success? ==> res.value.Keys == fs.Keys + {TargetDirectory(r, path)}
    ensures res.Success? ==>
      var before, after := ContentOf(fs, TargetDirectory(r, path)), res.value[TargetDirectory(r, path)];
      && (forall p :: p in after <==> p in before || exists i :: 0 <= i < |g.roots| && p in Found(r.folder, g, g.roots[i]))
      && (forall p :: p in after ==> if p in before then after[p] == before[p] else p in r.folder && after[p] == r.folder[p])
  {
    var d := TargetDirectory(r, path);
    var copied :- CopyToDirectory(r, g, ContentOf(fs, d));
    Success(fs[d := copied])
  }

  /** The copy through a checkout path is the directory copy into the
      target directory: the same success, the same content, the same error. */
  lemma CopyDestinationFilesIsCopyToDirectory(r: FolderDestinationReader, g: Glob, path: Option<CheckoutPath>, fs: map<Path, Tree>)
    ensures var cur := ContentOf(fs, TargetDirectory(r, path));
      && (CopyDestinationFiles(r, g, path, fs).Success? <==> CopyToDirectory(r, g, cur).Success?)
      && (CopyDestinationFiles(r, g, path, fs).Success? ==>
            CopyDestinationFiles(r, g, path, fs).value[TargetDirectory(r, path)] == CopyToDirectory(r, g, cur).value)
      && (CopyDestinationFiles(r, g, path, fs).Failure? ==>
            CopyDestinationFiles(r, g, path, fs).error == CopyToDirectory(r, g, cur).error)
  {
  }

  /** The reader seen through the `DestinationReader` interface. */
  function AsDestinationReader(r: FolderDestinationReader): (d: Destination.DestinationReader)
    ensures forall p :: d.readFile(p) == ReadFile(r, p)
    ensures forall p :: d.fileExists(p) == Success(Exists(r.folder, p))
    ensures forall g, t :: d.copyTo(g, t) == CopyToDirectory(r, g, t)
  {
    Destination.DestinationReader(
      p => ReadFile(r, p),
      (g, t) => CopyToDirectory(r, g, t),
      p => Success(Exists(r.folder, p)))
  }

  /** A copy into an empty directory gives exactly the matched files under
      the roots, when the roots are present and do not overlap. */
  lemma CopyIntoEmpty(r: FolderDestinationReader, g: Glob)
    requires forall i :: 0 <= i < |g.roots| ==> Exists(r.folder, g.roots[i])
    requires forall i, j, p :: 0 <= i < j < |g.roots| && p in Found(r.folder, g, g.roots[i]) ==> p !in Found(r.folder, g, g.roots[j])
    ensures CopyToDirectory(r, g, map[]).Success?
    ensures CopyToDirectory(r, g, map[]).value == map p | p in r.folder && g.matches(p) && (exists i :: 0 <= i < |g.roots| && UnderRoot(p, g.roots[i])) :: r.folder[p]
  {
    var res := CopyToDirectory(r, g, map[]);
    var expected := map p | p in r.folder && g.matches(p) && (exists i :: 0 <= i < |g.roots| && UnderRoot(p, g.roots[i])) :: r.folder[p];
    forall p
      ensures p in res.value <==> p in expected
    {
      if p in res.value {
        var i :| 0 <= i < |g.roots| && p in Found(r.folder, g, g.roots[i]);
      }
      if p in expected {
        var i :| 0 <= i < |g.roots| && UnderRoot(p, g.roots[i]);
        assert p in Found(r.folder, g, g.roots[i]);
      }
    }
  }

  /** Copying onto a file that is already in the target directory fails. */
  lemma CopyOntoExistingFails(r: FolderDestinationReader, g: Glob, dest: Tree, p: Path)
    requires p in dest && p in r.folder && g.matches(p)
    requires exists i :: 0 <= i < |g.roots| && UnderRoot(p, g.roots[i])
    ensures CopyToDirectory(r, g, dest) == Failure(CopyFailure(r.folderPath))
  {
    var i :| 0 <= i < |g.roots| && UnderRoot(p, g.roots[i]);
    assert p in Found(r.folder, g, g.roots[i]);
  }
}

=== FILE: gerrit_api_exception.dfy ===
/** `GerritApiException`: a Gerrit HTTP error, classified by its status
    code (the client-error codes of section 15.5 of RFC 9110 that Gerrit
    answers with), and a message built from the `<pre>` block of the
    response. */
module GerritApi {
  import Strings

  datatype ResponseCode =
    | Unknown
    | BadRequest
    | Forbidden
    | NotFound
    | MethodNotAllowed
    | Conflict
    | PreconditionFailed
    | UnprocessableEntity

  /** `getCode`: the status code each constant stands for. */
  function Code(rc: ResponseCode): int {
    match rc
    case Unknown => 0
    case BadRequest => 400
    case Forbidden => 403
    case NotFound => 404
    case MethodNotAllowed => 405
    case Conflict => 409
    case PreconditionFailed => 412
    case UnprocessableEntity => 422
  }

  /** `parseResponseCode`: the constant with that code, UNKNOWN for any code
      no constant has. */
  function ParseResponseCode(code: int): (rc: ResponseCode)
    ensures forall c: ResponseCode :: Code(c) == code ==> rc == c
    ensures rc == Unknown || Code(rc) == code
  {
    match code
    case 400 => BadRequest
    case 403 => Forbidden
    case 404 => NotFound
    case 405 => MethodNotAllowed
    case 409 => Conflict
    case 412 => PreconditionFailed
    case 422 => UnprocessableEntity
    case _ => Unknown
  }

  /** The code table is one-to-one: every constant is found again from its
      own code. */
  lemma ParseCodeRoundTrip(rc: ResponseCode)
    ensures ParseResponseCode(Code(rc)) == rc
  {
  }

  /** Server errors and other unlisted codes are all UNKNOWN. */
  lemma UnlistedIsUnknown(code: int)
    requires code !in {0, 400, 403, 404, 405, 409, 412, 422}
    ensures ParseResponseCode(code) == Unknown
  {
  }

  datatype GerritApiException = GerritApiException(
    exitCode: int,
    baseMessage: string,
    responseCode: ResponseCode,
    responseMsg: string,
    requestMsg: string)

  /** The constructor: the response code is derived from the exit code. */
  function NewGerritApiException(exitCode: int, message: string, response: string, request: string)
    : (e: GerritApiException)
    ensures e.responseCode == ParseResponseCode(exitCode)
    ensures e.baseMessage == message && e.responseMsg == response && e.requestMsg == request
  {
    GerritApiException(exitCode, message, ParseResponseCode(exitCode), response, request)
  }

  /** `getExitCode`. */
  function ExitCode(e: GerritApiException): int {
    e.exitCode
  }

  /** The exit code comes back unchanged, and the response code is the one
      of that exit code. */
  lemma ExitCodeKept(exitCode: int, message: string, response: string, request: string)
    ensures var e := NewGerritApiException(exitCode, message, response, request);
      && ExitCode(e) == exitCode
      && (exitCode in {400, 403, 404, 405, 409, 412, 422} ==> Code(e.responseCode) == exitCode)
  {
  }

  // The tags of the error pattern, matched case-insensitively (ASCII only).

  function LowerAscii(ch: char): char {
    if 'A' <= ch <= 'Z' then (ch as int + 32) as char else ch
  }

  function Lower(s: string): (r: string)
    ensures |r| == |s|
    ensures forall k :: 0 <= k < |s| ==> r[k] == LowerAscii(s[k])
  {
    if |s| == 0 then "" else [LowerAscii(s[0])] + Lower(s[1..])
  }

  predicate MatchesAt(s: string, at: nat, tag: string) {
    at + |tag| <= |s| && Lower(s[at..at + |tag|]) == tag
  }

  const Open := "<pre>"
  const Close := "</pre>"

  /** The last position below `hi` where the closing tag starts. */
  function LastClose(s: string, hi: nat): (r: int)
    ensures r < hi
    ensures r >= 0 ==> MatchesAt(s, r, Close)
    ensures forall q: nat :: r < q < hi ==> !MatchesAt(s, q, Close)
    ensures r < 0 ==> r == -1
  {
    if hi == 0 then -1
    else if MatchesAt(s, hi - 1, Close) then hi - 1
    else LastClose(s, hi - 1)
  }

  /** The last position below `hi` where the opening tag starts. */
  function LastOpen(s: string, hi: nat): (r: int)
    ensures r < hi
    ensures r >= 0 ==> MatchesAt(s, r, Open)
    ensures forall p: nat :: r < p < hi ==> !MatchesAt(s, p, Open)
    ensures r < 0 ==> r == -1
  {
    if hi == 0 then -1
    else if MatchesAt(s, hi - 1, Open) then hi - 1
    else LastOpen(s, hi - 1)
  }

  /** An opening tag with a closing tag after it: the shape of a match of
      `.*<pre>(.*)</pre>.*` over the whole text, the dot matching line
      breaks. */
  predicate TagPair(s: string, p: nat, q: nat) {
    MatchesAt(s, p, Open) && MatchesAt(s, q, Close) && p + |Open| <= q
  }

  /** The group of a greedy match: `p` is the last opening tag with a
      closing tag after it and `q` the last closing tag. */
  predicate GreedyMatch(s: string, p: nat, q: nat) {
    && TagPair(s, p, q)
    && (forall q': nat :: q < q' < |s| ==> !MatchesAt(s, q', Close))
    && (forall p': nat :: p < p' && p' + |Open| <= q ==> !MatchesAt(s, p', Open))
  }

  /** `extractError`: the group of the error pattern when the response
      matches it, the whole response otherwise. Both stars are greedy, so
      the group runs from the last opening tag that still has a closing tag
      after it to the last closing tag. */
  function ExtractError(response: string): (r: string)
    ensures (forall p: nat, q: nat :: !TagPair(response, p, q)) ==> r == response
    ensures (exists p: nat, q: nat :: TagPair(response, p, q)) ==>
      exists p: nat, q: nat :: GreedyMatch(response, p, q) && r == response[p + |Open|..q]
  {
    var q := LastClose(response, |response|);
    if q < |Open| then
      NoPairWithoutLateClose(response, q);
      response
    else
      var p := LastOpen(response, q - |Open| + 1);
      if p < 0 then
        NoPairWithoutEarlyOpen(response, q);
        response
      else
        assert GreedyMatch(response, p, q);
        response[p + |Open|..q]
  }

  lemma NoPairWithoutLateClose(s: string, q: int)
    requires q == LastClose(s, |s|) && q < |Open|
    ensures forall p: nat, q': nat :: !TagPair(s, p, q')
  {
  }

  lemma NoPairWithoutEarlyOpen(s: string, q: nat)
    requires q == LastClose(s, |s|) && q >= |Open| && LastOpen(s, q - |Open| + 1) < 0
    ensures forall p: nat, q': nat :: !TagPair(s, p, q')
  {
  }

  /** Both tags start with `<`, which case folding leaves alone. */
  lemma NoTagWithoutLess(s: string, at: nat)
    requires at < |s| && s[at] != '<'
    ensures !MatchesAt(s, at, Close) && !MatchesAt(s, at, Open)
  {
    assert LowerAscii(s[at]) != '<';
    assert at + |Close| <= |s| ==> Lower(s[at..at + |Close|])[0] == LowerAscii(s[at]);
    assert at + |Open| <= |s| ==> Lower(s[at..at + |Open|])[0] == LowerAscii(s[at]);
    assert Close[0] == '<' && Open[0] == '<';
  }

  /** Below `hi`, the positions above `lo` hold no `<`: the last closing
      tag below `hi` is the last one up to `lo`. */
  lemma {:induction false} SkipPlainTextClose(s: string, lo: nat, hi: nat)
    requires lo < hi <= |s|
    requires forall k :: lo < k < hi ==> s[k] != '<'
    ensures LastClose(s, hi) == LastClose(s, lo + 1)
    decreases hi
  {
    if hi > lo + 1 {
      NoTagWithoutLess(s, hi - 1);
      SkipPlainTextClose(s, lo, hi - 1);
    }
  }

  /** The same for the opening tag. */
  lemma {:induction false} SkipPlainTextOpen(s: string, lo: nat, hi: nat)
    requires lo < hi <= |s|
    requires forall k :: lo < k < hi ==> s[k] != '<'
    ensures LastOpen(s, hi) == LastOpen(s, lo + 1)
    decreases hi
  {
    if hi > lo + 1 {
      NoTagWithoutLess(s, hi - 1);
      SkipPlainTextOpen(s, lo, hi - 1);
    }
  }

  /** A message wrapped in a `<pre>` block, with no other `<` in the
      response, is extracted exactly. */
  lemma ExtractWrapped(m: string)
    requires '<' !in m
    ensures ExtractError(Open + m + Close) == m
  {
    var s := Open + m + Close;
    var c := |Open| + |m|;
    WrappedLastClose(m);
    WrappedLastOpen(m);
    assert s[|Open|..c] == m;
  }

  /** The tags are in lower case, and hold `<` only at their start. */
  lemma TagsAreLower()
    ensures Lower(Open) == Open && Lower(Close) == Close
    ensures '<' !in Open[1..] && '<' !in Close[1..]
  {
    assert Open == ['<', 'p', 'r', 'e', '>'];
    assert Close == ['<', '/', 'p', 'r', 'e', '>'];
  }

  lemma DropIntoConcat(a: string, b: string, c: string, i: nat)
    requires i <= |a|
    ensures (a + b + c)[i..|a| + |b|] == a[i..] + b
  {
  }

  lemma SuffixOfConcat(a: string, b: string, i: nat)
    requires i <= |b|
    ensures (a + b)[|a| + i..] == b[i..]
  {
  }

  /** The closing tag of a wrapped message is the last one. */
  lemma WrappedLastClose(m: string)
    requires '<' !in m
    ensures LastClose(Open + m + Close, |Open + m + Close|) == |Open| + |m|
  {
    var s := Open + m + Close;
    var c := |Open| + |m|;
    WrappedCloseMatches(m);
    WrappedCloseAlone(m);
    SkipPlainTextClose(s, c, |s|);
  }

  lemma WrappedCloseMatches(m: string)
    ensures MatchesAt(Open + m + Close, |Open| + |m|, Close)
  {
    TagsAreLower();
    LastOfConcat(Open + m, Close);
  }

  lemma LastOfConcat(a: string, b: string)
    ensures (a + b)[|a|..|a| + |b|] == b
  {
  }

  lemma WrappedCloseAlone(m: string)
    ensures forall k :: |Open| + |m| < k < |Open + m + Close| ==> (Open + m + Close)[k] != '<'
  {
    TagsAreLower();
    SuffixOfConcat(Open + m, Close, 1);
    var s := Open + m + Close;
    var c := |Open| + |m|;
    forall k | c < k < |s| ensures s[k] != '<' {
      assert s[k] == s[c + 1..][k - c - 1];
    }
  }

  /** The opening tag of a wrapped message is the last one before it. */
  lemma WrappedLastOpen(m: string)
    requires '<' !in m
    ensures LastOpen(Open + m + Close, |m| + 1) == 0
  {
    WrappedOpenMatches(m);
    WrappedOpenAlone(m);
    SkipPlainTextOpen(Open + m + Close, 0, |m| + 1);
  }

  lemma WrappedOpenMatches(m: string)
    ensures MatchesAt(Open + m + Close, 0, Open)
  {
    TagsAreLower();
    PrefixOfConcat(Open, m, Close);
  }

  lemma WrappedOpenAlone(m: string)
    requires '<' !in m
    ensures forall k :: 0 < k < |m| + 1 ==> (Open + m + Close)[k] != '<'
  {
    TagsAreLower();
    DropIntoConcat(Open, m, Close, 1);
    var s := Open + m + Close;
    forall k | 0 < k < |m| + 1 ensures s[k] != '<' {
      assert s[k] == (Open[1..] + m)[k - 1];
    }
  }

  lemma PrefixOfConcat(a: string, b: string, c: string)
    ensures (a + b + c)[0..|a|] == a
  {
  }

  /** A response with no `<` is its own error text. */
  lemma ExtractWithoutTags(response: string)
    requires '<' !in response
    ensures ExtractError(response) == response
  {
    if |response| > 0 {
      SkipPlainTextClose(response, 0, |response|);
      NoTagWithoutLess(response, 0);
    }
  }

  /** `getMessage`. */
  function Message(e: GerritApiException): string {
    Compose(e, ExtractError(e.responseMsg))
  }

  /** `getMessage` around a given extracted error. */
  function Compose(e: GerritApiException, extracted: string): string {
    e.baseMessage + ": Received error with code " + Strings.IntToString(e.exitCode) + " from Gerrit: "
      + extracted + "\n\nThe request was:\n\n" + e.requestMsg
      + "\n\nThe full response was:\n\n" + e.responseMsg
  }

  /** The message starts with the exception's own message, then the code
      and the extracted error, and ends with the full response. */
  lemma MessageEmbedsParts(e: GerritApiException)
    ensures var m := Message(e);
      var head := e.baseMessage + ": Received error with code " + Strings.IntToString(e.exitCode) + " from Gerrit: ";
      && e.baseMessage <= head
      && head + ExtractError(e.responseMsg) <= m
      && |m| >= |e.responseMsg| && m[|m| - |e.responseMsg|..] == e.responseMsg
  {
    ComposeEmbedsParts(e, ExtractError(e.responseMsg));
  }

  lemma ComposeEmbedsParts(e: GerritApiException, x: string)
    ensures var m := Compose(e, x);
      var head := e.baseMessage + ": Received error with code " + Strings.IntToString(e.exitCode) + " from Gerrit: ";
      && e.baseMessage <= head
      && head + x <= m
      && |m| >= |e.responseMsg| && m[|m| - |e.responseMsg|..] == e.responseMsg
  {
  }
}

=== FILE: info.dfy ===
/** `Info`: what `copybara info` reports about a migration, with one
    `MigrationReference` per migrated reference. Revisions are of any type
    `R`; a multimap is the list of its entries in insertion order. */
module MigrationInfo {
  import opened Wrappers

  /** A change: its revision and its message. */
  datatype Change<R> = Change(revision: R, message: string)

  type Multimap = seq<(string, string)>

  datatype MigrationReference<R> = MigrationReference(
    name: string,  // `getLabel`
    lastMigrated: Option<R>,
    lastMigratedChange: Option<Change<R>>,
    availableToMigrate: seq<Change<R>>)

  datatype Info<R> = Info(
    originDescription: Multimap,
    destinationDescription: Multimap,
    migrationReferences: seq<MigrationReference<R>>,
    versions: seq<Change<R>>)

  /** `Info.create` with the upstream versions. */
  function CreateWithVersions<R>(origin: Multimap, destination: Multimap, refs: seq<MigrationReference<R>>,
                                 versions: seq<Change<R>>): (i: Info<R>)
    ensures i.originDescription == origin && i.destinationDescription == destination
    ensures i.migrationReferences == refs && i.versions == versions
  {
    Info(origin, destination, refs, versions)
  }

  /** `Info.create` without versions: the same, with none. */
  function Create<R>(origin: Multimap, destination: Multimap, refs: seq<MigrationReference<R>>): (i: Info<R>)
    ensures i == CreateWithVersions(origin, destination, refs, [])
    ensures i.versions == []
  {
    Info(origin, destination, refs, [])
  }

  /** `Info.EMPTY`. */
  function Empty<R>(): (i: Info<R>)
    ensures i.originDescription == [] && i.destinationDescription == []
    ensures i.migrationReferences == [] && i.versions == []
  {
    Create([], [], [])
  }

  /** The four-argument `MigrationReference.create`. */
  function NewReference<R>(name: string, lastMigrated: Option<R>, lastMigratedChange: Option<Change<R>>,
                           available: seq<Change<R>>): (m: MigrationReference<R>)
    ensures m.name == name && m.lastMigrated == lastMigrated
    ensures m.lastMigratedChange == lastMigratedChange && m.availableToMigrate == available
  {
    MigrationReference(name, lastMigrated, lastMigratedChange, available)
  }

  /** The three-argument `MigrationReference.create`: the last migrated
      revision is the revision of the last migrated change, if any. */
  function NewReferenceFromChange<R>(name: string, lastMigratedChange: Option<Change<R>>,
                                     available: seq<Change<R>>): (m: MigrationReference<R>)
    ensures lastMigratedChange.None? ==> m.lastMigrated.None?
    ensures lastMigratedChange.Some? ==> m.lastMigrated == Some(lastMigratedChange.value.revision)
    ensures m.lastMigratedChange == lastMigratedChange && m.availableToMigrate == available && m.name == name
  {
    var last := if lastMigratedChange.None? then None else Some(lastMigratedChange.value.revision);
    MigrationReference(name, last, lastMigratedChange, available)
  }

  /** The three-argument form is the four-argument one given the change's
      revision. */
  lemma FromChangeIsConsistent<R>(name: string, c: Change<R>, available: seq<Change<R>>)
    ensures NewReferenceFromChange(name, Some(c), available) == NewReference(name, Some(c.revision), Some(c), available)
    ensures NewReferenceFromChange(name, None, available) == NewReference(name, None, None, available)
  {
  }

  /** `getLastAvailableToMigrate`: the revisions of the available changes
      reduced by keeping the second of each pair; `None` when there are
      none. */
  method LastAvailableToMigrate<R>(m: MigrationReference<R>) returns (r: Option<R>)
    ensures |m.availableToMigrate| == 0 <==> r.None?
    ensures r.Some? ==> r.value == m.availableToMigrate[|m.availableToMigrate| - 1].revision
  {
    var acc: Option<R> := None;
    var i := 0;
    while i < |m.availableToMigrate|
      invariant i <= |m.availableToMigrate|
      invariant i == 0 <==> acc.None?
      invariant acc.Some? ==> acc.value == m.availableToMigrate[i - 1].revision
    {
      var next := m.availableToMigrate[i].revision;
      // The first revision, or the reducing function (first, second) -> second.
      acc := Some(next);
      i := i + 1;
    }
    return acc;
  }
}

=== FILE: input_resolver.dfy ===
/** The onboarding input resolution: `InputProviderResolverImpl`, which
    routes each requested input to the providers that can give it and
    detects resolution loops, and `ConstantProvider`.

    A provider is known by its position in the list given to `create` and by
    the inputs it offers with their priorities. What the combined
    providers answer (`PrioritizedInputProvider`, `AskInputProvider`,
    `CachedInputProvider`, none of them part of this model) is a parameter
    of a resolution, as is the type test of a value against a type name. */
module InputResolver {
  import opened Wrappers
  import Strings

  datatype Input = Input(name: string, description: string, inferOnly: bool, typeName: string)

  /** A resolved value and the name of its class. */
  datatype Value = Value(typeName: string, text: string)

  /** What a registered input is resolved with: the providers of that input
      combined in priority order, or, for an input nobody offers, a
      `ConstantProvider` with no value. */
  datatype Base = Prioritized(input: Input, sources: set<nat>) | NoValue(input: Input)

  /** The cached provider of an input, asking the user when `asksUser`. */
  datatype Chain = Cached(base: Base, asksUser: bool)

  /** A resolver: the shared provider table and the names being resolved
      on the way here, outermost first. */
  datatype Resolver = Resolver(table: map<Input, Chain>, loopDetector: seq<string>)

  /** The inputs the first `k` providers offer. */
  function Offered(offers: seq<map<Input, int>>, k: nat): set<Input>
    requires k <= |offers|
  {
    set j, i | 0 <= j < k && i in offers[j] :: i
  }

  /** The inputs the first `k` providers offer, each with who offers it. */
  function Providers(offers: seq<map<Input, int>>, k: nat): map<Input, set<nat>>
    requires k <= |offers|
  {
    map i | i in Offered(offers, k) :: set j | 0 <= j < k && i in offers[j]
  }

  /** Adding the next provider to the grouping: each input it offers gains
      it as a provider. */
  function AddProvider(m: map<Input, set<nat>>, offer: map<Input, int>, k: nat): map<Input, set<nat>> {
    m + map i | i in offer :: (if i in m then m[i] else {}) + {k}
  }

  lemma ProvidersStep(offers: seq<map<Input, int>>, k: nat)
    requires k < |offers|
    ensures Providers(offers, k + 1) == AddProvider(Providers(offers, k), offers[k], k)
  {
    var m := Providers(offers, k);
    var a := AddProvider(m, offers[k], k);
    var b := Providers(offers, k + 1);
    forall i | i in a ensures i in b && b[i] == a[i] {
      if i in offers[k] {
        assert i in Offered(offers, k + 1);
      } else {
        var j :| 0 <= j < k && i in offers[j];
        assert i in Offered(offers, k + 1);
      }
    }
    forall i | i in b ensures i in a {
      var j :| 0 <= j < k + 1 && i in offers[j];
      if j < k {
        assert i in Offered(offers, k);
      }
    }
  }

  /** The cached provider registered for an input given by `sources`. */
  function Registered(input: Input, sources: set<nat>): Chain {
    Cached(Prioritized(input, sources), !input.inferOnly)
  }

  /** `create`: a cached provider per provided input, combining every
      provider of it, asking the user unless the input is infer-only; the
      root resolver has an empty loop detector. */
  method Create(offers: seq<map<Input, int>>) returns (r: Resolver)
    ensures r.loopDetector == []
    ensures forall i :: i in r.table <==> exists j :: 0 <= j < |offers| && i in offers[j]
    ensures forall i :: i in r.table ==>
      && r.table[i].base == Prioritized(i, set j | 0 <= j < |offers| && i in offers[j])
      && r.table[i].asksUser == !i.inferOnly
  {
    var multimap: map<Input, set<nat>> := map[];
    var k := 0;
    while k < |offers|
      invariant k <= |offers|
      invariant multimap == Providers(offers, k)
    {
      ProvidersStep(offers, k);
      multimap := AddProvider(multimap, offers[k], k);
      k := k + 1;
    }
    var table := map i | i in multimap :: Registered(i, multimap[i]);
    r := Resolver(table, []);
  }

  /** One resolution: the provider table afterwards, the provider and
      resolver the request was handed to, and the outcome. The table is
      shared by every resolver of a resolution, so the caller goes on with
      this one. */
  datatype Resolution = Resolution(table: map<Input, Chain>, delegate: Option<(Chain, Resolver)>, result: Result<Value>)

  /** What a provider gives back when asked through a resolver: its answer,
      and the shared table as the nested resolutions it made left it. */
  type Answer = (Chain, Resolver) -> (Result<Option<Value>>, map<Input, Chain>)

  /** The shared table only grows: a nested resolution registers inputs it
      did not find and never replaces or drops a provider. */
  predicate Extends(after: map<Input, Chain>, before: map<Input, Chain>) {
    forall i :: i in before ==> i in after && after[i] == before[i]
  }

  ghost predicate SharesTable(answer: Answer) {
    forall c, r :: Extends(answer(c, r).1, r.table)
  }

  function LoopMsg(loopDetector: seq<string>, name: string): string {
    "Loop detected trying to resolver input: " + Strings.Join(loopDetector, " -> ") + " -> *" + name
  }

  function CannotFindMsg(input: Input): string {
    "Cannot find a value for '" + input.description + "' (" + input.name + ")"
  }

  function WrongTypeMsg(input: Input, v: Value): string {
    "Input provider returned an object of type " + v.typeName + ", but " + input.name
      + " requires an object of type " + input.typeName
  }

  /** `resolveAndCheck`: the provider's answer, failing when it has none or
      when the value is not of the input's type. */
  function Check(input: Input, answer: Result<Option<Value>>, isInstance: (Value, string) -> bool): (r: Result<Value>)
    ensures answer.Failure? ==> r == Failure(answer.error)
    ensures answer == Success(None) ==> r == Failure(CannotProvide(CannotFindMsg(input)))
    ensures r.Success? <==> answer.Success? && answer.value.Some? && isInstance(answer.value.value, input.typeName)
    ensures r.Success? ==> r.value == answer.value.value
  {
    match answer
    case Failure(e) => Failure(e)
    case Success(None) => Failure(CannotProvide(CannotFindMsg(input)))
    case Success(Some(v)) =>
      if isInstance(v, input.typeName) then Success(v) else Failure(IllegalState(WrongTypeMsg(input, v)))
  }

  /** `resolve(input)`. `answer(provider, resolver)` is what the provider
      answers when asked for the input through that resolver, with the
      shared table it leaves behind. */
  function Resolve(r: Resolver, input: Input, answer: Answer, isInstance: (Value, string) -> bool): (res: Resolution)
    ensures input.name in r.loopDetector ==>
      res == Resolution(r.table, None, Failure(IllegalState(LoopMsg(r.loopDetector, input.name))))
    ensures input.name !in r.loopDetector && input in r.table ==>
      res.delegate == Some((r.table[input], Resolver(r.table, r.loopDetector + [input.name])))
    ensures input.name !in r.loopDetector && input !in r.table ==>
      var registered := r.table[input := Cached(NoValue(input), true)];
      res.delegate == Some((Cached(NoValue(input), true), Resolver(registered, r.loopDetector)))
    ensures res.delegate.Some? ==>
      var (c, child) := res.delegate.value;
      && res.table == answer(c, child).1
      && res.result == Check(input, answer(c, child).0, isInstance)
    ensures SharesTable(answer) ==> Extends(res.table, r.table)
    ensures SharesTable(answer) && input.name !in r.loopDetector ==> input in res.table
  {
    if input.name in r.loopDetector then
      Resolution(r.table, None, Failure(IllegalState(LoopMsg(r.loopDetector, input.name))))
    else if input !in r.table then
      var chain := Cached(NoValue(input), true);
      var self := Resolver(r.table[input := chain], r.loopDetector);
      var (value, table) := answer(chain, self);
      Resolution(table, Some((chain, self)), Check(input, value, isInstance))
    else
      var child := Resolver(r.table, r.loopDetector + [input.name]);
      var (value, table) := answer(r.table[input], child);
      Resolution(table, Some((r.table[input], child)), Check(input, value, isInstance))
  }

  /** A provider that asks, through the resolver it was given, for the very
      input it is resolving is stopped: the request fails with an
      IllegalStateException and reaches no provider. */
  lemma SelfRequestIsLoop(r: Resolver, input: Input, answer: Answer, isInstance: (Value, string) -> bool)
    requires input.name !in r.loopDetector && input in r.table
    ensures var child := Resolve(r, input, answer, isInstance).delegate.value.1;
      var again := Resolve(child, input, answer, isInstance);
      again.result.Failure? && again.result.error.IllegalState? && again.delegate.None?
  {
  }

  /** Along any chain of nested resolutions each name is entered once: the
      loop detector of a delegate holds exactly the outer names plus the new
      one, and no name twice. */
  lemma LoopDetectorGrows(r: Resolver, input: Input, answer: Answer, isInstance: (Value, string) -> bool)
    requires forall a, b :: 0 <= a < b < |r.loopDetector| ==> r.loopDetector[a] != r.loopDetector[b]
    requires input in r.table
    ensures var res := Resolve(r, input, answer, isInstance);
      res.delegate.Some? ==>
        var d := res.delegate.value.1.loopDetector;
        && (forall a, b :: 0 <= a < b < |d| ==> d[a] != d[b])
        && (forall n :: n in d <==> n in r.loopDetector || n == input.name)
  {
  }

  /** An input nobody offers is registered by its first resolution, before
      its provider is asked, so later resolutions find it in the table and
      use the same provider. */
  lemma OnDemandProviderIsKept(r: Resolver, input: Input, answer: Answer, isInstance: (Value, string) -> bool)
    requires SharesTable(answer)
    requires input.name !in r.loopDetector && input !in r.table
    ensures var res := Resolve(r, input, answer, isInstance);
      && input in res.delegate.value.1.table
      && input in res.table && res.table[input] == Cached(NoValue(input), true)
      && res.delegate.value.1.loopDetector == r.loopDetector
      && Resolve(Resolver(res.table, r.loopDetector), input, answer, isInstance).delegate.value.0 == res.table[input]
  {
  }

  /** What a nested resolution registers is seen by the resolver that asked:
      an input the provider's own requests registered is, on the next
      request of the outer resolver, handed to that same provider and not
      registered again. */
  lemma NestedRegistrationShared(r: Resolver, input: Input, other: Input, answer: Answer,
                                 isInstance: (Value, string) -> bool)
    requires SharesTable(answer)
    requires input.name !in r.loopDetector && other.name !in r.loopDetector
    requires other !in r.table
    requires other in Resolve(r, input, answer, isInstance).table
    ensures var res := Resolve(r, input, answer, isInstance);
      var again := Resolve(Resolver(res.table, r.loopDetector), other, answer, isInstance);
      && again.delegate.value.0 == res.table[other]
      && again.delegate.value.1.table == res.table
  {
  }

  function NotOfTypeMsg(starlark: string, typeName: string): string {
    "Invalid input: " + starlark + ". Not of type " + typeName
  }

  /** `parseStarlark`: the converter's value when it is of the requested
      type; a CannotConvertException otherwise. */
  function ParseStarlark(starlark: string, typeName: string, convert: string -> Result<Value>,
                         isInstance: (Value, string) -> bool): (r: Result<Value>)
    ensures convert(starlark).Failure? ==> r == Failure(convert(starlark).error)
    ensures convert(starlark).Success? && !isInstance(convert(starlark).value, typeName) ==>
      r == Failure(CannotConvert(NotOfTypeMsg(starlark, typeName)))
    ensures r.Success? ==> r == convert(starlark) && isInstance(r.value, typeName)
  {
    var v :- convert(starlark);
    if isInstance(v, typeName) then Success(v) else Failure(CannotConvert(NotOfTypeMsg(starlark, typeName)))
  }

  /** `ConstantProvider`: a provider of one input with a fixed, possibly
      absent, value. */
  datatype ConstantProvider = ConstantProvider(input: Input, value: Option<Value>, priority: int)

  /** The two-argument constructor, given the interface's default priority. */
  function NewConstantProvider(input: Input, value: Option<Value>, defaultPriority: int): (p: ConstantProvider)
    ensures p.priority == defaultPriority && p.input == input && p.value == value
  {
    ConstantProvider(input, value, defaultPriority)
  }

  /** `offers()`: just the configured input, at the configured priority. */
  function Provides(p: ConstantProvider): (m: map<Input, int>)
    ensures m.Keys == {p.input}
    ensures m[p.input] == p.priority
  {
    map[p.input := p.priority]
  }

  /** `resolve(input, resolver)`: the constant for the configured input;
      any other input is a caller error. */
  function ConstantResolve(p: ConstantProvider, input: Input): (r: Result<Option<Value>>)
    ensures r.Success? <==> input == p.input
    ensures r.Success? ==> r.value == p.value
    ensures r.Failure? ==> r.error.IllegalArgument?
  {
    if input == p.input then Success(p.value)
    else Failure(IllegalArgument("Requested input " + input.name + " different of the provided " + p.input.name + "."
                                 + " This shouldn't happen"))
  }

  /** Resolving an input through a constant provider without a value fails
      with CannotProvideException naming the input. */
  lemma NoValueCannotProvide(p: ConstantProvider, isInstance: (Value, string) -> bool)
    requires p.value.None?
    ensures Check(p.input, ConstantResolve(p, p.input), isInstance) == Failure(CannotProvide(CannotFindMsg(p.input)))
  {
  }
}

=== FILE: map_mapper.dfy ===
/** `MapMapper`: a string function given by a map, leaving unmapped strings
    as they are, and reversible when the map is one-to-one. */
module MapMapper {
  import opened Wrappers

  datatype Mapper = Mapper(entries: map<string, string>)

  /** The constructor; `None` is a null map. */
  function NewMapper(m: Option<map<string, string>>): (r: Result<Mapper>)
    ensures m.None? ==> r == Failure(NullPointer)
    ensures m.Some? ==> r == Success(Mapper(m.value))
  {
    match m
    case None => Failure(NullPointer)
    case Some(e) => Success(Mapper(e))
  }

  /** `apply`: the mapped value of a key, the string itself otherwise. */
  function Apply(f: Mapper, s: string): (r: string)
    ensures s in f.entries ==> r == f.entries[s]
    ensures s !in f.entries ==> r == s
  {
    if s in f.entries then f.entries[s] else s
  }

  /** No two keys share a value. */
  predicate Injective(m: map<string, string>) {
    forall a, b :: a in m && b in m && m[a] == m[b] ==> a == b
  }

  /** The inverse of a one-to-one map: each value mapped back to its key. */
  function Inverse(m: map<string, string>): (inv: map<string, string>)
    requires Injective(m)
    ensures inv.Keys == m.Values
    ensures forall k :: k in m ==> m[k] in inv && inv[m[k]] == k
    ensures Injective(inv)
  {
    map k | k in m :: m[k] := k
  }

  const NonReversibleMsg := "Non-reversible map"

  /** `reverseMapping`: the inverse map's mapper, or NonReversibleValidationException
      when two keys share a value (`ImmutableBiMap.copyOf` rejects it). */
  function ReverseMapping(f: Mapper): (r: Result<Mapper>)
    ensures r.Success? <==> Injective(f.entries)
    ensures r.Failure? ==> r.error == NonReversible(NonReversibleMsg)
    ensures r.Success? ==> r.value.entries.Keys == f.entries.Values
  {
    if Injective(f.entries) then Success(Mapper(Inverse(f.entries)))
    else Failure(NonReversible(NonReversibleMsg))
  }

  /** The reverse mapper undoes the mapping on every key. */
  lemma ReverseUndoesApply(f: Mapper, k: string)
    requires Injective(f.entries) && k in f.entries
    ensures ReverseMapping(f).Success?
    ensures Apply(ReverseMapping(f).value, Apply(f, k)) == k
  {
  }

  /** Reversing a one-to-one mapping twice gives the original mapping. */
  lemma ReverseTwice(f: Mapper)
    requires Injective(f.entries)
    ensures ReverseMapping(f).Success?
    ensures ReverseMapping(ReverseMapping(f).value).Success?
    ensures ReverseMapping(ReverseMapping(f).value).value == f
  {
    var inv := Inverse(f.entries);
    var back := Inverse(inv);
    assert back.Keys == f.entries.Keys by {
      forall k | k in back ensures k in f.entries {
        assert k in inv.Values;
        var v :| v in inv && inv[v] == k;
        assert v in f.entries.Values;
        var k' :| k' in f.entries && f.entries[k'] == v;
        assert inv[f.entries[k']] == k';
      }
    }
    forall k | k in f.entries ensures back[k] == f.entries[k] {
      assert inv[f.entries[k]] == k;
    }
  }

  /** Two keys with one value make the mapping irreversible. */
  lemma SharedValueIsIrreversible(f: Mapper, a: string, b: string)
    requires a in f.entries && b in f.entries && a != b && f.entries[a] == f.entries[b]
    ensures ReverseMapping(f) == Failure(NonReversible(NonReversibleMsg))
  {
  }
}

=== FILE: metadata.dfy ===
/** The metadata transformations that rewrite a change's description and
    author: exposing a hidden label in the message, scrubbing the message,
    and saving or restoring the original author in a label.

    A transformation does not see the message's text layout: it asks its
    `TransformWork` to add, replace or remove labels and to set the message
    or the author. The model returns those requests, in order, as a list of
    effects; what the work does with them is not part of this model. */
module Metadata {
  import opened Wrappers
  import Strings
  import Seqs
  import opened AuthorParser

  /** One request a transformation makes of its `TransformWork`. */
  datatype Effect =
    | AddLabel(name: string, value: string, separator: string, hidden: bool)
    | RemoveLabel(name: string, wholeMessage: bool)
    | RemoveLabelWithValue(name: string, value: string, wholeMessage: bool)
    | AddOrReplaceLabel(name: string, value: string, separator: string)
    | SetMessage(message: string)
    | SetAuthor(author: Author)
    | Warn(message: string)
    | Verbose(message: string)

  /** Labels of one change, from its metadata: a multimap read as the list
      of values per name; a missing name has no values. */
  type Labels = map<string, seq<string>>

  function Values(c: Labels, key: string): seq<string> {
    if key in c then c[key] else []
  }

  /** What the transformations read from their `TransformWork`: the message,
      the current author, the label lookups (`getLabel` answers one value
      or none, `getAllLabels` every value in order) and the labels of the
      current changes, oldest first. */
  datatype Work = Work(
    message: string,
    author: Author,
    getLabel: string -> Option<string>,
    getAllLabels: string -> seq<string>,
    current: seq<Labels>)

  /** The outcome of `Author.parse` on a label's text. */
  datatype Parsed = Parsed(author: Author) | Unparsable(message: string)

  /** The code the transformations call but that is not modelled: the
      regular expression's `replaceAll(pattern, replacement, text)` (`None`
      when the replacement names a group the pattern lacks),
      `Author.parse`, and `Author.toString`. */
  datatype Env = Env(
    replaceAll: (string, string, string) -> Option<string>,
    parse: string -> Parsed,
    show: Author -> string)

  datatype Expose = Expose(
    key: string,
    newLabelName: string,
    separator: string,
    ignoreNotFound: bool,
    all: bool,
    joiner: Option<string>)

  datatype Scrub = Scrub(
    pattern: string,
    replacement: string,
    defaultPublicMsg: Option<string>,
    failIfNoMatch: bool)

  datatype Restore = Restore(key: string, separator: string, searchAllChanges: bool)

  datatype Save = Save(key: string, separator: string)

  /** The constructors' `checkNotNull`s, a `None` argument being null: the
      label, the new name and the separator of an exposure, the pattern and
      the replacement of a scrubber, and the label and the separator of an
      author save. The restore's constructor checks only its location. */
  function NewExpose(key: Option<string>, newLabelName: Option<string>, separator: Option<string>,
                     ignoreNotFound: bool, all: bool, joiner: Option<string>): (r: Result<Expose>)
    ensures r.Success? <==> key.Some? && newLabelName.Some? && separator.Some?
    ensures r.Failure? ==> r.error == NullPointer
    ensures r.Success? ==> r.value == Expose(key.value, newLabelName.value, separator.value, ignoreNotFound, all, joiner)
  {
    if key.None? || newLabelName.None? || separator.None? then Failure(NullPointer)
    else Success(Expose(key.value, newLabelName.value, separator.value, ignoreNotFound, all, joiner))
  }

  function NewScrub(pattern: Option<string>, defaultPublicMsg: Option<string>, failIfNoMatch: bool,
                    replacement: Option<string>): (r: Result<Scrub>)
    ensures r.Success? <==> pattern.Some? && replacement.Some?
    ensures r.Failure? ==> r.error == NullPointer
    ensures r.Success? ==> r.value == Scrub(pattern.value, replacement.value, defaultPublicMsg, failIfNoMatch)
  {
    if pattern.None? || replacement.None? then Failure(NullPointer)
    else Success(Scrub(pattern.value, replacement.value, defaultPublicMsg, failIfNoMatch))
  }

  function NewSave(key: Option<string>, separator: Option<string>): (r: Result<Save>)
    ensures r.Success? <==> key.Some? && separator.Some?
    ensures r.Failure? ==> r.error == NullPointer
    ensures r.Success? ==> r.value == Save(key.value, separator.value)
  {
    if key.None? || separator.None? then Failure(NullPointer)
    else Success(Save(key.value, separator.value))
  }

  /** The transformations of this module, plus the two shapes their
      reversals take: `IntentionalNoop`, and an `ExplicitReversal` that runs
      its first transformation and reverses to its second. */
  datatype Transformation =
    | ExposeLabel(expose: Expose)
    | Scrubber(scrub: Scrub)
    | RestoreAuthor(restore: Restore)
    | SaveAuthor(save: Save)
    | IntentionalNoop
    | ExplicitReversal(forward: Transformation, reversal: Transformation)

  // ---------------------------------------------------------------------
  // Exposing a label

  function CannotFindMsg(key: string): string {
    "Cannot find label " + key
  }

  /** The values of the labels an effect list adds, in order. */
  function AddedValues(effects: seq<Effect>): seq<string> {
    if |effects| == 0 then []
    else
      var last := effects[|effects| - 1];
      AddedValues(effects[..|effects| - 1]) + (if last.AddLabel? then [last.value] else [])
  }

  /** One visible label per value, in order. */
  function AddEach(name: string, values: seq<string>, separator: string): (r: seq<Effect>)
    ensures |r| == |values|
    ensures forall k :: 0 <= k < |r| ==> r[k] == AddLabel(name, values[k], separator, false)
  {
    if |values| == 0 then []
    else AddEach(name, values[..|values| - 1], separator) + [AddLabel(name, values[|values| - 1], separator, false)]
  }

  /** Adding one label per value adds exactly those values. */
  lemma {:induction false} AddEachAddsValues(pre: seq<Effect>, name: string, values: seq<string>, separator: string)
    ensures AddedValues(pre + AddEach(name, values, separator)) == AddedValues(pre) + values
    decreases |values|
  {
    if |values| == 0 {
      assert pre + AddEach(name, values, separator) == pre;
    } else {
      var init := values[..|values| - 1];
      var s := pre + AddEach(name, values, separator);
      assert s[..|s| - 1] == pre + AddEach(name, init, separator);
      AddEachAddsValues(pre, name, init, separator);
      assert values == init + [values[|values| - 1]];
    }
  }

  /** The removal that comes first when the label keeps its name. */
  function Removal(e: Expose, value: string): seq<Effect> {
    if e.key != e.newLabelName then []
    else if e.all then [RemoveLabel(e.key, true)]
    else [RemoveLabelWithValue(e.key, value, true)]
  }

  /** The label was not found: no value for it, or none at all. */
  predicate LabelMissing(e: Expose, w: Work) {
    if e.all then |w.getAllLabels(e.key)| == 0 else w.getLabel(e.key).None?
  }

  /** `ExposeLabelInMessage.transform` with its `exposeAllLabels` branch. */
  function ExposeTransform(e: Expose, w: Work): (r: Result<seq<Effect>>)
    // A missing label fails unless told to ignore it, and then nothing changes.
    ensures LabelMissing(e, w) ==> (r.Success? <==> e.ignoreNotFound)
    ensures LabelMissing(e, w) && r.Success? ==> r.value == []
    ensures r.Failure? ==> LabelMissing(e, w) && r.error == Validation(CannotFindMsg(e.key))
    // One value: it is exposed as is.
    ensures !e.all && !LabelMissing(e, w) ==> r.Success? && AddedValues(r.value) == [w.getLabel(e.key).value]
    // All values: each distinct one, or them joined into one label.
    ensures e.all && !LabelMissing(e, w) ==> r.Success? && AddedValues(r.value) == ExposedValues(e, Distinct(e, w))
  {
    if e.all then ExposeAll(e, w) else ExposeOne(e, w)
  }

  /** Every label added is visible, under the new name and separator; the
      old label is removed first, and only when it keeps its name. */
  ghost predicate VisibleAfterRemoval(e: Expose, w: Work, r: Result<seq<Effect>>) {
    && (r.Success? ==> forall k :: 0 <= k < |r.value| && r.value[k].AddLabel? ==>
          r.value[k] == AddLabel(e.newLabelName, r.value[k].value, e.separator, false))
    && (r.Success? && !LabelMissing(e, w) ==> |r.value| > 0 && (e.key == e.newLabelName <==> !r.value[0].AddLabel?))
    && (r.Success? && !LabelMissing(e, w) && e.key == e.newLabelName ==>
          (r.value[0].RemoveLabel? || r.value[0].RemoveLabelWithValue?)
          && r.value[0].name == e.key && r.value[0].wholeMessage
          && forall k :: 1 <= k < |r.value| ==> r.value[k].AddLabel?)
    && (r.Success? && e.key != e.newLabelName ==> forall k :: 0 <= k < |r.value| ==> r.value[k].AddLabel?)
  }

  /** Both branches of exposing keep the old label's removal first and add
      only visible labels. */
  lemma ExposeShape(e: Expose, w: Work)
    ensures VisibleAfterRemoval(e, w, ExposeTransform(e, w))
  {
    if e.all {
      ExposeAllShape(e, w);
    } else {
      ExposeOneShape(e, w);
    }
  }

  lemma ExposeOneShape(e: Expose, w: Work)
    requires !e.all
    ensures VisibleAfterRemoval(e, w, ExposeOne(e, w))
  {
    if !LabelMissing(e, w) {
      var r := ExposeOne(e, w).value;
      var n := |Removal(e, "")|;
      assert n <= 1;
      assert n == 1 ==> r[0] == r[..n][0];
    }
  }

  lemma ExposeAllShape(e: Expose, w: Work)
    requires e.all
    ensures VisibleAfterRemoval(e, w, ExposeAll(e, w))
  {
    if !LabelMissing(e, w) {
      ExposedShape(e, Distinct(e, w));
    }
  }

  /** The removal-then-adds list for some values, at least one exposed. */
  lemma ExposedShape(e: Expose, values: seq<string>)
    requires e.all && |values| > 0
    ensures var r := Exposed(e, values);
      && (forall k :: 0 <= k < |r| && r[k].AddLabel? ==> r[k] == AddLabel(e.newLabelName, r[k].value, e.separator, false))
      && |r| > 0 && (e.key == e.newLabelName <==> !r[0].AddLabel?)
      && (e.key == e.newLabelName ==> r[0] == RemoveLabel(e.key, true) && forall k :: 1 <= k < |r| ==> r[k].AddLabel?)
      && (e.key != e.newLabelName ==> forall k :: 0 <= k < |r| ==> r[k].AddLabel?)
  {
    var r := Exposed(e, values);
    assert |ExposedValues(e, values)| > 0;
    var n := |Removal(e, "")|;
    assert forall k :: n <= k < |r| ==> r[k] == AddLabel(e.newLabelName, r[k].value, e.separator, false);
    if e.key == e.newLabelName {
      assert Removal(e, "") == [RemoveLabel(e.key, true)];
      assert r[0] == r[..1][0];
    } else {
      assert n == 0;
    }
  }

  /** The single-value branch: the label's value, re-added visibly. */
  function ExposeOne(e: Expose, w: Work): (r: Result<seq<Effect>>)
    requires !e.all
    ensures LabelMissing(e, w) ==> r == (if e.ignoreNotFound then Success([]) else Failure(Validation(CannotFindMsg(e.key))))
    ensures !LabelMissing(e, w) ==>
      && r.Success?
      && |r.value| == |Removal(e, "")| + 1
      && r.value[..|Removal(e, "")|] == Removal(e, w.getLabel(e.key).value)
      && r.value[|r.value| - 1] == AddLabel(e.newLabelName, w.getLabel(e.key).value, e.separator, false)
      && AddedValues(r.value) == [w.getLabel(e.key).value]
  {
    var value := w.getLabel(e.key);
    if value.None? then
      if e.ignoreNotFound then Success([]) else Failure(Validation(CannotFindMsg(e.key)))
    else
      var effects := Removal(e, value.value) + [AddLabel(e.newLabelName, value.value, e.separator, false)];
      assert effects[..|effects| - 1] == Removal(e, value.value);
      RemovalAddsNothing(e, value.value);
      Success(effects)
  }

  /** The distinct values of the label, in first-occurrence order. */
  function Distinct(e: Expose, w: Work): (r: seq<string>)
    ensures |r| == 0 <==> |w.getAllLabels(e.key)| == 0
  {
    var d := Seqs.Dedup(w.getAllLabels(e.key));
    assert |w.getAllLabels(e.key)| > 0 ==> w.getAllLabels(e.key)[0] in d;
    d
  }

  /** The values `exposeAllLabels` adds: the distinct ones, or them joined. */
  function ExposedValues(e: Expose, values: seq<string>): seq<string> {
    if e.joiner.Some? then [Strings.Join(values, e.joiner.value)] else values
  }

  /** The removal, if any, then one visible label per exposed value. */
  function Exposed(e: Expose, values: seq<string>): (r: seq<Effect>)
    ensures |r| == |Removal(e, "")| + |ExposedValues(e, values)|
    ensures r[..|Removal(e, "")|] == Removal(e, "")
    ensures AddedValues(r) == ExposedValues(e, values)
    ensures forall k :: |Removal(e, "")| <= k < |r| ==>
      r[k].AddLabel? && r[k] == AddLabel(e.newLabelName, r[k].value, e.separator, false)
  {
    var remove := Removal(e, "");
    var adds := AddEach(e.newLabelName, ExposedValues(e, values), e.separator);
    AddEachAddsValues(remove, e.newLabelName, ExposedValues(e, values), e.separator);
    RemovalAddsNothing(e, "");
    assert (remove + adds)[..|remove|] == remove;
    remove + adds
  }

  /** A removal adds no label. */
  lemma RemovalAddsNothing(e: Expose, value: string)
    ensures AddedValues(Removal(e, value)) == []
  {
    assert Removal(e, value) == [] || Removal(e, value)[..0] == [];
  }

  /** `exposeAllLabels`. */
  function ExposeAll(e: Expose, w: Work): (r: Result<seq<Effect>>)
    requires e.all
    ensures LabelMissing(e, w) ==> r == (if e.ignoreNotFound then Success([]) else Failure(Validation(CannotFindMsg(e.key))))
    ensures !LabelMissing(e, w) ==> r == Success(Exposed(e, Distinct(e, w)))
  {
    var values := Distinct(e, w);
    if |values| == 0 then
      if e.ignoreNotFound then Success([]) else Failure(Validation(CannotFindMsg(e.key)))
    else
      assert !LabelMissing(e, w);
      Success(Exposed(e, values))
  }

  /** Exposing all values one label each adds every value, each once. */
  lemma ExposeAllOnce(e: Expose, w: Work)
    requires e.all && e.joiner.None? && !LabelMissing(e, w)
    ensures forall v :: v in AddedValues(ExposeTransform(e, w).value) <==> v in w.getAllLabels(e.key)
    ensures forall i, j :: 0 <= i < j < |AddedValues(ExposeTransform(e, w).value)| ==>
      AddedValues(ExposeTransform(e, w).value)[i] != AddedValues(ExposeTransform(e, w).value)[j]
  {
    var d := Distinct(e, w);
    assert AddedValues(ExposeTransform(e, w).value) == d;
    forall v ensures v in d <==> v in w.getAllLabels(e.key) {
      if v in w.getAllLabels(e.key) {
        var k :| 0 <= k < |w.getAllLabels(e.key)| && w.getAllLabels(e.key)[k] == v;
      }
    }
  }

  /** Exposing all values one label each keeps them in the order in which
      they first occur. */
  lemma ExposeAllInFirstOccurrenceOrder(e: Expose, w: Work, i: nat, j: nat)
    requires e.all && e.joiner.None? && !LabelMissing(e, w)
    requires i < j < |AddedValues(ExposeTransform(e, w).value)|
    ensures
      var added := AddedValues(ExposeTransform(e, w).value);
      added[i] in w.getAllLabels(e.key) && added[j] in w.getAllLabels(e.key)
      && Seqs.FirstIndex(w.getAllLabels(e.key), added[i]) < Seqs.FirstIndex(w.getAllLabels(e.key), added[j])
  {
    Seqs.DedupKeepsFirstOccurrenceOrder(w.getAllLabels(e.key), i, j);
  }

  /** With a one-character joiner no value contains, the joined label splits
      back into the distinct values, in first-occurrence order. */
  lemma JoinedLabelSplitsBack(e: Expose, w: Work, c: char)
    requires e.all && e.joiner == Some([c]) && !LabelMissing(e, w)
    requires forall k :: 0 <= k < |w.getAllLabels(e.key)| ==> c !in w.getAllLabels(e.key)[k]
    ensures Strings.Split(AddedValues(ExposeTransform(e, w).value)[0], c) == Distinct(e, w)
  {
    var values := Distinct(e, w);
    assert |values| >= 1 by {
      assert w.getAllLabels(e.key)[0] in values;
    }
    forall k | 0 <= k < |values| ensures c !in values[k] {
      assert values[k] in w.getAllLabels(e.key);
    }
    Strings.SplitJoin(values, c);
  }

  // ---------------------------------------------------------------------
  // Scrubbing the description

  function ScrubbedMsg(before: string, after: string): string {
    "Scrubbed change description '" + before + "' by '" + after + "'"
  }

  function NoMatchMsg(pattern: string, message: string): string {
    "Scrubber regex: '" + pattern + "' didn't match for description: '" + message + "'"
  }

  function MissingGroupMsg(pattern: string): string {
    "Could not find matching group. " + "Are you missing a group in your regex '" + pattern + "'?"
  }

  /** The two scrubber errors never read the same. */
  lemma MessagesDiffer(pattern: string, message: string)
    ensures NoMatchMsg(pattern, message) != MissingGroupMsg(pattern)
  {
    var a := "Scrubber regex: '";
    var b := "Could not find matching group. ";
    assert NoMatchMsg(pattern, message)[0] == a[0];
    assert MissingGroupMsg(pattern)[0] == b[0];
    assert a[0] == 'S' && b[0] == 'C';
  }

  /** The message after the effects: the last one set, or the original. */
  function MessageAfter(message: string, effects: seq<Effect>): string {
    if |effects| == 0 then message
    else if effects[|effects| - 1].SetMessage? then effects[|effects| - 1].message
    else MessageAfter(message, effects[..|effects| - 1])
  }

  /** `Scrubber.transform`. */
  function ScrubTransform(s: Scrub, w: Work, env: Env): (r: Result<seq<Effect>>)
    // A replacement that names a missing group is a validation error.
    ensures var scrubbed := env.replaceAll(s.pattern, s.replacement, w.message);
      scrubbed.None? <==> r == Failure(Validation(MissingGroupMsg(s.pattern)))
    // A change to the message is kept.
    ensures var scrubbed := env.replaceAll(s.pattern, s.replacement, w.message);
      (scrubbed.Some? && scrubbed.value != w.message) ==>
        r.Success? && MessageAfter(w.message, r.value) == scrubbed.value
    // No change: fail if asked to, else the default message, else nothing.
    ensures var scrubbed := env.replaceAll(s.pattern, s.replacement, w.message);
      scrubbed == Some(w.message) ==>
        && (r.Failure? <==> s.failIfNoMatch)
        && (r.Failure? ==> r.error == Validation(NoMatchMsg(s.pattern, w.message)))
        && (r.Success? ==> MessageAfter(w.message, r.value) == s.defaultPublicMsg.GetOr(w.message))
        && (r.Success? && s.defaultPublicMsg.None? ==> r.value == [])
    // Only the message changes.
    ensures r.Success? ==> forall k :: 0 <= k < |r.value| ==> r.value[k].SetMessage? || r.value[k].Verbose?
  {
    var scrubbed := env.replaceAll(s.pattern, s.replacement, w.message);
    if scrubbed.None? then Failure(Validation(MissingGroupMsg(s.pattern)))
    else if scrubbed.value != w.message then
      Success([Verbose(ScrubbedMsg(w.message, scrubbed.value)), SetMessage(scrubbed.value)])
    else if s.failIfNoMatch then
      MessagesDiffer(s.pattern, w.message);
      Failure(Validation(NoMatchMsg(s.pattern, w.message)))
    else if s.defaultPublicMsg.Some? then Success([SetMessage(s.defaultPublicMsg.value)])
    else Success([])
  }

  /** Scrubbing a scrubbed message again finds nothing to scrub when the
      replacement is idempotent: with `failIfNoMatch` the second run fails,
      and otherwise it leaves the scrubbed message, or puts the default. */
  lemma ScrubTwice(s: Scrub, w: Work, env: Env)
    requires ScrubTransform(s, w, env).Success?
    requires
      var first := MessageAfter(w.message, ScrubTransform(s, w, env).value);
      env.replaceAll(s.pattern, s.replacement, first) == Some(first)
    ensures
      var first := MessageAfter(w.message, ScrubTransform(s, w, env).value);
      var second := ScrubTransform(s, w.(message := first), env);
      (second.Failure? <==> s.failIfNoMatch)
      && (second.Success? ==> MessageAfter(first, second.value) == s.defaultPublicMsg.GetOr(first))
  {
  }

  // ---------------------------------------------------------------------
  // Saving and restoring the original author

  function CannotRestoreMsg(detail: string): string {
    "Cannot restore original author: " + detail
  }

  /** The changes `RestoreOriginalAuthor` looks at: all of them, or only
      the first. */
  function Inspected(t: Restore, changes: seq<Labels>): (r: seq<Labels>)
    ensures t.searchAllChanges ==> r == changes
    ensures !t.searchAllChanges ==> |r| <= 1 && |r| <= |changes| && r == changes[..|r|] && (|changes| > 0 ==> |r| == 1)
  {
    if t.searchAllChanges || |changes| == 0 then changes else changes[..1]
  }

  /** The parse of the change's last value for the key, if it has one. */
  function ParseLast(c: Labels, key: string, parse: string -> Parsed): Option<Parsed> {
    var vs := Values(c, key);
    if |vs| == 0 then None else Some(parse(vs[|vs| - 1]))
  }

  predicate Parses(c: Labels, key: string, parse: string -> Parsed) {
    ParseLast(c, key, parse).Some? && ParseLast(c, key, parse).value.Parsed?
  }

  /** The index of the last change whose label parses, or -1. */
  function LastParsedIndex(changes: seq<Labels>, key: string, parse: string -> Parsed): (k: int)
    ensures -1 <= k < |changes|
    ensures k >= 0 ==> Parses(changes[k], key, parse)
    ensures forall j :: k < j < |changes| ==> !Parses(changes[j], key, parse)
  {
    if |changes| == 0 then -1
    else if Parses(changes[|changes| - 1], key, parse) then |changes| - 1
    else LastParsedIndex(changes[..|changes| - 1], key, parse)
  }

  /** The author restored from some changes: the last one parsed wins. */
  function LastAuthor(changes: seq<Labels>, key: string, parse: string -> Parsed): Option<Author> {
    var k := LastParsedIndex(changes, key, parse);
    if k < 0 then None else Some(ParseLast(changes[k], key, parse).value.author)
  }

  /** No author is restored exactly when no label parses; otherwise the
      author is the one of a change whose label parses and after which no
      label parses. */
  lemma LastAuthorIsLastParsed(changes: seq<Labels>, key: string, parse: string -> Parsed)
    ensures var a := LastAuthor(changes, key, parse);
      a.None? <==> forall j :: 0 <= j < |changes| ==> !Parses(changes[j], key, parse)
    ensures var a := LastAuthor(changes, key, parse);
      a.Some? ==> exists k :: (0 <= k < |changes| && ParseLast(changes[k], key, parse) == Some(Parsed(a.value))
        && forall j :: k < j < |changes| ==> !Parses(changes[j], key, parse))
  {
  }

  /** One warning per inspected change whose last label value does not
      parse, in order. */
  function Warnings(changes: seq<Labels>, key: string, parse: string -> Parsed): seq<Effect> {
    if |changes| == 0 then []
    else
      var p := ParseLast(changes[|changes| - 1], key, parse);
      Warnings(changes[..|changes| - 1], key, parse)
        + (if p.Some? && p.value.Unparsable? then [Warn(CannotRestoreMsg(p.value.message))] else [])
  }

  /** What restoring asks for: the warnings, then, if an author was found,
      that author and the removal of the label. */
  function Restored(t: Restore, changes: seq<Labels>, parse: string -> Parsed): seq<Effect> {
    var insp := Inspected(t, changes);
    var author := LastAuthor(insp, t.key, parse);
    Warnings(insp, t.key, parse)
      + (if author.Some? then [SetAuthor(author.value), RemoveLabel(t.key, true)] else [])
  }

  /** A change whose label does not parse never clears the author found
      before it. */
  lemma UnparsableKeepsAuthor(changes: seq<Labels>, c: Labels, key: string, parse: string -> Parsed)
    requires !Parses(c, key, parse)
    ensures LastAuthor(changes + [c], key, parse) == LastAuthor(changes, key, parse)
  {
    assert (changes + [c])[..|changes|] == changes;
  }

  /** One more change: its author, if its label parses, replaces the one
      found so far; if its label does not parse, it adds a warning. */
  lemma RestoreStep(changes: seq<Labels>, i: nat, key: string, parse: string -> Parsed)
    requires i < |changes|
    ensures (LastAuthor(changes[..i + 1], key, parse), Warnings(changes[..i + 1], key, parse))
      == RestoreOne(LastAuthor(changes[..i], key, parse), Warnings(changes[..i], key, parse), ParseLast(changes[i], key, parse))
  {
    assert changes[..i + 1][..i] == changes[..i];
    var w := Warnings(changes[..i], key, parse);
    assert w + [] == w;
  }

  predicate OnlyWarnings(effects: seq<Effect>) {
    forall k :: 0 <= k < |effects| ==> effects[k].Warn?
  }

  /** What one change's parsed label does to the author found so far and
      to the warnings. */
  function RestoreOne(author: Option<Author>, warnings: seq<Effect>, parsed: Option<Parsed>)
    : (r: (Option<Author>, seq<Effect>))
    ensures OnlyWarnings(warnings) ==> OnlyWarnings(r.1)
  {
    match parsed
    case None => (author, warnings)
    case Some(Parsed(a)) => (Some(a), warnings)
    case Some(Unparsable(m)) => (author, warnings + [Warn(CannotRestoreMsg(m))])
  }

  /** `RestoreOriginalAuthor.transform`: walks the current changes, oldest
      first, keeping the last author that parses; a bad label only warns. */
  method RestoreTransform(t: Restore, w: Work, env: Env) returns (r: Result<seq<Effect>>)
    ensures r.Success?
    ensures r.value == Restored(t, w.current, env.parse)
    ensures LastAuthor(Inspected(t, w.current), t.key, env.parse).None? ==>
      OnlyWarnings(r.value)
  {
    // Every change, or only the first when the search stops there.
    var changes := Inspected(t, w.current);
    var author: Option<Author> := None;
    var warnings: seq<Effect> := [];
    var i := 0;
    while i < |changes|
      invariant 0 <= i <= |changes|
      invariant (author, warnings) == (LastAuthor(changes[..i], t.key, env.parse), Warnings(changes[..i], t.key, env.parse))
      invariant OnlyWarnings(warnings)
    {
      // The last value of the label, parsed, if the change has the label.
      var parsed := ParseLast(changes[i], t.key, env.parse);
      var next := RestoreOne(author, warnings, parsed);
      author, warnings := next.0, next.1;
      RestoreStep(changes, i, t.key, env.parse);
      i := i + 1;
    }
    assert changes[..i] == changes;
    var effects := warnings;
    if author.Some? {
      effects := effects + [SetAuthor(author.value), RemoveLabel(t.key, true)];
    }
    return Success(effects);
  }

  /** `SaveOriginalAuthor.transform`: always succeeds, adding or replacing
      the label with the current author's text form. */
  function SaveTransform(s: Save, w: Work, env: Env): (r: Result<seq<Effect>>)
    ensures r.Success? && |r.value| == 1
    ensures r.value[0].AddOrReplaceLabel? && r.value[0].name == s.key && r.value[0].separator == s.separator
    ensures r.value[0].value == env.show(w.author)
    ensures env.parse(r.value[0].value) == env.parse(env.show(w.author))
  {
    Success([AddOrReplaceLabel(s.key, env.show(w.author), s.separator)])
  }

  // ---------------------------------------------------------------------
  // Running and reversing

  /** What a transformation asks of the work. */
  function Run(t: Transformation, w: Work, env: Env): Result<seq<Effect>> {
    match t
    case ExposeLabel(e) => ExposeTransform(e, w)
    case Scrubber(s) => ScrubTransform(s, w, env)
    case RestoreAuthor(x) => Success(Restored(x, w.current, env.parse))
    case SaveAuthor(x) => SaveTransform(x, w, env)
    case IntentionalNoop => Success([])
    case ExplicitReversal(forward, _) => Run(forward, w, env)
  }

  /** `reverse()`: exposing and scrubbing reverse to a no-op that reverses
      back to them; saving and restoring the author reverse to each other,
      the restore looking at the first change only. */
  function Reverse(t: Transformation): (r: Transformation)
    ensures (t.ExposeLabel? || t.Scrubber?) ==> r.ExplicitReversal? && r.forward == IntentionalNoop
    ensures t.SaveAuthor? ==> r == RestoreAuthor(Restore(t.save.key, t.save.separator, false))
    ensures t.RestoreAuthor? ==> r == SaveAuthor(Save(t.restore.key, t.restore.separator))
  {
    match t
    case ExposeLabel(_) => ExplicitReversal(IntentionalNoop, t)
    case Scrubber(_) => ExplicitReversal(IntentionalNoop, t)
    case RestoreAuthor(x) => SaveAuthor(Save(x.key, x.separator))
    case SaveAuthor(x) => RestoreAuthor(Restore(x.key, x.separator, false))
    case IntentionalNoop => IntentionalNoop
    case ExplicitReversal(_, reversal) => reversal
  }

  /** The reversal of exposing or scrubbing changes nothing, and reverses
      back to the original. */
  lemma NoopReversal(t: Transformation, w: Work, env: Env)
    requires t.ExposeLabel? || t.Scrubber?
    ensures Run(Reverse(t), w, env) == Success([])
    ensures Reverse(Reverse(t)) == t
  {
  }

  /** Saving reverses twice to itself; restoring does too, except that the
      round trip looks at the first change only. */
  lemma AuthorReversals(s: Save, x: Restore)
    ensures Reverse(Reverse(SaveAuthor(s))) == SaveAuthor(s)
    ensures Reverse(Reverse(RestoreAuthor(x))) == RestoreAuthor(x.(searchAllChanges := false))
  {
  }

  /** Restoring undoes saving: when the first change carries, as its last
      value for the key, the text saving wrote, and that text parses back
      to the author, the reversal sets that author and drops the label. */
  lemma {:induction false} SaveThenRestore(s: Save, w: Work, env: Env, w': Work)
    requires env.parse(env.show(w.author)) == Parsed(w.author)
    requires |w'.current| > 0
    requires var vs := Values(w'.current[0], s.key);
      |vs| > 0 && vs[|vs| - 1] == SaveTransform(s, w, env).value[0].value
    ensures Run(Reverse(SaveAuthor(s)), w', env) == Success([SetAuthor(w.author), RemoveLabel(s.key, true)])
  {
    var x := Restore(s.key, s.separator, false);
    var c := w'.current[0];
    var insp := Inspected(x, w'.current);
    assert insp == [c];
    assert ParseLast(c, s.key, env.parse) == Some(Parsed(w.author));
    assert LastParsedIndex(insp, s.key, env.parse) == 0;
    assert LastAuthor(insp, s.key, env.parse) == Some(w.author);
    assert insp[..0] == [];
    assert Warnings(insp, s.key, env.parse) == [];
    assert Reverse(SaveAuthor(s)) == RestoreAuthor(x);
    assert Restored(x, w'.current, env.parse) == [] + [SetAuthor(w.author), RemoveLabel(s.key, true)];
    assert Run(RestoreAuthor(x), w', env) == Success(Restored(x, w'.current, env.parse));
    assert [] + [SetAuthor(w.author), RemoveLabel(s.key, true)] == [SetAuthor(w.author), RemoveLabel(s.key, true)];
    assert Run(Reverse(SaveAuthor(s)), w', env) == Run(RestoreAuthor(x), w', env);
  }
}

=== FILE: patch_transformation.dfy ===
/** `PatchTransformation`: applies a list of patch files to the checkout, one
    after the other, and reverses by applying the same patches backwards in
    reverse order.

    Applying one patch (`PatchingOptions.patch`) is a parameter: given the
    checkout and the call, it answers with the patched checkout or with the
    failure it raised. */
module Patch {
  import opened Wrappers
  import Strings
  import Seqs
  import opened Files

  /** The content of a patch file, or the message of the I/O error that
      reading it raises. */
  datatype Content = Readable(bytes: Bytes) | Unreadable(message: string)

  /** A `ConfigFile`: its path, its identifier and its content. */
  datatype ConfigFile = ConfigFile(path: string, identifier: string, content: Content)

  datatype PatchTransformation = PatchTransformation(
    patches: seq<ConfigFile>,
    excludedPaths: seq<string>,
    reverse: bool,
    strip: int,
    directory: string)

  /** The arguments of one `PatchingOptions.patch` call. */
  datatype PatchCall = PatchCall(
    directory: string,
    patch: Bytes,
    excludedPaths: seq<string>,
    strip: int,
    reverse: bool,
    gitDir: Option<Path>)

  /** What applying one patch does: the patched checkout, an I/O error, a
      validation error, or the checkout found inside a git directory. */
  datatype PatchOutcome =
    | Applied(checkout: Tree)
    | IoFailure(message: string)
    | Invalid(message: string)
    | InsideGit(path: Path, gitDir: Path)

  type Patcher = (Tree, PatchCall) -> PatchOutcome

  datatype Message = Info(text: string) | Error(text: string)

  /** The messages sent to the console and the patched checkout. */
  datatype Run = Run(log: seq<Message>, result: Result<Tree>)

  function ApplyingMsg(i: nat, n: nat, path: string): string {
    "Applying patch " + Strings.NatToString(i + 1) + "/" + Strings.NatToString(n) + ": '" + path + "'."
  }

  function ErrorMsg(f: ConfigFile, ioMessage: string): string {
    "Error applying patch " + f.identifier + ": " + ioMessage
  }

  /** The progress messages for patches `lo` up to, not including, `hi`. */
  function Infos(t: PatchTransformation, lo: nat, hi: nat): (r: seq<Message>)
    requires lo <= hi <= |t.patches|
    ensures |r| == hi - lo
    ensures forall k :: 0 <= k < |r| ==> r[k] == Info(ApplyingMsg(lo + k, |t.patches|, t.patches[lo + k].path))
    decreases hi - lo
  {
    if lo == hi then []
    else [Info(ApplyingMsg(lo, |t.patches|, t.patches[lo].path))] + Infos(t, lo + 1, hi)
  }

  /** The outcome of the `i`-th patch on `checkout`: reading the file, then
      the patch call. */
  function Step(t: PatchTransformation, patcher: Patcher, checkout: Tree, i: nat, gitDir: Option<Path>): PatchOutcome
    requires i < |t.patches|
  {
    match t.patches[i].content
    case Unreadable(m) => IoFailure(m)
    case Readable(b) => patcher(checkout, PatchCall(t.directory, b, t.excludedPaths, t.strip, t.reverse, gitDir))
  }

  /** How a run ends at a patch that did not apply, with `log` already on
      the console: an unreadable file is also reported there. */
  function Failed(log: seq<Message>, f: ConfigFile, outcome: PatchOutcome): Run
    requires !outcome.Applied?
  {
    match outcome
    case IoFailure(m) => Run(log + [Error(ErrorMsg(f, m))], Failure(Validation(ErrorMsg(f, m))))
    case Invalid(m) => Run(log, Failure(Validation(m)))
    case InsideGit(path, gitDirPath) => Run(log, Failure(InsideGitDir(path, gitDirPath, "")))
  }

  /** The patches from the `i`-th on, applied in order: each announced, and
      the first failure ending the run. */
  function RunFrom(t: PatchTransformation, patcher: Patcher, checkout: Tree, i: nat, gitDir: Option<Path>): Run
    requires i <= |t.patches|
    decreases |t.patches| - i
  {
    if i == |t.patches| then Run([], Success(checkout))
    else
      var info := Info(ApplyingMsg(i, |t.patches|, t.patches[i].path));
      var outcome := Step(t, patcher, checkout, i, gitDir);
      if outcome.Applied? then
        var rest := RunFrom(t, patcher, outcome.checkout, i + 1, gitDir);
        Run([info] + rest.log, rest.result)
      else Failed([info], t.patches[i], outcome)
  }

  /** A run with `log` already on the console. */
  function After(log: seq<Message>, r: Run): Run {
    Run(log + r.log, r.result)
  }

  /** One patch of a run: announced, then applied or failed. */
  lemma RunStep(t: PatchTransformation, patcher: Patcher, checkout: Tree, i: nat, gitDir: Option<Path>, log: seq<Message>)
    requires i < |t.patches|
    ensures var info := Info(ApplyingMsg(i, |t.patches|, t.patches[i].path));
      var r := After(log, RunFrom(t, patcher, checkout, i, gitDir));
      var outcome := Step(t, patcher, checkout, i, gitDir);
      && (outcome.Applied? ==> r == After(log + [info], RunFrom(t, patcher, outcome.checkout, i + 1, gitDir)))
      && (!outcome.Applied? ==> r == Failed(log + [info], t.patches[i], outcome))
  {
    var info := Info(ApplyingMsg(i, |t.patches|, t.patches[i].path));
    var outcome := Step(t, patcher, checkout, i, gitDir);
    if outcome.Applied? {
      assert log + ([info] + RunFrom(t, patcher, outcome.checkout, i + 1, gitDir).log)
        == (log + [info]) + RunFrom(t, patcher, outcome.checkout, i + 1, gitDir).log;
    } else if outcome.IoFailure? {
      assert log + [info] + [Error(ErrorMsg(t.patches[i], outcome.message))]
        == log + ([info] + [Error(ErrorMsg(t.patches[i], outcome.message))]);
    }
  }

  /** `patch(console, checkoutDir, gitDir)`: the loop over the patches. */
  method PatchAll(t: PatchTransformation, patcher: Patcher, checkout: Tree, gitDir: Option<Path>) returns (r: Run)
    ensures r == RunFrom(t, patcher, checkout, 0, gitDir)
  {
    var log: seq<Message> := [];
    var current := checkout;
    var i := 0;
    while i < |t.patches|
      invariant i <= |t.patches|
      invariant RunFrom(t, patcher, checkout, 0, gitDir) == After(log, RunFrom(t, patcher, current, i, gitDir))
      decreases |t.patches| - i
    {
      var f := t.patches[i];
      RunStep(t, patcher, current, i, gitDir, log);
      log := log + [Info(ApplyingMsg(i, |t.patches|, f.path))];
      var outcome := Step(t, patcher, current, i, gitDir);
      if !outcome.Applied? {
        return Failed(log, f, outcome);
      }
      current := outcome.checkout;
      i := i + 1;
    }
    assert log + [] == log;
    return Run(log, Success(current));
  }

  /** The run announces the patches strictly in list order, numbered from 1
      out of the list's size; `k` of them were attempted. A run succeeds
      only after all of them; an unreadable or unappliable file is reported
      on the console and as a ValidationException with the same text, and
      nothing follows. */
  lemma {:induction false} RunShape(t: PatchTransformation, patcher: Patcher, checkout: Tree, i: nat, gitDir: Option<Path>)
    returns (k: nat)
    requires i <= |t.patches|
    ensures i <= k <= |t.patches|
    ensures Shaped(t, RunFrom(t, patcher, checkout, i, gitDir), i, k)
    decreases |t.patches| - i
  {
    if i == |t.patches| {
      return i;
    }
    match Step(t, patcher, checkout, i, gitDir)
    case Applied(next) =>
      k := RunShape(t, patcher, next, i + 1, gitDir);
      AppliedShape(t, patcher, checkout, i, gitDir, k);
    case _ =>
      k := i + 1;
      FailedShape(t, patcher, checkout, i, gitDir);
  }

  /** The run from patch `i` announced patches `i` up to `k`, in order, and
      ended either with all of them applied or with the failure of the last
      one announced, reported on the console when its file was unreadable. */
  ghost predicate Shaped(t: PatchTransformation, r: Run, i: nat, k: nat)
    requires i <= k <= |t.patches|
  {
    && |r.log| >= k - i
    && r.log[..k - i] == Infos(t, i, k)
    && (r.result.Success? ==> k == |t.patches| && |r.log| == k - i)
    && (r.result.Failure? ==> k > i)
    && (|r.log| > k - i ==> |r.log| == k - i + 1 && r.log[k - i].Error? && r.result == Failure(Validation(r.log[k - i].text)))
  }

  /** A patch that applied puts its announcement before the rest of the run. */
  lemma AppliedShape(t: PatchTransformation, patcher: Patcher, checkout: Tree, i: nat, gitDir: Option<Path>, k: nat)
    requires i < k <= |t.patches| && Step(t, patcher, checkout, i, gitDir).Applied?
    requires Shaped(t, RunFrom(t, patcher, Step(t, patcher, checkout, i, gitDir).checkout, i + 1, gitDir), i + 1, k)
    ensures Shaped(t, RunFrom(t, patcher, checkout, i, gitDir), i, k)
  {
    var r := RunFrom(t, patcher, checkout, i, gitDir);
    var info := Info(ApplyingMsg(i, |t.patches|, t.patches[i].path));
    var rest := RunFrom(t, patcher, Step(t, patcher, checkout, i, gitDir).checkout, i + 1, gitDir);
    assert r.log == [info] + rest.log;
    assert r.log[..k - i] == [info] + rest.log[..k - i - 1];
    assert Infos(t, i, k) == [info] + Infos(t, i + 1, k);
  }

  /** A patch that did not apply ends the run right after its announcement. */
  lemma FailedShape(t: PatchTransformation, patcher: Patcher, checkout: Tree, i: nat, gitDir: Option<Path>)
    requires i < |t.patches| && !Step(t, patcher, checkout, i, gitDir).Applied?
    ensures Shaped(t, RunFrom(t, patcher, checkout, i, gitDir), i, i + 1)
  {
    var info := Info(ApplyingMsg(i, |t.patches|, t.patches[i].path));
    assert Infos(t, i, i + 1) == [info];
  }

  function InsideGitDirMsg(path: Path, gitDir: Path, outputRootFlag: string): string {
    "Cannot use patch.apply because " + "Copybara temporary directory (" + path + ") is inside a "
      + "git directory (" + gitDir + "). Please remove the " + "git repository or use "
      + outputRootFlag + " flag."
  }

  /** `transform(work)`: the patches applied with no git directory; a
      checkout inside a git directory becomes a ValidationException naming
      both directories and the output-root flag (given here by its name). */
  function Transform(t: PatchTransformation, patcher: Patcher, checkout: Tree, outputRootFlag: string): (r: Result<Tree>)
    ensures var run := RunFrom(t, patcher, checkout, 0, None);
      && (run.result.Success? ==> r == run.result)
      && (run.result.Failure? && run.result.error.InsideGitDir? ==>
            r == Failure(Validation(InsideGitDirMsg(run.result.error.path, run.result.error.gitDir, outputRootFlag))))
      && (run.result.Failure? && !run.result.error.InsideGitDir? ==> r == run.result)
    ensures r.Failure? ==> !r.error.InsideGitDir?
  {
    var run := RunFrom(t, patcher, checkout, 0, None);
    match run.result
    case Failure(InsideGitDir(path, gitDir, _)) => Failure(Validation(InsideGitDirMsg(path, gitDir, outputRootFlag)))
    case _ => InsideGitNeverOtherwise(t, patcher, checkout, 0, None); run.result
  }

  /** A run only fails with validation or inside-git-dir errors. */
  lemma {:induction false} InsideGitNeverOtherwise(t: PatchTransformation, patcher: Patcher, checkout: Tree, i: nat, gitDir: Option<Path>)
    requires i <= |t.patches|
    ensures var r := RunFrom(t, patcher, checkout, i, gitDir).result;
      r.Failure? ==> r.error.Validation? || r.error.InsideGitDir?
    decreases |t.patches| - i
  {
    if i < |t.patches| {
      match Step(t, patcher, checkout, i, gitDir)
      case Applied(next) => InsideGitNeverOtherwise(t, patcher, next, i + 1, gitDir);
      case _ =>
    }
  }

  /** `reverse()`: the patches in reverse order, applied backwards; the
      excluded paths, strip and directory are kept. */
  function Reverse(t: PatchTransformation): (r: PatchTransformation)
    ensures |r.patches| == |t.patches|
    ensures forall i :: 0 <= i < |t.patches| ==> r.patches[i] == t.patches[|t.patches| - 1 - i]
    ensures r.reverse == !t.reverse
    ensures r.excludedPaths == t.excludedPaths && r.strip == t.strip && r.directory == t.directory
  {
    t.(patches := Seqs.Reverse(t.patches), reverse := !t.reverse)
  }

  /** Reversing twice gives back the transformation. */
  lemma ReverseTwice(t: PatchTransformation)
    ensures Reverse(Reverse(t)) == t
  {
    assert Reverse(Reverse(t)).patches == t.patches;
  }

  /** The first patch the reversed transformation applies is the last patch
      of the original, with the direction flipped. */
  lemma ReverseStartsWithLast(t: PatchTransformation, patcher: Patcher, checkout: Tree, gitDir: Option<Path>)
    requires |t.patches| > 0 && t.patches[|t.patches| - 1].content.Readable?
    ensures var f := t.patches[|t.patches| - 1];
      Step(Reverse(t), patcher, checkout, 0, gitDir)
        == patcher(checkout, PatchCall(t.directory, f.content.bytes, t.excludedPaths, t.strip, !t.reverse, gitDir))
  {
  }

  /** `describe()`. */
  function Describe(t: PatchTransformation): string {
    "Patch.apply: " + Strings.Join(Paths(t.patches), ", ")
  }

  function Paths(fs: seq<ConfigFile>): (r: seq<string>)
    ensures |r| == |fs|
    ensures forall i :: 0 <= i < |fs| ==> r[i] == fs[i].path
  {
    seq(|fs|, i requires 0 <= i < |fs| => fs[i].path)
  }

  /** The description names the patches' paths, in order, readable back
      when no path holds a comma. */
  lemma DescribeListsPaths(t: PatchTransformation)
    requires |t.patches| >= 1
    requires forall i :: 0 <= i < |t.patches| ==> ',' !in t.patches[i].path
    ensures var d := Describe(t);
      "Patch.apply: " <= d && Strings.SplitList(d[|"Patch.apply: "|..]) == Paths(t.patches)
  {
    var d := Describe(t);
    assert d[|"Patch.apply: "|..] == Strings.Join(Paths(t.patches), ", ");
    Strings.JoinCommaSpaceSplit(Paths(t.patches));
  }
}

=== FILE: regenerate.dfy ===
/** `Regenerate`: recomputes the patch files of a pending destination change
    after the change was edited by hand.

    The run is modelled as a pure function that returns the log of the calls
    it made to its collaborators and how it ended. The collaborators (the
    origin, the destination writer and its `PatchRegenerator`, the import run,
    `ConsistencyFile` and `AutoPatchUtil`) are given as functions in
    `Environment`. The three working directories `premerge`, `checkout` and
    `autopatches` start out empty. */
module Regeneration {
  import opened Wrappers
  import opened Files
  import opened Destination
  import opened AutoPatchConfig
  import Opts = RegenerateOptions

  /** An origin revision, by its `asString()`. */
  type Revision = string

  /** The parts of a `Workflow` regeneration reads. */
  datatype Workflow = Workflow(
    name: string,
    destinationFiles: Glob,
    consistencyFileMergeImport: bool,
    consistencyFilePath: Option<Path>,
    autopatchConfig: Option<AutoPatchfileConfiguration>,
    hashFunction: HashFunction)

  /** The collaborators, as the answers they give.
      `resolve(ref)`: `workflow.getOrigin().resolve(ref)`, `None` for null.
      `newWriter(rev)`: the destination writer for a context at `rev`.
      `newRunHelper(rev, ref)`: whether `workflow.newRunHelper` builds a run
      helper for that revision and ref, or fails (a ValidationException).
      `historySupported`, `lastRevision`, `importAndTransform`: the run helper's
      `WorkflowMode.isHistorySupported`, `WorkflowMode.maybeGetLastRev` and
      `importAndTransformRevision` (the content of the directory it returns).
      `generateConsistencyFile(previous, next, hash)`: `ConsistencyFile.generate(..).toBytes()`.
      `reversePatches(bytes, dir)`: `ConsistencyFile.fromBytes(bytes).reversePatches(dir)`.
      `autopatchGlob(prefix, directory)`: `AutoPatchUtil.getAutopatchGlob`.
      `generatePatchFiles(previous, next, config)`: the content of the target
      directory after `AutoPatchUtil.generatePatchFiles`. */
  datatype Environment = Environment(
    resolve: Option<string> -> Result<Revision>,
    newWriter: Revision -> Result<Writer>,
    newRunHelper: (Revision, Option<string>) -> Outcome,
    historySupported: bool,
    lastRevision: Result<Revision>,
    importAndTransform: Revision -> Result<Tree>,
    generateConsistencyFile: (Tree, Tree, HashFunction) -> Result<Bytes>,
    reversePatches: (Bytes, Tree) -> Result<Tree>,
    autopatchGlob: (string, Option<string>) -> Glob,
    generatePatchFiles: (Tree, Tree, AutoPatchfileConfiguration) -> Result<Tree>)

  /** The command-line inputs: the regenerate flags, `--same-version`, and the
      optional positional source ref. */
  datatype Invocation = Invocation(
    options: Opts.RegenerateOptions,
    importSameVersion: bool,
    sourceRef: Option<string>)

  /** The working directories: `premerge` (the previous state), `checkout`
      (the next state, later pushed) and `autopatches`. */
  datatype Directories = Directories(previous: Tree, next: Tree, autopatches: Tree)

  datatype Directory = Premerge | Checkout | Autopatches

  /** A call regeneration makes to a collaborator, in the order made. */
  datatype Event =
    | OriginResolved(ref: Option<string>)
    | RegenTargetInferred
    | RegenBaselineInferred
    | ConsistencyFileChecked(baseline: string)
    | Copied(revision: string, files: Glob, into: Directory)
    | PatchesReversed
    | ConsistencyFileMissingWarned
    | ImportBaselineInferred(target: string)
    | LastRevisionUsed
    | RevisionImported(revision: Revision)
    | ConsistencyFileGenerated(previous: Tree, next: Tree)
    | PatchFilesGenerated(previous: Tree, next: Tree)
    | ConsistencyFileWritten(path: Path)
    | ChangeUpdated(workflowName: string, tree: Tree, files: Glob, change: string)

  /** A phase of the run: the calls it made and its result. */
  datatype Step<T> = Step(log: seq<Event>, result: Result<T>)

  /** A whole run: the calls made and whether `regenerate()` returned or threw. */
  datatype Run = Run(log: seq<Event>, outcome: Outcome)

  /** The destination was never asked to infer a regen target. */
  predicate NoTargetInference(log: seq<Event>) {
    forall i :: 0 <= i < |log| ==> !log[i].RegenTargetInferred?
  }

  /** The destination was never asked to infer a regen baseline. */
  predicate NoBaselineInference(log: seq<Event>) {
    forall i :: 0 <= i < |log| ==> !log[i].RegenBaselineInferred?
  }

  /** The calls the preparation of the two directories to diff may make. */
  predicate PreparationEvent(e: Event) {
    || e.ConsistencyFileChecked? || e.Copied? || e.PatchesReversed? || e.ConsistencyFileMissingWarned?
    || e.ImportBaselineInferred? || e.OriginResolved? || e.LastRevisionUsed? || e.RevisionImported?
  }

  /** The calls only the import-baseline mode makes. */
  predicate ImportModeEvent(e: Event) {
    e.ImportBaselineInferred? || e.LastRevisionUsed? || e.RevisionImported?
  }

  /** The calls only the consistency-file mode makes: the existence check,
      the copies into `premerge` and `autopatches`, and the reversal. */
  predicate ConsistencyModeEvent(e: Event) {
    || e.ConsistencyFileChecked? || e.PatchesReversed? || e.ConsistencyFileMissingWarned?
    || (e.Copied? && e.into != Checkout)
  }

  /** The calls that produce the artefacts pushed with the change. */
  predicate ArtefactEvent(e: Event) {
    e.ConsistencyFileGenerated? || e.PatchFilesGenerated? || e.ConsistencyFileWritten?
  }

  const NoRegeneratorMsg := "this destination does not support regenerating patch files"
  const NoTargetMsg := "Regen target was neither supplied nor able to be inferred. Supply with --regen-target parameter"
  const NoConsistencyFileMsg := "Regenerating a consistency file merge import change but no consistency file found."
  const GenerateConsistencyFileMsg := "Error generating consistency file"

  function PatchFilesInsideGitMsg(path: string, gitDir: string, msg: string): string {
    "Could not automatically generate patch files because temporary directory " + path
      + " is inside git repository " + gitDir + ". Error received is " + msg
  }

  /** The writer of the workflow's destination, for a context at `resolve(null)`. */
  function OpenedWriter(env: Environment): Result<Writer> {
    var rev :- env.resolve(None);
    env.newWriter(rev)
  }

  /** The writer and its patch regenerator; a writer without one fails with
      a ValidationException before anything else is resolved. */
  function OpenWriter(env: Environment): (s: Step<(Writer, PatchRegenerator)>)
    ensures s.log == [OriginResolved(None)]
    ensures s.result.Success? <==> OpenedWriter(env).Success? && OpenedWriter(env).value.patchRegenerator.Some?
    ensures s.result.Success? ==>
      s.result.value.0 == OpenedWriter(env).value && Some(s.result.value.1) == OpenedWriter(env).value.patchRegenerator
    ensures OpenedWriter(env).Success? && OpenedWriter(env).value.patchRegenerator.None? ==>
      s.result == Failure(Validation(NoRegeneratorMsg))
    ensures OpenedWriter(env).Failure? ==> s.result == Failure(OpenedWriter(env).error)
  {
    var log := [OriginResolved(None)];
    match OpenedWriter(env)
    case Failure(e) => Step(log, Failure(e))
    case Success(writer) =>
      match writer.patchRegenerator
      case None => Step(log, Failure(Validation(NoRegeneratorMsg)))
      case Some(pr) => Step(log, Success((writer, pr)))
  }

  /** The regen target: the `--regen-target` flag when given, and only
      otherwise the regenerator's inference; neither gives a ValidationException. */
  function ResolveTarget(options: Opts.RegenerateOptions, pr: PatchRegenerator): (s: Step<string>)
    ensures options.regenTarget.Some? ==> s == Step([], Success(options.regenTarget.value))
    ensures options.regenTarget.None? ==> s.log == [RegenTargetInferred]
    ensures options.regenTarget.None? ==>
      (s.result.Success? <==> pr.inferRegenTarget.Success? && pr.inferRegenTarget.value.Some?)
    ensures options.regenTarget.None? && s.result.Success? ==> s.result.value == pr.inferRegenTarget.value.value
    ensures options.regenTarget.None? && pr.inferRegenTarget == Success(None) ==>
      s.result == Failure(Validation(NoTargetMsg))
  {
    match Opts.GetRegenTarget(options)
    case Some(t) => Step([], Success(t))
    case None =>
      var log := [RegenTargetInferred];
      match pr.inferRegenTarget
      case Failure(e) => Step(log, Failure(e))
      case Success(None) => Step(log, Failure(Validation(NoTargetMsg)))
      case Success(Some(t)) => Step(log, Success(t))
  }

  /** The regen baseline: sought only for consistency-file merge-import
      workflows, the `--regen-baseline` flag first and then the inference. An
      empty answer here means the import-baseline path. */
  function ResolveBaseline(w: Workflow, options: Opts.RegenerateOptions, pr: PatchRegenerator): (s: Step<Option<string>>)
    ensures !w.consistencyFileMergeImport ==> s == Step([], Success(None))
    ensures w.consistencyFileMergeImport && options.regenBaseline.Some? ==> s == Step([], Success(options.regenBaseline))
    ensures w.consistencyFileMergeImport && options.regenBaseline.None? ==>
      s == Step([RegenBaselineInferred], pr.inferRegenBaseline)
  {
    if !w.consistencyFileMergeImport then Step([], Success(None))
    else
      match Opts.GetRegenBaseline(options)
      case Some(b) => Step([], Success(Some(b)))
      case None => Step([RegenBaselineInferred], pr.inferRegenBaseline)
  }

  /** The destination files minus the autopatch files (when autopatching is
      configured) minus the consistency file (when it has a path). */
  function PatchlessFiles(w: Workflow, env: Environment): (g: Glob)
    ensures g.roots == w.destinationFiles.roots
    ensures forall p :: g.matches(p) <==>
      && w.destinationFiles.matches(p)
      && !(w.autopatchConfig.Some? && env.autopatchGlob(w.autopatchConfig.value.directoryPrefix, w.autopatchConfig.value.directory).matches(p))
      && w.consistencyFilePath != Some(p)
  {
    var withoutPatches :=
      match w.autopatchConfig
      case Some(c) => Difference(w.destinationFiles, env.autopatchGlob(c.directoryPrefix, c.directory))
      case None => w.destinationFiles;
    match w.consistencyFilePath
    case Some(path) => Difference(withoutPatches, Single(path))
    case None => withoutPatches
  }

  /** `consistencyFileExists` under `checkCondition`: the consistency file
      must be present at the regen baseline. The destination reader is asked
      for first, so its failure comes before anything about the path; a null
      path then cannot be resolved against the reader's folder. */
  function CheckConsistencyFile(w: Workflow, writer: Writer, baseline: string): (s: Step<()>)
    ensures s.log == [ConsistencyFileChecked(baseline)]
    ensures s.result.Success? <==>
      && w.consistencyFilePath.Some?
      && writer.readerAt(baseline).Success?
      && writer.readerAt(baseline).value.fileExists(w.consistencyFilePath.value) == Success(true)
    ensures writer.readerAt(baseline).Failure? ==>
      s.result == Failure(writer.readerAt(baseline).error)
    ensures writer.readerAt(baseline).Success? && w.consistencyFilePath.None? ==>
      s.result == Failure(NullPointer)
    ensures (w.consistencyFilePath.Some? && writer.readerAt(baseline).Success?
      && writer.readerAt(baseline).value.fileExists(w.consistencyFilePath.value) == Success(false)) ==>
      s.result == Failure(Validation(NoConsistencyFileMsg))
  {
    var log := [ConsistencyFileChecked(baseline)];
    match writer.readerAt(baseline)
    case Failure(e) => Step(log, Failure(e))
    case Success(reader) =>
      match w.consistencyFilePath
      case None => Step(log, Failure(NullPointer))
      case Some(path) =>
        match reader.fileExists(path)
        case Failure(e) => Step(log, Failure(e))
        case Success(present) =>
          match CheckCondition(present, NoConsistencyFileMsg)
          case Fail(e) => Step(log, Failure(e))
          case Pass => Step(log, Success(()))
  }

  /** The three copies of the consistency-file mode, in order: the baseline
      and the target with the patch-less file set, and the baseline's
      consistency file. */
  function ConsistencyCopies(w: Workflow, env: Environment, baseline: string, target: string): seq<Event>
    requires w.consistencyFilePath.Some?
  {
    var files := PatchlessFiles(w, env);
    [Copied(baseline, files, Premerge), Copied(target, files, Checkout),
     Copied(baseline, Single(w.consistencyFilePath.value), Autopatches)]
  }

  /** Every call of the consistency-file preparation succeeds: the readers
      at the baseline and the target, the three copies, and the reversal of
      the consistency file's patches when it was copied. */
  predicate ConsistencyPrepared(w: Workflow, env: Environment, writer: Writer, baseline: string, target: string)
    requires w.consistencyFilePath.Some?
  {
    var files := PatchlessFiles(w, env);
    var cfPath := w.consistencyFilePath.value;
    && writer.readerAt(baseline).Success?
    && writer.readerAt(target).Success?
    && writer.readerAt(baseline).value.copyTo(files, map[]).Success?
    && writer.readerAt(target).value.copyTo(files, map[]).Success?
    && writer.readerAt(baseline).value.copyTo(Single(cfPath), map[]).Success?
    && var patches := writer.readerAt(baseline).value.copyTo(Single(cfPath), map[]).value;
    && (cfPath in patches ==>
         env.reversePatches(patches[cfPath], writer.readerAt(baseline).value.copyTo(files, map[]).value).Success?)
  }

  /** `prepareDiffWithConsistencyFileBaseline`: the baseline and the target
      are copied with the same patch-less file set into `premerge` and
      `checkout`, the baseline's consistency file into `autopatches`, and the
      consistency file's patches are reversed on `premerge` only when it was
      actually copied (otherwise a warning). */
  function PrepareWithConsistencyFile(w: Workflow, env: Environment, writer: Writer, baseline: string, target: string): (s: Step<Directories>)
    requires w.consistencyFilePath.Some?
    ensures var copies := ConsistencyCopies(w, env, baseline, target);
      s.log <= copies || (|s.log| == 4 && s.log[..3] == copies)
    ensures |s.log| == 4 ==> s.log[3].PatchesReversed? || s.log[3].ConsistencyFileMissingWarned?
    ensures s.result.Success? ==> |s.log| == 4
    ensures s.result.Success? ==>
      (s.log[3].PatchesReversed? <==> w.consistencyFilePath.value in s.result.value.autopatches)
    ensures s.result.Success? <==> ConsistencyPrepared(w, env, writer, baseline, target)
    ensures s.result.Success? ==>
      var files := PatchlessFiles(w, env);
      var cfPath := w.consistencyFilePath.value;
      var copied := writer.readerAt(baseline).value.copyTo(files, map[]).value;
      var patches := writer.readerAt(baseline).value.copyTo(Single(cfPath), map[]).value;
      && s.result.value.next == writer.readerAt(target).value.copyTo(files, map[]).value
      && s.result.value.autopatches == patches
      && s.result.value.previous ==
        (if cfPath in patches then env.reversePatches(patches[cfPath], copied).value else copied)
  {
    var files := PatchlessFiles(w, env);
    var cfPath := w.consistencyFilePath.value;
    var cfGlob := Single(cfPath);
    match writer.readerAt(baseline)
    case Failure(e) => Step([], Failure(e))
    case Success(previousReader) =>
      var log1 := [Copied(baseline, files, Premerge)];
      match previousReader.copyTo(files, map[])
      case Failure(e) => Step(log1, Failure(e))
      case Success(previous) =>
        match writer.readerAt(target)
        case Failure(e) => Step(log1, Failure(e))
        case Success(nextReader) =>
          var log2 := log1 + [Copied(target, files, Checkout)];
          match nextReader.copyTo(files, map[])
          case Failure(e) => Step(log2, Failure(e))
          case Success(next) =>
            var log3 := log2 + [Copied(baseline, cfGlob, Autopatches)];
            match previousReader.copyTo(cfGlob, map[])
            case Failure(e) => Step(log3, Failure(e))
            case Success(patches) => ReverseIfCopied(env, cfPath, patches, previous, next, log3)
  }

  /** The consistency file's patches are reversed on the previous state when
      the file was copied into `autopatches`; otherwise a warning. */
  function ReverseIfCopied(env: Environment, cfPath: Path, patches: Tree, previous: Tree, next: Tree, log: seq<Event>)
    : (s: Step<Directories>)
    ensures |s.log| == |log| + 1 && s.log[..|log|] == log
    ensures s.log[|log|] == (if cfPath in patches then PatchesReversed else ConsistencyFileMissingWarned)
    ensures s.result.Success? ==> s.result.value.autopatches == patches
    ensures cfPath !in patches ==> s.result == Success(Directories(previous, next, patches))
    ensures cfPath in patches ==> (s.result.Success? <==> env.reversePatches(patches[cfPath], previous).Success?)
    ensures cfPath in patches && s.result.Success? ==>
      s.result.value == Directories(env.reversePatches(patches[cfPath], previous).value, next, patches)
    ensures cfPath in patches && s.result.Failure? ==>
      s.result.error == env.reversePatches(patches[cfPath], previous).error
  {
    if cfPath in patches then
      var log' := log + [PatchesReversed];
      match env.reversePatches(patches[cfPath], previous)
      case Failure(e) => Step(log', Failure(e))
      case Success(reversed) => Step(log', Success(Directories(reversed, next, patches)))
    else
      Step(log + [ConsistencyFileMissingWarned], Success(Directories(previous, next, patches)))
  }

  /** `createRunHelper` after a resolve: the revision stands only when the
      resolve succeeded and a run helper could be built for it. */
  function WithRunHelper(env: Environment, rev: Result<Revision>, ref: Option<string>): (r: Result<Revision>)
    ensures r.Success? <==> rev.Success? && env.newRunHelper(rev.value, ref).Pass?
    ensures r.Success? ==> r == rev
    ensures rev.Failure? ==> r == rev
    ensures rev.Success? && env.newRunHelper(rev.value, ref).Fail? ==> r == Failure(env.newRunHelper(rev.value, ref).error)
  {
    match rev
    case Failure(_) => rev
    case Success(v) =>
      match env.newRunHelper(v, ref)
      case Fail(e) => Failure(e)
      case Pass => rev
  }

  /** The origin revision the import baseline is built from: the source ref
      when given; else the inferred import baseline; else `resolve(null)`,
      replaced by the last migrated revision only when the workflow supports
      history and `--same-version` is set. Each resolve is followed by the
      creation of a run helper, whose failure ends the step before the last
      revision is asked for. */
  function ImportRevision(env: Environment, inv: Invocation, pr: PatchRegenerator, target: string): (s: Step<Revision>)
    ensures inv.sourceRef.Some? ==>
      s == Step([OriginResolved(inv.sourceRef)], WithRunHelper(env, env.resolve(inv.sourceRef), inv.sourceRef))
    ensures inv.sourceRef.None? ==> |s.log| >= 1 && s.log[0] == ImportBaselineInferred(target)
    ensures forall i :: 0 <= i < |s.log| ==> s.log[i].ImportBaselineInferred? || s.log[i].OriginResolved? || s.log[i].LastRevisionUsed?
    ensures inv.sourceRef.None? && pr.inferImportBaseline(target).Success? && pr.inferImportBaseline(target).value.Some? ==>
      var b := pr.inferImportBaseline(target).value;
      s == Step([ImportBaselineInferred(target), OriginResolved(b)], WithRunHelper(env, env.resolve(b), b))
    ensures inv.sourceRef.None? && pr.inferImportBaseline(target) == Success(None) && WithRunHelper(env, env.resolve(None), None).Success? ==>
      if env.historySupported && inv.importSameVersion
      then s == Step([ImportBaselineInferred(target), OriginResolved(None), LastRevisionUsed], env.lastRevision)
      else s == Step([ImportBaselineInferred(target), OriginResolved(None)], env.resolve(None))
    ensures inv.sourceRef.None? && pr.inferImportBaseline(target) == Success(None) && WithRunHelper(env, env.resolve(None), None).Failure? ==>
      s == Step([ImportBaselineInferred(target), OriginResolved(None)], WithRunHelper(env, env.resolve(None), None))
  {
    match inv.sourceRef
    case Some(ref) => Step([OriginResolved(Some(ref))], WithRunHelper(env, env.resolve(Some(ref)), Some(ref)))
    case None =>
      var log := [ImportBaselineInferred(target)];
      match pr.inferImportBaseline(target)
      case Failure(e) => Step(log, Failure(e))
      case Success(Some(b)) => Step(log + [OriginResolved(Some(b))], WithRunHelper(env, env.resolve(Some(b)), Some(b)))
      case Success(None) =>
        var log' := log + [OriginResolved(None)];
        match WithRunHelper(env, env.resolve(None), None)
        case Failure(e) => Step(log', Failure(e))
        case Success(latest) =>
          if env.historySupported && inv.importSameVersion then Step(log' + [LastRevisionUsed], env.lastRevision)
          else Step(log', Success(latest))
  }

  /** `prepareDiffWithImportBaseline`: the previous state is the output of
      importing the chosen origin revision; the target is copied into
      `checkout` with the patch-less file set. */
  function PrepareWithImportBaseline(w: Workflow, env: Environment, inv: Invocation, pr: PatchRegenerator, writer: Writer, target: string): (s: Step<Directories>)
    ensures ImportRevision(env, inv, pr, target).log <= s.log
    ensures forall i :: 0 <= i < |s.log| ==> PreparationEvent(s.log[i]) && !ConsistencyModeEvent(s.log[i])
    ensures ImportRevision(env, inv, pr, target).result.Failure? ==>
      s == Step(ImportRevision(env, inv, pr, target).log, Failure(ImportRevision(env, inv, pr, target).result.error))
    ensures s.result.Success? ==>
      && ImportRevision(env, inv, pr, target).result.Success?
      && var rev := ImportRevision(env, inv, pr, target).result.value;
      && s.log == ImportRevision(env, inv, pr, target).log + [RevisionImported(rev), Copied(target, PatchlessFiles(w, env), Checkout)]
      && env.importAndTransform(rev) == Success(s.result.value.previous)
      && s.result.value.autopatches == map[]
    ensures s.result.Success? ==>
      && writer.readerAt(target).Success?
      && writer.readerAt(target).value.copyTo(PatchlessFiles(w, env), map[]) == Success(s.result.value.next)
  {
    var revision := ImportRevision(env, inv, pr, target);
    match revision.result
    case Failure(e) => Step(revision.log, Failure(e))
    case Success(rev) => ImportThenCopy(w, env, writer, target, rev, revision.log)
  }

  /** The import of `rev` into `premerge` and the copy of the target into
      `checkout`, after the calls in `log`. */
  function ImportThenCopy(w: Workflow, env: Environment, writer: Writer, target: string, rev: Revision, log: seq<Event>)
    : (s: Step<Directories>)
    ensures log <= s.log
    ensures forall i :: |log| <= i < |s.log| ==> s.log[i].RevisionImported? || (s.log[i].Copied? && s.log[i].into == Checkout)
    ensures s.result.Success? ==>
      && s.log == log + [RevisionImported(rev), Copied(target, PatchlessFiles(w, env), Checkout)]
      && env.importAndTransform(rev) == Success(s.result.value.previous)
      && s.result.value.autopatches == map[]
    ensures s.result.Success? ==>
      && writer.readerAt(target).Success?
      && writer.readerAt(target).value.copyTo(PatchlessFiles(w, env), map[]) == Success(s.result.value.next)
    ensures s.result.Success? <==>
      && writer.readerAtBaseline(None).Success?
      && env.importAndTransform(rev).Success?
      && writer.readerAt(target).Success?
      && writer.readerAt(target).value.copyTo(PatchlessFiles(w, env), map[]).Success?
  {
    var files := PatchlessFiles(w, env);
    match writer.readerAtBaseline(None)
    case Failure(e) => Step(log, Failure(e))
    case Success(_) =>
      var log1 := log + [RevisionImported(rev)];
      match env.importAndTransform(rev)
      case Failure(e) => Step(log1, Failure(e))
      case Success(previous) =>
        match writer.readerAt(target)
        case Failure(e) => Step(log1, Failure(e))
        case Success(nextReader) =>
          var log2 := log1 + [Copied(target, files, Checkout)];
          match nextReader.copyTo(files, map[])
          case Failure(e) => Step(log2, Failure(e))
          case Success(next) => Step(log2, Success(Directories(previous, next, map[])))
  }

  /** An inside-git-dir failure of consistency-file generation becomes a
      ValidationException; any other failure passes through. */
  function GenerationFailure(e: Error): (r: Error)
    ensures e.InsideGitDir? ==> r == Validation(GenerateConsistencyFileMsg)
    ensures !e.InsideGitDir? ==> r == e
  {
    if e.InsideGitDir? then Validation(GenerateConsistencyFileMsg) else e
  }

  /** An inside-git-dir failure of patch-file generation becomes a
      ValidationException naming the directory and the repository. */
  function PatchFilesFailure(e: Error): (r: Error)
    ensures e.InsideGitDir? ==> r == Validation(PatchFilesInsideGitMsg(e.path, e.gitDir, e.msg))
    ensures !e.InsideGitDir? ==> r == e
  {
    if e.InsideGitDir? then Validation(PatchFilesInsideGitMsg(e.path, e.gitDir, e.msg)) else e
  }

  /** The consistency file: generated exactly for consistency-file
      merge-import workflows, from the prepared directories. */
  function GenerateConsistencyFile(w: Workflow, env: Environment, dirs: Directories): (s: Step<Option<Bytes>>)
    ensures !w.consistencyFileMergeImport ==> s == Step([], Success(None))
    ensures w.consistencyFileMergeImport ==> s.log == [ConsistencyFileGenerated(dirs.previous, dirs.next)]
    ensures w.consistencyFileMergeImport ==>
      (s.result.Success? <==> env.generateConsistencyFile(dirs.previous, dirs.next, w.hashFunction).Success?)
    ensures w.consistencyFileMergeImport && s.result.Success? ==>
      s.result.value == Some(env.generateConsistencyFile(dirs.previous, dirs.next, w.hashFunction).value)
    ensures s.result.Failure? ==>
      s.result.error == GenerationFailure(env.generateConsistencyFile(dirs.previous, dirs.next, w.hashFunction).error)
  {
    if !w.consistencyFileMergeImport then Step([], Success(None))
    else
      var log := [ConsistencyFileGenerated(dirs.previous, dirs.next)];
      match env.generateConsistencyFile(dirs.previous, dirs.next, w.hashFunction)
      case Failure(e) => Step(log, Failure(GenerationFailure(e)))
      case Success(bytes) => Step(log, Success(Some(bytes)))
  }

  /** New autopatch files are written into the target directory when
      autopatching is configured. */
  function GeneratePatchFiles(w: Workflow, env: Environment, dirs: Directories): (s: Step<Tree>)
    ensures w.autopatchConfig.None? ==> s == Step([], Success(dirs.next))
    ensures w.autopatchConfig.Some? ==> s.log == [PatchFilesGenerated(dirs.previous, dirs.next)]
    ensures w.autopatchConfig.Some? ==>
      match env.generatePatchFiles(dirs.previous, dirs.next, w.autopatchConfig.value)
      case Success(t) => s.result == Success(t)
      case Failure(e) => s.result == Failure(PatchFilesFailure(e))
  {
    match w.autopatchConfig
    case None => Step([], Success(dirs.next))
    case Some(config) =>
      var log := [PatchFilesGenerated(dirs.previous, dirs.next)];
      match env.generatePatchFiles(dirs.previous, dirs.next, config)
      case Failure(e) => Step(log, Failure(PatchFilesFailure(e)))
      case Success(t) => Step(log, Success(t))
  }

  /** No `updateChange` call in the log. */
  predicate NoCommit(log: seq<Event>) {
    forall i :: 0 <= i < |log| ==> !log[i].ChangeUpdated?
  }

  /** Either the run threw before calling `updateChange`, or `updateChange`
      was called exactly once, as the last call, for the workflow `name` and
      the glob `files`, and the run ended as that call did. */
  ghost predicate CommitsOnceLast(run: Run, pr: PatchRegenerator, name: string, files: Glob) {
    if NoCommit(run.log) then run.outcome.Fail?
    else
      && |run.log| > 0
      && NoCommit(run.log[..|run.log| - 1])
      && var e := run.log[|run.log| - 1];
      && e.ChangeUpdated? && e.workflowName == name && e.files == files
      && run.outcome == pr.updateChange(name, e.tree, files, e.change)
  }

  /** The change the last call updated, when the last call is `updateChange`. */
  function UpdatedChange(log: seq<Event>): Option<string> {
    if |log| > 0 && log[|log| - 1].ChangeUpdated? then Some(log[|log| - 1].change) else None
  }

  /** Calls made before a run that commits at most once and last keep it so. */
  lemma CommitAfterPrefix(pre: seq<Event>, run: Run, pr: PatchRegenerator, name: string, files: Glob)
    requires NoCommit(pre) && CommitsOnceLast(run, pr, name, files)
    ensures CommitsOnceLast(Run(pre + run.log, run.outcome), pr, name, files)
    ensures NoCommit(pre + run.log) <==> NoCommit(run.log)
    ensures !NoCommit(run.log) ==> (pre + run.log)[|pre + run.log| - 1] == run.log[|run.log| - 1]
  {
    var log := pre + run.log;
    if !NoCommit(run.log) {
      assert log[..|log| - 1] == pre + run.log[..|run.log| - 1];
      assert log[|log| - 1] == run.log[|run.log| - 1];
    } else {
      assert NoCommit(log) by {
        forall i | 0 <= i < |log| ensures !log[i].ChangeUpdated? {
          if i >= |pre| {
            assert log[i] == run.log[i - |pre|];
          }
        }
      }
    }
  }

  /** The artefacts, before the push: the consistency file (generated
      before any autopatch file is written, from the prepared directories),
      the autopatch files, and the consistency file written into the target
      when it has a path. The result is the tree to push. */
  function Artefacts(w: Workflow, env: Environment, dirs: Directories): (s: Step<Tree>)
    ensures forall i :: 0 <= i < |s.log| ==> ArtefactEvent(s.log[i])
    ensures w.consistencyFileMergeImport ==> |s.log| > 0 && s.log[0] == ConsistencyFileGenerated(dirs.previous, dirs.next)
    ensures !w.consistencyFileMergeImport ==> forall i :: 0 <= i < |s.log| ==> !s.log[i].ConsistencyFileGenerated?
    ensures (w.consistencyFileMergeImport && w.autopatchConfig.Some?
      && env.generateConsistencyFile(dirs.previous, dirs.next, w.hashFunction).Success?) ==>
      |s.log| > 1 && s.log[1] == PatchFilesGenerated(dirs.previous, dirs.next)
    ensures forall i :: 0 <= i < |s.log| && s.log[i].ConsistencyFileWritten? ==>
      w.consistencyFileMergeImport && w.consistencyFilePath == Some(s.log[i].path)
    ensures (s.result.Success? && w.consistencyFileMergeImport) ==>
      env.generateConsistencyFile(dirs.previous, dirs.next, w.hashFunction).Success?
    ensures (s.result.Success? && w.consistencyFileMergeImport && w.consistencyFilePath.Some?) ==>
      w.consistencyFilePath.value in s.result.value
      && s.result.value[w.consistencyFilePath.value] == env.generateConsistencyFile(dirs.previous, dirs.next, w.hashFunction).value
    ensures s.result.Success? <==>
      && (w.consistencyFileMergeImport ==> env.generateConsistencyFile(dirs.previous, dirs.next, w.hashFunction).Success?)
      && (w.autopatchConfig.Some? ==> env.generatePatchFiles(dirs.previous, dirs.next, w.autopatchConfig.value).Success?)
    ensures s.result.Success? ==>
      var base := if w.autopatchConfig.Some?
        then env.generatePatchFiles(dirs.previous, dirs.next, w.autopatchConfig.value).value
        else dirs.next;
      s.result.value ==
        if w.consistencyFileMergeImport && w.consistencyFilePath.Some?
        then base[w.consistencyFilePath.value := env.generateConsistencyFile(dirs.previous, dirs.next, w.hashFunction).value]
        else base
  {
    var cf := GenerateConsistencyFile(w, env, dirs);
    match cf.result
    case Failure(e) => Step(cf.log, Failure(e))
    case Success(bytes) =>
      var patched := GeneratePatchFiles(w, env, dirs);
      var log1 := cf.log + patched.log;
      match patched.result
      case Failure(e) => Step(log1, Failure(e))
      case Success(next) =>
        if w.consistencyFilePath.Some? && bytes.Some? then
          Step(log1 + [ConsistencyFileWritten(w.consistencyFilePath.value)], Success(next[w.consistencyFilePath.value := bytes.value]))
        else Step(log1, Success(next))
  }

  /** The last phase: the artefacts, then one `updateChange` of the regen
      target with the full destination glob. */
  function Finish(w: Workflow, env: Environment, pr: PatchRegenerator, target: string, dirs: Directories): (run: Run)
    ensures CommitsOnceLast(run, pr, w.name, w.destinationFiles)
    ensures !NoCommit(run.log) ==> run.log[|run.log| - 1].change == target
    ensures Artefacts(w, env, dirs).log <= run.log
    ensures forall i :: 0 <= i < |run.log| ==> ArtefactEvent(run.log[i]) || run.log[i].ChangeUpdated?
    ensures !NoCommit(run.log) <==> Artefacts(w, env, dirs).result.Success?
    ensures !NoCommit(run.log) ==> run.log[|run.log| - 1].tree == Artefacts(w, env, dirs).result.value
    ensures Artefacts(w, env, dirs).result.Failure? ==>
      run == Run(Artefacts(w, env, dirs).log, Fail(Artefacts(w, env, dirs).result.error))
  {
    var pre := Artefacts(w, env, dirs);
    match pre.result
    case Failure(e) => Run(pre.log, Fail(e))
    case Success(tree) => Commit(pre.log, pr, w.name, tree, w.destinationFiles, target)
  }

  /** The one `updateChange` call, after calls that made none. */
  function Commit(log: seq<Event>, pr: PatchRegenerator, name: string, tree: Tree, files: Glob, target: string): (run: Run)
    requires NoCommit(log)
    ensures CommitsOnceLast(run, pr, name, files)
    ensures run.log == log + [ChangeUpdated(name, tree, files, target)]
  {
    var log' := log + [ChangeUpdated(name, tree, files, target)];
    assert log'[..|log'| - 1] == log;
    assert !NoCommit(log') by {
      assert log'[|log'| - 1].ChangeUpdated?;
    }
    Run(log', pr.updateChange(name, tree, files, target))
  }

  function Abort<T>(log: seq<Event>, s: Step<T>): Run
    requires s.result.Failure?
  {
    Run(log + s.log, Fail(s.result.error))
  }

  /** `Regenerate.regenerate()`. A writer without a patch regenerator stops
      the run right after the writer is opened; otherwise `updateChange` is
      called at most once, as the last call, with the full destination glob,
      and only when every earlier phase succeeded. */
  function Regenerate(w: Workflow, env: Environment, inv: Invocation): (run: Run)
    ensures |run.log| > 0 && run.log[0] == OriginResolved(None)
    ensures OpenedWriter(env).Success? && OpenedWriter(env).value.patchRegenerator.None? ==>
      run == Run([OriginResolved(None)], Fail(Validation(NoRegeneratorMsg)))
    ensures OpenedWriter(env).Failure? ==> run == Run([OriginResolved(None)], Fail(OpenedWriter(env).error))
  {
    var open := OpenWriter(env);
    if open.result.Failure? then Abort([], open) else
    var writer := open.result.value.0;
    var pr := open.result.value.1;
    var t := ResolveTarget(inv.options, pr);
    var log1 := open.log + t.log;
    if t.result.Failure? then Abort(open.log, t) else
    var target := t.result.value;
    var b := ResolveBaseline(w, inv.options, pr);
    var log2 := log1 + b.log;
    if b.result.Failure? then Abort(log1, b) else
    var prepared := Prepare(w, env, inv, pr, writer, target, b.result.value);
    var log3 := log2 + prepared.log;
    if prepared.result.Failure? then Abort(log2, prepared) else
    var fin := Finish(w, env, pr, target, prepared.result.value);
    Run(log3 + fin.log, fin.outcome)
  }

  /** The consistency-file mode makes only its own preparation calls. */
  lemma ConsistencyModeEvents(w: Workflow, env: Environment, writer: Writer, baseline: string, target: string)
    requires w.consistencyFilePath.Some?
    ensures var log := PrepareWithConsistencyFile(w, env, writer, baseline, target).log;
      forall i :: 0 <= i < |log| ==> PreparationEvent(log[i]) && !ImportModeEvent(log[i])
  {
    CopiesThenReversal(PrepareWithConsistencyFile(w, env, writer, baseline, target).log,
                       ConsistencyCopies(w, env, baseline, target));
  }

  /** Copies, then a reversal or its warning, are preparation calls that
      the import mode does not make. */
  lemma CopiesThenReversal(log: seq<Event>, copies: seq<Event>)
    requires forall j :: 0 <= j < |copies| ==> copies[j].Copied?
    requires log <= copies || (|log| == |copies| + 1 && log[..|copies|] == copies)
    requires |log| == |copies| + 1 ==> log[|copies|].PatchesReversed? || log[|copies|].ConsistencyFileMissingWarned?
    ensures forall i :: 0 <= i < |log| ==> PreparationEvent(log[i]) && !ImportModeEvent(log[i])
  {
    forall i | 0 <= i < |log|
      ensures PreparationEvent(log[i]) && !ImportModeEvent(log[i])
    {
      if i < |copies| {
        assert log[i] == copies[i];
      }
    }
  }

  /** The mode choice: with a regen baseline the consistency file must exist
      there and the diff is prepared from it; without one, from an import. */
  function Prepare(w: Workflow, env: Environment, inv: Invocation, pr: PatchRegenerator, writer: Writer, target: string, baseline: Option<string>): (s: Step<Directories>)
    ensures forall i :: 0 <= i < |s.log| ==> PreparationEvent(s.log[i])
    ensures baseline.Some? ==> forall i :: 0 <= i < |s.log| ==> !ImportModeEvent(s.log[i])
    ensures baseline.None? ==> forall i :: 0 <= i < |s.log| ==> !ConsistencyModeEvent(s.log[i])
    ensures baseline.Some? ==> |s.log| > 0 && s.log[0] == ConsistencyFileChecked(baseline.value)
    ensures baseline.Some? && CheckConsistencyFile(w, writer, baseline.value).result.Failure? ==>
      s == Step([ConsistencyFileChecked(baseline.value)], Failure(CheckConsistencyFile(w, writer, baseline.value).result.error))
    ensures baseline.Some? && CheckConsistencyFile(w, writer, baseline.value).result.Success? ==>
      s == Step([ConsistencyFileChecked(baseline.value)] + PrepareWithConsistencyFile(w, env, writer, baseline.value, target).log,
                PrepareWithConsistencyFile(w, env, writer, baseline.value, target).result)
    ensures baseline.None? ==> s == PrepareWithImportBaseline(w, env, inv, pr, writer, target)
  {
    match baseline
    case Some(b) =>
      var check := CheckConsistencyFile(w, writer, b);
      if check.result.Failure? then Step(check.log, Failure(check.result.error))
      else
        var copy := PrepareWithConsistencyFile(w, env, writer, b, target);
        ConsistencyModeEvents(w, env, writer, b, target);
        Step(check.log + copy.log, copy.result)
    case None => PrepareWithImportBaseline(w, env, inv, pr, writer, target)
  }
}

/** Properties of a whole regeneration run. */
module RegenerateProperties {
  import opened Wrappers
  import opened Files
  import opened Destination
  import opened Regeneration
  import Opts = RegenerateOptions

  /** The writer opened and offers a patch regenerator. */
  ghost predicate HasRegenerator(env: Environment) {
    OpenedWriter(env).Success? && OpenedWriter(env).value.patchRegenerator.Some?
  }

  ghost function RegeneratorOf(env: Environment): PatchRegenerator
    requires HasRegenerator(env)
  {
    OpenedWriter(env).value.patchRegenerator.value
  }

  ghost function WriterOf(env: Environment): Writer
    requires HasRegenerator(env)
  {
    OpenedWriter(env).value
  }

  /** The run as its phases: open the writer, resolve the target, resolve
      the baseline, prepare the directories, finish; each failure ends it. */
  lemma Decompose(w: Workflow, env: Environment, inv: Invocation)
    requires HasRegenerator(env)
    ensures
      var pr := RegeneratorOf(env);
      var t := ResolveTarget(inv.options, pr);
      var run := Regenerate(w, env, inv);
      if t.result.Failure? then run == Run([OriginResolved(None)] + t.log, Fail(t.result.error))
      else
        var b := ResolveBaseline(w, inv.options, pr);
        if b.result.Failure? then run == Run([OriginResolved(None)] + t.log + b.log, Fail(b.result.error))
        else
          var p := Prepare(w, env, inv, pr, WriterOf(env), t.result.value, b.result.value);
          if p.result.Failure? then run == Run([OriginResolved(None)] + t.log + b.log + p.log, Fail(p.result.error))
          else
            var fin := Finish(w, env, pr, t.result.value, p.result.value);
            run == Run([OriginResolved(None)] + t.log + b.log + p.log + fin.log, fin.outcome)
  {
  }

  lemma PreparationLog(log: seq<Event>)
    requires forall i :: 0 <= i < |log| ==> PreparationEvent(log[i])
    ensures NoCommit(log)
    ensures NoTargetInference(log) && NoBaselineInference(log)
  {
    forall i | 0 <= i < |log| ensures !log[i].ChangeUpdated? && !log[i].RegenTargetInferred? && !log[i].RegenBaselineInferred? {
      assert PreparationEvent(log[i]);
    }
  }

  lemma FinishLog(log: seq<Event>)
    requires forall i :: 0 <= i < |log| ==> ArtefactEvent(log[i]) || log[i].ChangeUpdated?
    ensures NoTargetInference(log) && NoBaselineInference(log)
    ensures forall i :: 0 <= i < |log| ==> !log[i].ConsistencyFileChecked? && !log[i].Copied? && !log[i].RevisionImported?
  {
    forall i | 0 <= i < |log| ensures !log[i].RegenTargetInferred? && !log[i].RegenBaselineInferred? {
      assert ArtefactEvent(log[i]) || log[i].ChangeUpdated?;
    }
  }

  lemma NoCommitConcat(a: seq<Event>, b: seq<Event>)
    requires NoCommit(a) && NoCommit(b)
    ensures NoCommit(a + b)
  {
    forall i | 0 <= i < |a + b| ensures !(a + b)[i].ChangeUpdated? {
      if i >= |a| {
        assert (a + b)[i] == b[i - |a|];
      }
    }
  }

  /** Once the writer offers a patch regenerator, the run either throws
      before `updateChange`, or calls it exactly once, last, for the
      workflow with its full destination glob and the resolved regen target,
      and then ends as that call does. */
  lemma CommitsOnceAndLast(w: Workflow, env: Environment, inv: Invocation)
    requires HasRegenerator(env)
    ensures CommitsOnceLast(Regenerate(w, env, inv), RegeneratorOf(env), w.name, w.destinationFiles)
    ensures !NoCommit(Regenerate(w, env, inv).log) ==>
      && ResolveTarget(inv.options, RegeneratorOf(env)).result.Success?
      && UpdatedChange(Regenerate(w, env, inv).log) == Some(ResolveTarget(inv.options, RegeneratorOf(env)).result.value)
  {
    Decompose(w, env, inv);
    var pr := RegeneratorOf(env);
    var t := ResolveTarget(inv.options, pr);
    var head := [OriginResolved(None)] + t.log;
    assert NoCommit(head);
    if t.result.Success? {
      var b := ResolveBaseline(w, inv.options, pr);
      assert NoCommit(b.log);
      NoCommitConcat(head, b.log);
      if b.result.Success? {
        var p := Prepare(w, env, inv, pr, WriterOf(env), t.result.value, b.result.value);
        PreparationLog(p.log);
        NoCommitConcat(head + b.log, p.log);
        if p.result.Success? {
          var fin := Finish(w, env, pr, t.result.value, p.result.value);
          CommitAfterPrefix(head + b.log + p.log, fin, pr, w.name, w.destinationFiles);
        }
      }
    }
  }

  /** The target is resolved, the baseline resolved, and the directories
      prepared: the run reaches its last phase. */
  ghost predicate ReachesFinish(w: Workflow, env: Environment, inv: Invocation)
    requires HasRegenerator(env)
  {
    var pr := RegeneratorOf(env);
    var t := ResolveTarget(inv.options, pr);
    var b := ResolveBaseline(w, inv.options, pr);
    && t.result.Success? && b.result.Success?
    && Prepare(w, env, inv, pr, WriterOf(env), t.result.value, b.result.value).result.Success?
  }

  /** The directories prepared for the diff, when the run gets that far. */
  ghost function PreparedOf(w: Workflow, env: Environment, inv: Invocation): Directories
    requires HasRegenerator(env) && ReachesFinish(w, env, inv)
  {
    var pr := RegeneratorOf(env);
    var t := ResolveTarget(inv.options, pr);
    var b := ResolveBaseline(w, inv.options, pr);
    Prepare(w, env, inv, pr, WriterOf(env), t.result.value, b.result.value).result.value
  }

  /** What the run pushes: `updateChange` is called exactly when every phase
      before it succeeded and the artefacts were built, and the tree it is
      handed is the artefacts tree of the prepared directories (the target
      copy with the new autopatch files and the consistency file in it). */
  lemma PushesArtefacts(w: Workflow, env: Environment, inv: Invocation)
    requires HasRegenerator(env)
    ensures !NoCommit(Regenerate(w, env, inv).log) <==>
      ReachesFinish(w, env, inv) && Artefacts(w, env, PreparedOf(w, env, inv)).result.Success?
    ensures !NoCommit(Regenerate(w, env, inv).log) ==>
      var log := Regenerate(w, env, inv).log;
      log[|log| - 1].tree == Artefacts(w, env, PreparedOf(w, env, inv)).result.value
  {
    Decompose(w, env, inv);
    var pr := RegeneratorOf(env);
    var t := ResolveTarget(inv.options, pr);
    var head := [OriginResolved(None)] + t.log;
    assert NoCommit(head);
    if t.result.Success? {
      var b := ResolveBaseline(w, inv.options, pr);
      assert NoCommit(b.log);
      NoCommitConcat(head, b.log);
      if b.result.Success? {
        var p := Prepare(w, env, inv, pr, WriterOf(env), t.result.value, b.result.value);
        PreparationLog(p.log);
        NoCommitConcat(head + b.log, p.log);
        if p.result.Success? {
          var fin := Finish(w, env, pr, t.result.value, p.result.value);
          CommitAfterPrefix(head + b.log + p.log, fin, pr, w.name, w.destinationFiles);
        }
      }
    }
  }

  /** An explicit `--regen-target` is what gets updated, and the destination
      is then never asked to infer one. */
  lemma ExplicitTargetUsed(w: Workflow, env: Environment, inv: Invocation)
    requires HasRegenerator(env) && inv.options.regenTarget.Some?
    ensures NoTargetInference(Regenerate(w, env, inv).log)
    ensures !NoCommit(Regenerate(w, env, inv).log) ==> UpdatedChange(Regenerate(w, env, inv).log) == inv.options.regenTarget
  {
    CommitsOnceAndLast(w, env, inv);
    TargetNeverInferred(w, env, inv);
  }

  lemma TargetNeverInferred(w: Workflow, env: Environment, inv: Invocation)
    requires HasRegenerator(env) && inv.options.regenTarget.Some?
    ensures NoTargetInference(Regenerate(w, env, inv).log)
  {
    var pr := RegeneratorOf(env);
    var t := ResolveTarget(inv.options, pr);
    var b := ResolveBaseline(w, inv.options, pr);
    var asked := (e: Event) => e.RegenTargetInferred?;
    var head := [OriginResolved(None)] + t.log + b.log;
    assert t.log == [];
    assert b.log == [] || b.log == [RegenBaselineInferred];
    assert Never(head, asked);
    if b.result.Failure? {
      Decompose(w, env, inv);
      assert Regenerate(w, env, inv).log == head;
    } else {
      var prep := Prepare(w, env, inv, pr, WriterOf(env), t.result.value, b.result.value);
      PreparationLog(prep.log);
      assert Never(prep.log, asked);
      SplitAtPreparation(w, env, inv, asked);
    }
    var log := Regenerate(w, env, inv).log;
    assert Never(log, asked);
    forall i | 0 <= i < |log| ensures !log[i].RegenTargetInferred? {
      assert !asked(log[i]);
    }
  }

  /** Without `--regen-target` the destination is asked first, and the
      target it infers is what gets updated. */
  lemma InferredTargetUsed(w: Workflow, env: Environment, inv: Invocation)
    requires HasRegenerator(env) && inv.options.regenTarget.None?
    requires RegeneratorOf(env).inferRegenTarget.Success? && RegeneratorOf(env).inferRegenTarget.value.Some?
    ensures Regenerate(w, env, inv).log[1] == RegenTargetInferred
    ensures !NoCommit(Regenerate(w, env, inv).log) ==> UpdatedChange(Regenerate(w, env, inv).log) == RegeneratorOf(env).inferRegenTarget.value
  {
    Decompose(w, env, inv);
    CommitsOnceAndLast(w, env, inv);
  }

  /** With neither an explicit nor an inferred target the run stops with a
      ValidationException right after asking the destination. */
  lemma MissingTargetStops(w: Workflow, env: Environment, inv: Invocation)
    requires HasRegenerator(env) && inv.options.regenTarget.None?
    requires RegeneratorOf(env).inferRegenTarget == Success(None)
    ensures Regenerate(w, env, inv) == Run([OriginResolved(None), RegenTargetInferred], Fail(Validation(NoTargetMsg)))
  {
    Decompose(w, env, inv);
  }

  /** No call in the log satisfies `p`. */
  ghost predicate Never(log: seq<Event>, p: Event -> bool) {
    forall i :: 0 <= i < |log| ==> !p(log[i])
  }

  lemma NeverConcat(a: seq<Event>, b: seq<Event>, p: Event -> bool)
    requires Never(a, p) && Never(b, p)
    ensures Never(a + b, p)
  {
    forall i | 0 <= i < |a + b| ensures !p((a + b)[i]) {
      if i >= |a| {
        assert (a + b)[i] == b[i - |a|];
      }
    }
  }

  lemma FinishLogNever(log: seq<Event>)
    requires forall i :: 0 <= i < |log| ==> ArtefactEvent(log[i]) || log[i].ChangeUpdated?
    ensures Never(log, ImportModeEvent) && Never(log, ConsistencyModeEvent)
    ensures Never(log, (e: Event) => e.RegenBaselineInferred?)
  {
    forall i | 0 <= i < |log| ensures !ImportModeEvent(log[i]) && !ConsistencyModeEvent(log[i]) && !log[i].RegenBaselineInferred? {
      assert ArtefactEvent(log[i]) || log[i].ChangeUpdated?;
    }
  }

  /** A run with a resolved target and baseline: the calls before the
      preparation, those of the preparation, and those after it. */
  lemma SplitAtPreparation(w: Workflow, env: Environment, inv: Invocation, p: Event -> bool)
    requires HasRegenerator(env)
    requires ResolveTarget(inv.options, RegeneratorOf(env)).result.Success?
    requires ResolveBaseline(w, inv.options, RegeneratorOf(env)).result.Success?
    requires Never([OriginResolved(None)] + ResolveTarget(inv.options, RegeneratorOf(env)).log
                   + ResolveBaseline(w, inv.options, RegeneratorOf(env)).log, p)
    requires forall e: Event :: ArtefactEvent(e) || e.ChangeUpdated? ==> !p(e)
    requires Never(Prepare(w, env, inv, RegeneratorOf(env), WriterOf(env),
                           ResolveTarget(inv.options, RegeneratorOf(env)).result.value,
                           ResolveBaseline(w, inv.options, RegeneratorOf(env)).result.value).log, p)
    ensures Never(Regenerate(w, env, inv).log, p)
  {
    Decompose(w, env, inv);
    var pr := RegeneratorOf(env);
    var t := ResolveTarget(inv.options, pr);
    var b := ResolveBaseline(w, inv.options, pr);
    var prep := Prepare(w, env, inv, pr, WriterOf(env), t.result.value, b.result.value);
    var head := [OriginResolved(None)] + t.log + b.log;
    NeverConcat(head, prep.log, p);
    if prep.result.Success? {
      var fin := Finish(w, env, pr, t.result.value, prep.result.value);
      assert Never(fin.log, p) by {
        forall i | 0 <= i < |fin.log| ensures !p(fin.log[i]) {
          assert ArtefactEvent(fin.log[i]) || fin.log[i].ChangeUpdated?;
        }
      }
      NeverConcat(head + prep.log, fin.log, p);
    }
  }

  /** The events logged before preparation: the origin resolution and the
      target and baseline inferences. */
  predicate HeadEvent(e: Event) {
    (e.OriginResolved? && e.ref.None?) || e.RegenTargetInferred? || e.RegenBaselineInferred?
  }

  lemma HeadNever(w: Workflow, env: Environment, inv: Invocation, p: Event -> bool)
    requires HasRegenerator(env)
    requires forall e: Event :: HeadEvent(e) ==> !p(e)
    ensures Never([OriginResolved(None)] + ResolveTarget(inv.options, RegeneratorOf(env)).log
                  + ResolveBaseline(w, inv.options, RegeneratorOf(env)).log, p)
  {
    var head := [OriginResolved(None)] + ResolveTarget(inv.options, RegeneratorOf(env)).log
                + ResolveBaseline(w, inv.options, RegeneratorOf(env)).log;
    forall i | 0 <= i < |head| ensures !p(head[i]) {
      assert HeadEvent(head[i]);
    }
  }

  /** Import mode. Without a regen baseline the run makes none of the
      consistency-mode calls: no existence check, no copy into `premerge` or
      `autopatches`, no patch reversal. */
  lemma ImportModeSelected(w: Workflow, env: Environment, inv: Invocation)
    requires HasRegenerator(env)
    requires ResolveTarget(inv.options, RegeneratorOf(env)).result.Success?
    requires ResolveBaseline(w, inv.options, RegeneratorOf(env)).result == Success(None)
    ensures Never(Regenerate(w, env, inv).log, ConsistencyModeEvent)
  {
    HeadNever(w, env, inv, ConsistencyModeEvent);
    SplitAtPreparation(w, env, inv, ConsistencyModeEvent);
  }

  /** Consistency mode. With a regen baseline the run checks the consistency
      file at that baseline and makes none of the import-mode calls. */
  lemma ConsistencyModeSelected(w: Workflow, env: Environment, inv: Invocation)
    requires HasRegenerator(env)
    requires ResolveTarget(inv.options, RegeneratorOf(env)).result.Success?
    requires ResolveBaseline(w, inv.options, RegeneratorOf(env)).result.Success?
    requires ResolveBaseline(w, inv.options, RegeneratorOf(env)).result.value.Some?
    ensures Never(Regenerate(w, env, inv).log, ImportModeEvent)
    ensures exists i ::
      && 0 <= i < |Regenerate(w, env, inv).log|
      && Regenerate(w, env, inv).log[i] == ConsistencyFileChecked(ResolveBaseline(w, inv.options, RegeneratorOf(env)).result.value.value)
  {
    HeadNever(w, env, inv, ImportModeEvent);
    SplitAtPreparation(w, env, inv, ImportModeEvent);
    var k := ConsistencyFileCheckedAt(w, env, inv);
  }

  /** Where the consistency-mode run checks the consistency file: right
      after resolving the target and the baseline. */
  lemma ConsistencyFileCheckedAt(w: Workflow, env: Environment, inv: Invocation) returns (k: nat)
    requires HasRegenerator(env)
    requires ResolveTarget(inv.options, RegeneratorOf(env)).result.Success?
    requires ResolveBaseline(w, inv.options, RegeneratorOf(env)).result.Success?
    requires ResolveBaseline(w, inv.options, RegeneratorOf(env)).result.value.Some?
    ensures k < |Regenerate(w, env, inv).log|
    ensures Regenerate(w, env, inv).log[k] == ConsistencyFileChecked(ResolveBaseline(w, inv.options, RegeneratorOf(env)).result.value.value)
  {
    var pr := RegeneratorOf(env);
    var t := ResolveTarget(inv.options, pr);
    var b := ResolveBaseline(w, inv.options, pr);
    var prep := Prepare(w, env, inv, pr, WriterOf(env), t.result.value, b.result.value);
    Decompose(w, env, inv);
    k := 1 + |t.log| + |b.log|;
    assert Regenerate(w, env, inv).log[k] == prep.log[0];
  }

  /** The regen baseline is only looked for in consistency-file
      merge-import workflows; the others always take the import path. */
  lemma BaselineOnlyForMergeImport(w: Workflow, env: Environment, inv: Invocation)
    requires HasRegenerator(env) && !w.consistencyFileMergeImport
    requires ResolveTarget(inv.options, RegeneratorOf(env)).result.Success?
    ensures Never(Regenerate(w, env, inv).log, (e: Event) => e.RegenBaselineInferred?)
    ensures Never(Regenerate(w, env, inv).log, ConsistencyModeEvent)
  {
    ImportModeSelected(w, env, inv);
    var pr := RegeneratorOf(env);
    var t := ResolveTarget(inv.options, pr);
    var prep := Prepare(w, env, inv, pr, WriterOf(env), t.result.value, None);
    assert ResolveBaseline(w, inv.options, pr).log == [];
    assert Never(prep.log, (e: Event) => e.RegenBaselineInferred?) by {
      forall i | 0 <= i < |prep.log| ensures !prep.log[i].RegenBaselineInferred? {
        assert PreparationEvent(prep.log[i]);
      }
    }
    SplitAtPreparation(w, env, inv, (e: Event) => e.RegenBaselineInferred?);
  }

  /** `--regen-import-baseline` is read by nothing in the run: whatever its
      value, the calls made and the outcome are the same. */
  lemma ImportBaselineFlagIgnored(w: Workflow, env: Environment, inv: Invocation, flag: bool)
    ensures Regenerate(w, env, inv.(options := inv.options.(regenImportBaseline := flag))) == Regenerate(w, env, inv)
  {
    var inv' := inv.(options := inv.options.(regenImportBaseline := flag));
    var open := OpenWriter(env);
    if open.result.Success? {
      var writer, pr := open.result.value.0, open.result.value.1;
      assert ResolveTarget(inv'.options, pr) == ResolveTarget(inv.options, pr);
      assert ResolveBaseline(w, inv'.options, pr) == ResolveBaseline(w, inv.options, pr);
      forall target, baseline
        ensures Prepare(w, env, inv', pr, writer, target, baseline) == Prepare(w, env, inv, pr, writer, target, baseline)
      {
        assert ImportRevision(env, inv', pr, target) == ImportRevision(env, inv, pr, target);
      }
    }
  }
}

=== FILE: regenerate_cmd.dfy ===
/** `RegenerateCmd`: the `regenerate` subcommand. It checks the positional
    source refs and the kind of migration, then runs one regeneration. */
module RegenerateCommand {
  import opened Wrappers
  import Strings
  import Opts = RegenerateOptions
  import opened Regeneration

  /** The command's name on the command line. */
  const Name := "regenerate"

  /** The migration the configuration gives for the workflow name. */
  datatype Migration = WorkflowMigration(workflow: Workflow) | OtherMigration(name: string)

  datatype ExitCode = ExitSuccess

  /** What the command did: the regenerations it started (with the inputs it
      gave each) and how it ended. */
  datatype CmdRun = CmdRun(regenerations: seq<Invocation>, result: Result<ExitCode>)

  const NotWorkflowMsg := "regenerate patch files is only supported for workflow migrations"

  function MultipleRefsMsg(sourceRefs: seq<string>): string {
    "Workflow does not support multiple source_ref arguments yet: " + Strings.ListText(sourceRefs)
  }

  /** The single source ref, or none (null) when there is none. */
  function SourceRef(sourceRefs: seq<string>): (r: Option<string>)
    requires |sourceRefs| <= 1
    ensures r.None? <==> |sourceRefs| == 0
    ensures r.Some? ==> [r.value] == sourceRefs
  {
    if |sourceRefs| == 1 then Some(sourceRefs[0]) else None
  }

  /** `RegenerateCmd.run` after the configuration is loaded. */
  function RunCmd(sourceRefs: seq<string>, migration: Migration, env: Environment,
                  options: Opts.RegenerateOptions, sameVersion: bool): (r: CmdRun)
    ensures |sourceRefs| > 1 ==> r == CmdRun([], Failure(CommandLine(MultipleRefsMsg(sourceRefs))))
    ensures |sourceRefs| <= 1 && migration.OtherMigration? ==> r == CmdRun([], Failure(Validation(NotWorkflowMsg)))
    ensures |r.regenerations| <= 1
    ensures |r.regenerations| == 1 <==> |sourceRefs| <= 1 && migration.WorkflowMigration?
    ensures |r.regenerations| == 1 ==>
      && r.regenerations[0] == Invocation(options, sameVersion, SourceRef(sourceRefs))
      && (r.result.Success? <==> Regenerate(migration.workflow, env, r.regenerations[0]).outcome.Pass?)
      && (r.result.Failure? ==> r.result.error == Regenerate(migration.workflow, env, r.regenerations[0]).outcome.error)
    ensures r.result.Success? ==> r.result.value == ExitSuccess
  {
    if |sourceRefs| > 1 then CmdRun([], Failure(CommandLine(MultipleRefsMsg(sourceRefs))))
    else
      var inv := Invocation(options, sameVersion, SourceRef(sourceRefs));
      match migration
      case OtherMigration(_) => CmdRun([], Failure(Validation(NotWorkflowMsg)))
      case WorkflowMigration(w) =>
        match Regenerate(w, env, inv).outcome
        case Fail(e) => CmdRun([inv], Failure(e))
        case Pass => CmdRun([inv], Success(ExitSuccess))
  }

  /** The rejection message lists every source ref given, in order, when
      none of them contains a comma. */
  lemma MultipleRefsMessageListsRefs(sourceRefs: seq<string>)
    requires |sourceRefs| > 1
    requires forall i :: 0 <= i < |sourceRefs| ==> ',' !in sourceRefs[i]
    ensures var m := MultipleRefsMsg(sourceRefs);
      var prefix := "Workflow does not support multiple source_ref arguments yet: ";
      && prefix <= m
      && Strings.ListElements(m[|prefix|..]) == Some(sourceRefs)
  {
    var prefix := "Workflow does not support multiple source_ref arguments yet: ";
    var m := MultipleRefsMsg(sourceRefs);
    assert m[|prefix|..] == Strings.ListText(sourceRefs);
    Strings.ListTextRoundTrip(sourceRefs);
  }
}

=== FILE: regenerate_options.dfy ===
/** `RegenerateOptions`: the `--regen-baseline`, `--regen-import-baseline` and
    `--regen-target` flags of the regenerate command. */
module RegenerateOptions {
  import opened Wrappers

  /** The three option fields; a `None` field is an unset (null) flag. */
  datatype RegenerateOptions = RegenerateOptions(
    regenBaseline: Option<string>,
    regenImportBaseline: bool,
    regenTarget: Option<string>)

  /** The options before any flag is given: no baseline, no target, and the
      import-baseline flag off. */
  function Default(): (o: RegenerateOptions)
    ensures o.regenBaseline.None? && o.regenTarget.None?
    ensures !o.regenImportBaseline
  {
    RegenerateOptions(None, false, None)
  }

  /** `Optional.ofNullable` of a nullable string field. */
  function OfNullable(s: Option<string>): Option<string> {
    s
  }

  function GetRegenBaseline(o: RegenerateOptions): (r: Option<string>)
    ensures r.None? <==> o.regenBaseline.None?
    ensures r.Some? ==> r.value == o.regenBaseline.value
  {
    OfNullable(o.regenBaseline)
  }

  function GetUseImportBaseline(o: RegenerateOptions): (b: bool)
    ensures b <==> o.regenImportBaseline
  {
    o.regenImportBaseline
  }

  function GetRegenTarget(o: RegenerateOptions): (r: Option<string>)
    ensures r.None? <==> o.regenTarget.None?
    ensures r.Some? ==> r.value == o.regenTarget.value
  {
    OfNullable(o.regenTarget)
  }

  function SetRegenBaseline(o: RegenerateOptions, baseline: Option<string>): (r: RegenerateOptions)
    ensures r.regenImportBaseline == o.regenImportBaseline && r.regenTarget == o.regenTarget
  {
    o.(regenBaseline := baseline)
  }

  function SetRegenImportBaseline(o: RegenerateOptions, flag: bool): (r: RegenerateOptions)
    ensures r.regenBaseline == o.regenBaseline && r.regenTarget == o.regenTarget
  {
    o.(regenImportBaseline := flag)
  }

  function SetRegenTarget(o: RegenerateOptions, target: Option<string>): (r: RegenerateOptions)
    ensures r.regenBaseline == o.regenBaseline && r.regenImportBaseline == o.regenImportBaseline
  {
    o.(regenTarget := target)
  }

  /** Set-then-get gives back what was set, and setting null reads back
      as empty; the other getters are unaffected. */
  lemma SetThenGet(o: RegenerateOptions, baseline: Option<string>, flag: bool, target: Option<string>)
    ensures GetRegenBaseline(SetRegenBaseline(o, baseline)) == baseline
    ensures GetRegenBaseline(SetRegenBaseline(o, None)).None?
    ensures GetUseImportBaseline(SetRegenImportBaseline(o, flag)) == flag
    ensures GetRegenTarget(SetRegenTarget(o, target)) == target
    ensures GetRegenTarget(SetRegenTarget(o, None)).None?
    ensures GetRegenTarget(SetRegenBaseline(o, baseline)) == GetRegenTarget(o)
    ensures GetRegenBaseline(SetRegenTarget(o, target)) == GetRegenBaseline(o)
  {
  }
}

=== FILE: strings.dfy ===
/** String helpers with the semantics of the Java and Guava calls they stand
    for: `Splitter.on(c).split`, `Joiner.on(sep).join`, `String.trim`,
    `String.replace(CharSequence, CharSequence)`, `lastIndexOf`, `%d`. */
module Strings {
  import opened Wrappers

  /** The first index of `c` in `s`; `s` must contain it. */
  function IndexOf(s: string, c: char): (i: nat)
    requires c in s
    ensures i < |s| && s[i] == c
    ensures c !in s[..i]
  {
    if s[0] == c then 0 else
      var k := IndexOf(s[1..], c);
      assert s[1..][..k] == s[1..k + 1];
      assert s[..k + 1] == [s[0]] + s[1..k + 1];
      k + 1
  }

  /** The first index is the only position holding `c` with no `c` before it. */
  lemma {:induction false} IndexOfUnique(s: string, c: char, k: nat)
    requires k < |s| && s[k] == c && c !in s[..k]
    ensures c in s && IndexOf(s, c) == k
  {
    assert s[k] == c;
    if k > 0 {
      assert s[0] == s[..k][0];
      assert s[1..][..k - 1] == s[1..k];
      assert s[..k] == [s[0]] + s[1..k];
      IndexOfUnique(s[1..], c, k - 1);
    }
  }

  /** `String.lastIndexOf(c)`: -1 when absent. */
  function LastIndexOf(s: string, c: char): (i: int)
    ensures -1 <= i < |s|
    ensures i == -1 <==> c !in s
    ensures i >= 0 ==> s[i] == c && c !in s[i + 1..]
  {
    if |s| == 0 then -1
    else if s[|s| - 1] == c then |s| - 1
    else
      var k := LastIndexOf(s[..|s| - 1], c);
      LastIndexOfStep(s[..|s| - 1], s[|s| - 1], c, k);
      assert s == s[..|s| - 1] + [s[|s| - 1]];
      k
  }

  /** A last character other than `c` leaves the last occurrence where it
      was. */
  lemma LastIndexOfStep(init: string, last: char, c: char, k: int)
    requires last != c
    requires -1 <= k < |init|
    requires k == -1 <==> c !in init
    requires k >= 0 ==> init[k] == c && c !in init[k + 1..]
    ensures k == -1 <==> c !in init + [last]
    ensures k >= 0 ==> (init + [last])[k] == c && c !in (init + [last])[k + 1..]
  {
    if k >= 0 {
      assert (init + [last])[k + 1..] == init[k + 1..] + [last];
    }
  }

  /** The last occurrence is the one with no occurrence after it. */
  lemma LastIndexOfUnique(s: string, c: char, k: nat)
    requires k < |s| && s[k] == c && c !in s[k + 1..]
    ensures LastIndexOf(s, c) == k
  {
  }

  /** Guava `Splitter.on(c).split(s)`: the empty string gives one empty piece,
      and a trailing separator gives a trailing empty piece. */
  function Split(s: string, c: char): (pieces: seq<string>)
    ensures |pieces| >= 1
    ensures forall i :: 0 <= i < |pieces| ==> c !in pieces[i]
    decreases |s|
  {
    if c !in s then [s]
    else
      var i := IndexOf(s, c);
      [s[..i]] + Split(s[i + 1..], c)
  }

  /** Guava `Joiner.on(sep).join(parts)`. */
  function Join(parts: seq<string>, sep: string): string
  {
    if |parts| == 0 then ""
    else if |parts| == 1 then parts[0]
    else parts[0] + sep + Join(parts[1..], sep)
  }

  /** Joining the pieces back with the separator gives the original text. */
  lemma {:induction false} JoinSplit(s: string, c: char)
    ensures Join(Split(s, c), [c]) == s
    decreases |s|
  {
    if c in s {
      var i := IndexOf(s, c);
      var rest := s[i + 1..];
      JoinSplit(rest, c);
      var tail := Split(rest, c);
      assert Split(s, c) == [s[..i]] + tail;
      assert s == s[..i] + [c] + rest;
    }
  }

  /** Splitting a join of separator-free parts gives the parts back. */
  lemma {:induction false} SplitJoin(parts: seq<string>, c: char)
    requires |parts| >= 1
    requires forall i :: 0 <= i < |parts| ==> c !in parts[i]
    ensures Split(Join(parts, [c]), c) == parts
  {
    if |parts| > 1 {
      var rest := Join(parts[1..], [c]);
      var s := parts[0] + [c] + rest;
      assert Join(parts, [c]) == s;
      assert c in s by { assert s[|parts[0]|] == c; }
      assert s[..|parts[0]|] == parts[0];
      assert c !in s[..|parts[0]|];
      assert IndexOf(s, c) == |parts[0]|;
      assert s[|parts[0]| + 1..] == rest;
      SplitJoin(parts[1..], c);
      assert Split(s, c) == [parts[0]] + parts[1..];
    }
  }

  /** `List.toString` and `Arrays.toString`: the elements between brackets,
      separated by ", ". */
  function ListText(l: seq<string>): string {
    "[" + Join(l, ", ") + "]"
  }

  /** Reads a non-empty list rendering back into its elements. */
  function ListElements(text: string): Option<seq<string>> {
    if |text| >= 2 && text[0] == '[' && text[|text| - 1] == ']' then Some(SplitList(text[1..|text| - 1]))
    else None
  }

  /** A list of comma-free elements is read back from its rendering. */
  lemma ListTextRoundTrip(l: seq<string>)
    requires |l| >= 1
    requires forall i :: 0 <= i < |l| ==> ',' !in l[i]
    ensures ListElements(ListText(l)) == Some(l)
  {
    var t := ListText(l);
    assert t[1..|t| - 1] == Join(l, ", ");
    JoinCommaSpaceSplit(l);
  }

  /** Reads back the body of a list rendering whose elements have no comma. */
  function SplitList(body: string): seq<string>
  {
    var pieces := Split(body, ',');
    [pieces[0]] + seq(|pieces| - 1, i requires 0 <= i < |pieces| - 1 => DropSpace(pieces[i + 1]))
  }

  function DropSpace(s: string): string {
    if |s| > 0 && s[0] == ' ' then s[1..] else s
  }

  lemma {:induction false} JoinCommaSpaceSplit(parts: seq<string>)
    requires |parts| >= 1
    requires forall i :: 0 <= i < |parts| ==> ',' !in parts[i]
    ensures SplitList(Join(parts, ", ")) == parts
  {
    var spaced := [parts[0]] + seq(|parts| - 1, i requires 0 <= i < |parts| - 1 => " " + parts[i + 1]);
    JoinSpaced(parts);
    forall i | 0 <= i < |spaced| ensures ',' !in spaced[i] {
      if i > 0 {
        assert spaced[i] == " " + parts[i];
      }
    }
    SplitJoin(spaced, ',');
    var r := SplitList(Join(parts, ", "));
    SplitListOfSpaced(parts, spaced, r);
  }

  lemma SplitListOfSpaced(parts: seq<string>, spaced: seq<string>, r: seq<string>)
    requires |parts| >= 1
    requires spaced == [parts[0]] + seq(|parts| - 1, i requires 0 <= i < |parts| - 1 => " " + parts[i + 1])
    requires r == [spaced[0]] + seq(|spaced| - 1, i requires 0 <= i < |spaced| - 1 => DropSpace(spaced[i + 1]))
    ensures r == parts
  {
    forall i | 0 <= i < |parts| ensures r[i] == parts[i] {
      if i > 0 {
        assert spaced[i] == " " + parts[i];
        assert (" " + parts[i])[1..] == parts[i];
      }
    }
  }

  /** Joining with ", " is joining with "," after prefixing every part but
      the first with a space. */
  lemma {:induction false} JoinSpaced(parts: seq<string>)
    requires |parts| >= 1
    ensures Join(parts, ", ")
         == Join([parts[0]] + seq(|parts| - 1, i requires 0 <= i < |parts| - 1 => " " + parts[i + 1]), ",")
  {
    var spaced := [parts[0]] + seq(|parts| - 1, i requires 0 <= i < |parts| - 1 => " " + parts[i + 1]);
    if |parts| > 1 {
      var rest := parts[1..];
      JoinSpaced(rest);
      var spacedRest := [rest[0]] + seq(|rest| - 1, i requires 0 <= i < |rest| - 1 => " " + rest[i + 1]);
      var tail := spaced[1..];
      assert tail == [" " + rest[0]] + spacedRest[1..];
      assert Join(tail, ",") == " " + Join(spacedRest, ",") by {
        JoinPrefixFirst(spacedRest, " ");
      }
      assert Join(parts, ", ") == parts[0] + ", " + Join(rest, ", ");
      assert Join(spaced, ",") == spaced[0] + "," + Join(tail, ",");
    }
  }

  /** Prefixing the first part prefixes the join. */
  lemma {:induction false} JoinPrefixFirst(parts: seq<string>, pre: string)
    requires |parts| >= 1
    ensures Join([pre + parts[0]] + parts[1..], ",") == pre + Join(parts, ",")
  {
    var q := [pre + parts[0]] + parts[1..];
    assert q[0] == pre + parts[0];
    assert q[1..] == parts[1..];
    if |parts| > 1 {
      var j := Join(parts[1..], ",");
      calc {
        Join(q, ",");
        (pre + parts[0]) + "," + j;
        { assert (pre + parts[0]) + "," + j == pre + (parts[0] + "," + j); }
        pre + (parts[0] + "," + j);
        pre + Join(parts, ",");
      }
    }
  }

  /** Characters `String.trim` removes: every code point up to U+0020. */
  predicate IsTrimmed(ch: char) {
    ch <= ' '
  }

  function TrimStart(s: string): (r: string)
    ensures |r| <= |s| && r == s[|s| - |r|..]
    ensures |r| > 0 ==> !IsTrimmed(r[0])
    ensures forall i :: 0 <= i < |s| - |r| ==> IsTrimmed(s[i])
  {
    if |s| > 0 && IsTrimmed(s[0]) then TrimStart(s[1..]) else s
  }

  function TrimEnd(s: string): (r: string)
    ensures |r| <= |s| && r == s[..|r|]
    ensures |r| > 0 ==> !IsTrimmed(r[|r| - 1])
    ensures forall i :: |r| <= i < |s| ==> IsTrimmed(s[i])
  {
    if |s| > 0 && IsTrimmed(s[|s| - 1]) then TrimEnd(s[..|s| - 1]) else s
  }

  /** `String.trim`. */
  function Trim(s: string): (r: string)
    ensures |r| > 0 ==> !IsTrimmed(r[0]) && !IsTrimmed(r[|r| - 1])
  {
    TrimEnd(TrimStart(s))
  }

  /** A string with no removable character at either end is its own trim. */
  lemma TrimStable(s: string)
    requires |s| > 0 ==> !IsTrimmed(s[0]) && !IsTrimmed(s[|s| - 1])
    ensures Trim(s) == s
  {
  }

  /** Java `String.replace(target, replacement)`: every non-overlapping
      occurrence of the literal `target`, scanning from the left. */
  function ReplaceLiteral(s: string, target: string, replacement: string): string
    requires |target| > 0
    decreases |s|
  {
    if |s| < |target| then s
    else if s[..|target|] == target then replacement + ReplaceLiteral(s[|target|..], target, replacement)
    else [s[0]] + ReplaceLiteral(s[1..], target, replacement)
  }

  /** A string that lacks the target's first character is left unchanged. */
  lemma {:induction false} ReplaceAbsent(s: string, target: string, replacement: string)
    requires |target| > 0 && target[0] !in s
    ensures ReplaceLiteral(s, target, replacement) == s
    decreases |s|
  {
    if |s| >= |target| {
      assert s[..|target|][0] == s[0];
      ReplaceAbsent(s[1..], target, replacement);
    }
  }

  function DigitChar(d: nat): char
    requires d < 10
  {
    "0123456789"[d]
  }

  /** Decimal text of a natural number. */
  function NatToString(n: nat): (r: string)
    ensures |r| >= 1
    decreases n
  {
    if n < 10 then [DigitChar(n)] else NatToString(n / 10) + [DigitChar(n % 10)]
  }

  /** `%d` of a Java int. */
  function IntToString(i: int): string
  {
    if i < 0 then "-" + NatToString(-i) else NatToString(i)
  }

  predicate IsDigit(ch: char) {
    '0' <= ch <= '9'
  }

  predicate AllDigits(s: string) {
    forall i :: 0 <= i < |s| ==> IsDigit(s[i])
  }

  /** `needle` occurs in `s` at `at`. */
  predicate OccursAt(s: string, needle: string, at: int) {
    0 <= at && at + |needle| <= |s| && s[at..at + |needle|] == needle
  }
}

/** Sequence helpers. */
module Seqs {

  /** `ImmutableList.reverse`. */
  function Reverse<T>(s: seq<T>): (r: seq<T>)
    ensures |r| == |s|
    ensures forall i :: 0 <= i < |s| ==> r[i] == s[|s| - 1 - i]
  {
    if |s| == 0 then [] else Reverse(s[1..]) + [s[0]]
  }

  /** `LinkedHashSet` of a list: each element once, at its first position. */
  function Dedup<T(==)>(s: seq<T>): (r: seq<T>)
    ensures forall i :: 0 <= i < |r| ==> r[i] in s
    ensures forall i :: 0 <= i < |s| ==> s[i] in r
    ensures forall i, j :: 0 <= i < j < |r| ==> r[i] != r[j]
    ensures |r| <= |s|
  {
    if |s| == 0 then []
    else
      var d := Dedup(s[..|s| - 1]);
      assert s == s[..|s| - 1] + [s[|s| - 1]];
      if s[|s| - 1] in d then d else d + [s[|s| - 1]]
  }

  /** The position of the first occurrence of `x` in `s`. */
  function FirstIndex<T(==)>(s: seq<T>, x: T): (i: nat)
    requires x in s
    ensures i < |s| && s[i] == x && x !in s[..i]
  {
    if s[0] == x then 0 else
      var k := FirstIndex(s[1..], x);
      assert s[..k + 1] == [s[0]] + s[1..][..k];
      k + 1
  }

  /** `Dedup` keeps elements in the order of their first occurrence. */
  lemma {:induction false} DedupKeepsFirstOccurrenceOrder<T>(s: seq<T>, i: nat, j: nat)
    requires i < j < |Dedup(s)|
    ensures FirstIndex(s, Dedup(s)[i]) < FirstIndex(s, Dedup(s)[j])
    decreases |s|
  {
    var init := s[..|s| - 1];
    var last := s[|s| - 1];
    var d := Dedup(init);
    assert s == init + [last];
    var x, y := Dedup(s)[i], Dedup(s)[j];
    assert x in s && y in s;
    FirstIndexOfPrefix(init, last, x);
    if last in d || j < |d| {
      assert Dedup(s)[i] == d[i] && Dedup(s)[j] == d[j];
      DedupKeepsFirstOccurrenceOrder(init, i, j);
      FirstIndexOfPrefix(init, last, y);
    } else {
      assert y == last && last !in init;
      assert x in init;
      assert FirstIndex(s, y) == |init|;
    }
  }

  lemma FirstIndexOfPrefix<T>(init: seq<T>, last: T, x: T)
    requires x in init
    ensures FirstIndex(init + [last], x) == FirstIndex(init, x)
  {
    var k := FirstIndex(init, x);
    assert (init + [last])[..k] == init[..k];
    FirstIndexUnique(init + [last], x, k);
  }

  /** The first index is the only position holding `x` with no `x` before it. */
  lemma FirstIndexUnique<T>(s: seq<T>, x: T, k: nat)
    requires k < |s| && s[k] == x && x !in s[..k]
    ensures FirstIndex(s, x) == k
  {
    var k' := FirstIndex(s, x);
    forall j | 0 <= j < k ensures s[j] != x {
      assert s[..k][j] == s[j];
    }
    forall j | 0 <= j < k' ensures s[j] != x {
      assert s[..k'][j] == s[j];
    }
  }
}

=== FILE: version_lists.dfy ===
/** `RefspecVersionList` and its tag and branch variants: the versions of a
    remote Git repository, as the ref names `git ls-remote` reports for
    some refspecs. The remote call is a parameter: given the URL and the
    ref patterns it answers with the refs it found (name to SHA-1) or an
    error. */
module VersionLists {
  import opened Wrappers
  import Seqs

  /** A refspec; only its origin pattern is used here. */
  datatype Refspec = Refspec(origin: string, destination: string)

  type LsRemote = (string, seq<string>) -> Result<map<string, string>>

  datatype VersionList =
    | RefspecList(refspecs: seq<Refspec>, url: string)
    | TagList(url: string)
    | BranchList(url: string)

  /** `tagBranchRefspec(repo, type)`: the one refspec matching every ref
      under `refs/<type>/`.
      `createRefSpec` of that constant is taken to give a refspec whose
      origin is the constant itself, mapped onto itself. */
  function TypeRefspec(kind: string): (r: seq<Refspec>)
    ensures |r| == 1 && r[0].origin == "refs/" + kind + "/*"
  {
    [Refspec("refs/" + kind + "/*", "refs/" + kind + "/*")]
  }

  const TagsPrefix := "refs/tags/"
  const HeadsPrefix := "refs/heads/"

  /** The refspecs a list queries: its own, or the tag or branch refspec. */
  function Refspecs(v: VersionList): seq<Refspec> {
    match v
    case RefspecList(refspecs, _) => refspecs
    case TagList(_) => TypeRefspec("tags")
    case BranchList(_) => TypeRefspec("heads")
  }

  function Origins(refspecs: seq<Refspec>): (r: seq<string>)
    ensures |r| == |refspecs|
    ensures forall i :: 0 <= i < |r| ==> r[i] == refspecs[i].origin
  {
    seq(|refspecs|, i requires 0 <= i < |refspecs| => refspecs[i].origin)
  }

  /** The patterns handed to `ls-remote`: the refspecs' origins, each once,
      in first-seen order. */
  function Patterns(v: VersionList): (r: seq<string>)
    ensures forall p :: p in r <==> exists i :: 0 <= i < |Refspecs(v)| && Refspecs(v)[i].origin == p
  {
    var o := Origins(Refspecs(v));
    assert forall p :: p in o <==> exists i :: 0 <= i < |o| && o[i] == p;
    Seqs.Dedup(o)
  }

  /** `substring(prefix.length())` of each name: drops as many characters
      as the prefix has, whatever they are; a shorter name is out of bounds. */
  function StripAll(names: set<string>, prefix: string): (r: Result<set<string>>)
    ensures r.Success? <==> forall s :: s in names ==> |s| >= |prefix|
    ensures r.Failure? ==> r.error == IndexOutOfBounds
    ensures r.Success? ==> r.value == set s | s in names :: s[|prefix|..]
  {
    if forall s :: s in names ==> |s| >= |prefix| then Success(set s | s in names :: s[|prefix|..])
    else Failure(IndexOutOfBounds)
  }

  /** `list()`: the names of the refs `ls-remote` reports, as a set; the
      tag and branch lists drop the `refs/tags/` or `refs/heads/` part. */
  function List(v: VersionList, lsRemote: LsRemote): (r: Result<set<string>>)
    ensures lsRemote(v.url, Patterns(v)).Failure? ==> r == Failure(lsRemote(v.url, Patterns(v)).error)
    ensures v.RefspecList? && lsRemote(v.url, Patterns(v)).Success? ==>
      r == Success(lsRemote(v.url, Patterns(v)).value.Keys)
    ensures v.TagList? && lsRemote(v.url, Patterns(v)).Success? ==>
      r == StripAll(lsRemote(v.url, Patterns(v)).value.Keys, TagsPrefix)
    ensures v.BranchList? && lsRemote(v.url, Patterns(v)).Success? ==>
      r == StripAll(lsRemote(v.url, Patterns(v)).value.Keys, HeadsPrefix)
    ensures !v.RefspecList? && lsRemote(v.url, Patterns(v)).Success? ==>
      var cut := if v.TagList? then |TagsPrefix| else |HeadsPrefix|;
      && (r.Success? <==> forall s :: s in lsRemote(v.url, Patterns(v)).value ==> |s| >= cut)
      && (r.Success? ==> r.value == set s | s in lsRemote(v.url, Patterns(v)).value.Keys :: s[cut..])
      && (r.Failure? ==> r.error == IndexOutOfBounds)
  {
    var refs :- lsRemote(v.url, Patterns(v));
    match v
    case RefspecList(_, _) => Success(refs.Keys)
    case TagList(_) => StripAll(refs.Keys, TagsPrefix)
    case BranchList(_) => StripAll(refs.Keys, HeadsPrefix)
  }

  /** The tag and branch lists ask for exactly one pattern, every ref under
      `refs/tags/` or under `refs/heads/`. */
  lemma TagAndBranchPatterns(url: string)
    ensures Patterns(TagList(url)) == ["refs/tags/*"]
    ensures Patterns(BranchList(url)) == ["refs/heads/*"]
  {
    SinglePattern(TagList(url));
    SinglePattern(BranchList(url));
    assert "refs/" + "tags" + "/*" == "refs/tags/*";
    assert "refs/" + "heads" + "/*" == "refs/heads/*";
  }

  /** A single refspec gives its origin as the only pattern. */
  lemma SinglePattern(v: VersionList)
    requires |Refspecs(v)| == 1
    ensures Patterns(v) == [Refspecs(v)[0].origin]
  {
    var o := Origins(Refspecs(v));
    var d := Seqs.Dedup(o);
    assert o[0] in d;
    assert |d| == 1;
  }

  /** When every reported ref is a tag, the listed versions are exactly
      the tag names: a name is listed iff `refs/tags/<name>` was reported. */
  lemma TagNamesRoundTrip(url: string, lsRemote: LsRemote, name: string)
    requires lsRemote(url, ["refs/tags/*"]).Success?
    requires forall s :: s in lsRemote(url, ["refs/tags/*"]).value ==> TagsPrefix <= s
    ensures List(TagList(url), lsRemote).Success?
    ensures name in List(TagList(url), lsRemote).value <==> TagsPrefix + name in lsRemote(url, ["refs/tags/*"]).value
  {
    TagAndBranchPatterns(url);
    var refs := lsRemote(url, ["refs/tags/*"]).value;
    assert List(TagList(url), lsRemote) == StripAll(refs.Keys, TagsPrefix);
    if name in List(TagList(url), lsRemote).value {
      var s :| s in refs.Keys && s[|TagsPrefix|..] == name;
      assert s[..|TagsPrefix|] == TagsPrefix;
      assert s == s[..|TagsPrefix|] + s[|TagsPrefix|..];
    }
  }

  /** The same for branches and `refs/heads/`. */
  lemma BranchNamesRoundTrip(url: string, lsRemote: LsRemote, name: string)
    requires lsRemote(url, ["refs/heads/*"]).Success?
    requires forall s :: s in lsRemote(url, ["refs/heads/*"]).value ==> HeadsPrefix <= s
    ensures List(BranchList(url), lsRemote).Success?
    ensures name in List(BranchList(url), lsRemote).value <==> HeadsPrefix + name in lsRemote(url, ["refs/heads/*"]).value
  {
    TagAndBranchPatterns(url);
    var refs := lsRemote(url, ["refs/heads/*"]).value;
    assert List(BranchList(url), lsRemote) == StripAll(refs.Keys, HeadsPrefix);
    if name in List(BranchList(url), lsRemote).value {
      var s :| s in refs.Keys && s[|HeadsPrefix|..] == name;
      assert s[..|HeadsPrefix|] == HeadsPrefix;
      assert s == s[..|HeadsPrefix|] + s[|HeadsPrefix|..];
    }
  }

  /** Names that coincide after stripping collapse: the list is never
      larger than what was reported. */
  lemma {:induction false} StrippedNoLarger(names: set<string>, prefix: string)
    requires forall s :: s in names ==> |s| >= |prefix|
    ensures |StripAll(names, prefix).value| <= |names|
    decreases |names|
  {
    if names != {} {
      var s :| s in names;
      var rest := names - {s};
      StrippedNoLarger(rest, prefix);
      var a := StripAll(names, prefix).value;
      var b := StripAll(rest, prefix).value;
      assert a == b + {s[|prefix|..]};
    }
  }
}

=== FILE: version_selectors.dfy ===
/** The two version selectors that pick the requested reference:
    `RequestedExactMatchSelector`, which only accepts it when the version
    list has it, and `RequestedVersionSelector`, which takes it as it is. */
module VersionSelectors {
  import opened Wrappers

  datatype Selector = RequestedExactMatch | RequestedVersion

  /** The outcome of `select`: whether the version list was listed, and
      the selected version or the listing's error. */
  datatype Selection = Selection(listed: bool, result: Result<Option<string>>)

  /** `select(versionList, requestedRef, console)`, `None` being a null
      reference and `versions` what `versionList.list()` gives. */
  function Select(s: Selector, versions: Result<set<string>>, requestedRef: Option<string>): (r: Selection)
    ensures s.RequestedVersion? ==> r == Selection(false, Success(requestedRef))
    ensures s.RequestedExactMatch? ==> (r.listed <==> requestedRef.Some?)
    ensures s.RequestedExactMatch? && r.listed && versions.Failure? ==> r.result == Failure(versions.error)
    ensures s.RequestedExactMatch? && versions.Success? ==>
      && r.result.Success?
      && (r.result.value.Some? <==> requestedRef.Some? && requestedRef.value in versions.value)
    ensures s.RequestedExactMatch? && r.result.Success? && r.result.value.Some? ==>
      && r.result.value == requestedRef
      && versions.Success? && r.result.value.value in versions.value
  {
    match s
    case RequestedVersion => Selection(false, Success(requestedRef))
    case RequestedExactMatch =>
      if requestedRef.None? then Selection(false, Success(None))
      else
        match versions
        case Failure(e) => Selection(true, Failure(e))
        case Success(vs) =>
          Selection(true, Success(if requestedRef.value in vs then requestedRef else None))
  }

  /** `toString`: the simple class name. */
  function Name(s: Selector): string {
    match s
    case RequestedExactMatch => "RequestedExactMatchSelector"
    case RequestedVersion => "RequestedVersionSelector"
  }

  /** Whatever the exact-match selector picks, the plain selector picks too;
      they differ only on references the list lacks. */
  lemma ExactMatchRefinesRequested(vs: set<string>, requestedRef: Option<string>)
    ensures var exact := Select(RequestedExactMatch, Success(vs), requestedRef).result;
      var plain := Select(RequestedVersion, Success(vs), requestedRef).result;
      && (exact.value.Some? ==> exact == plain)
      && (exact != plain ==> requestedRef.Some? && requestedRef.value !in vs)
  {
  }

  /** The plain selector never fails and never lists; the exact-match one
      fails only through the listing. */
  lemma OnlyListingFails(s: Selector, versions: Result<set<string>>, requestedRef: Option<string>)
    ensures Select(s, versions, requestedRef).result.Failure? ==>
      s.RequestedExactMatch? && Select(s, versions, requestedRef).listed && versions.Failure?
  {
  }
}

=== FILE: wildcard_requirement.dfy ===
/** `WildcardRustVersionRequirement`: Cargo wildcard requirements such as
    `1.*` and `1.2.*` (the Cargo reference, "Specifying Dependencies",
    section "Wildcard requirements").

    `SemanticVersion` is modelled only for release versions: one to three
    dot-separated decimal groups, the missing ones absent, ordered
    lexicographically with an absent component counting as 0. */
module WildcardRequirement {
  import opened Wrappers
  import Strings

  /** A dotted group of ASCII digits, as `[0-9]+` reads it. */
  predicate DigitGroup(g: string) {
    |g| >= 1 && Strings.AllDigits(g)
  }

  /** One to three digit groups separated by dots. */
  predicate DottedDigits(t: string) {
    var g := Strings.Split(t, '.');
    |g| <= 3 && forall i :: 0 <= i < |g| ==> DigitGroup(g[i])
  }

  /** `handlesRequirement`: the requirement matches
      `^[0-9]+(\.[0-9]+)?(\.[0-9]+)?(\.[*]){1}$`. */
  predicate HandlesRequirement(r: string) {
    |r| >= 2 && r[|r| - 2..] == ".*" && DottedDigits(r[..|r| - 2])
  }

  /** A requirement that passed the format check. */
  datatype Requirement = Requirement(text: string)

  function InvalidMsg(r: string): string {
    "The string " + r + " is not a valid wildcard version requirement."
  }

  /** `create`: succeeds exactly on the requirements `handlesRequirement` accepts. */
  function Create(r: string): (res: Result<Requirement>)
    ensures res.Success? <==> HandlesRequirement(r)
    ensures res.Success? ==> res.value.text == r
    ensures res.Failure? ==> res.error == Validation(InvalidMsg(r))
  {
    if HandlesRequirement(r) then Success(Requirement(r)) else Failure(Validation(InvalidMsg(r)))
  }

  /** Writing one to three digit groups with dots and then `.*` gives a
      handled requirement, and every handled requirement is written that way. */
  lemma HandlesExactlyWildcards(groups: seq<string>)
    requires 1 <= |groups| <= 3
    requires forall i :: 0 <= i < |groups| ==> DigitGroup(groups[i])
    ensures HandlesRequirement(Strings.Join(groups, ".") + ".*")
  {
    var t := Strings.Join(groups, ".");
    assert forall i :: 0 <= i < |groups| ==> '.' !in groups[i];
    Strings.SplitJoin(groups, '.');
    assert (t + ".*")[..|t + ".*"| - 2] == t;
  }

  lemma HandledIsWildcard(r: string)
    requires HandlesRequirement(r)
    ensures var groups := Strings.Split(r[..|r| - 2], '.');
      && 1 <= |groups| <= 3
      && (forall i :: 0 <= i < |groups| ==> DigitGroup(groups[i]))
      && r == Strings.Join(groups, ".") + ".*"
  {
    var t := r[..|r| - 2];
    Strings.JoinSplit(t, '.');
    assert r == t + r[|r| - 2..];
  }

  /** A bare `*`, and anything not ending in `.*`, is rejected. */
  lemma RejectsBareStar(r: string)
    ensures !HandlesRequirement("*")
    ensures (|r| < 2 || r[|r| - 2..] != ".*") ==> !HandlesRequirement(r)
  {
  }

  /** A release version; `minor` and `patch` are absent when not written. */
  datatype SemVer = SemVer(major: nat, minor: Option<nat>, patch: Option<nat>)

  /** The decimal value of a digit string. */
  function DigitsValue(s: string): nat
    requires Strings.AllDigits(s)
  {
    if |s| == 0 then 0
    else DigitsValue(s[..|s| - 1]) * 10 + (s[|s| - 1] as int - '0' as int)
  }

  /** `SemanticVersion.createFromVersionString` on release versions; any
      other text is rejected. */
  function ParseVersion(t: string): (r: Result<SemVer>)
    ensures r.Success? <==> DottedDigits(t)
    ensures r.Success? ==> (r.value.minor.Some? <==> |Strings.Split(t, '.')| >= 2)
  {
    var g := Strings.Split(t, '.');
    if DottedDigits(t) then
      Success(SemVer(
        DigitsValue(g[0]),
        if |g| >= 2 then Some(DigitsValue(g[1])) else None,
        if |g| >= 3 then Some(DigitsValue(g[2])) else None))
    else Failure(Validation(t))
  }

  /** The components compared, an absent one counting as 0. */
  function Key(v: SemVer): (nat, nat, nat) {
    (v.major, v.minor.GetOr(0), v.patch.GetOr(0))
  }

  /** `compareTo(a, b) < 0`. */
  predicate Less(a: SemVer, b: SemVer) {
    var (x, y) := (Key(a), Key(b));
    x.0 < y.0 || (x.0 == y.0 && (x.1 < y.1 || (x.1 == y.1 && x.2 < y.2)))
  }

  /** `getNextVersion`: the next minor (patch 0) when the required version
      has a minor component, otherwise the next major. */
  function NextVersion(required: SemVer): (n: SemVer)
    ensures Less(required, n)
    ensures required.minor.Some? ==> n.major == required.major && Key(n).1 == Key(required).1 + 1 && Key(n).2 == 0
    ensures required.minor.None? ==> n.major == required.major + 1 && Key(n).1 == 0 && Key(n).2 == 0
  {
    match required.minor
    case Some(m) => SemVer(required.major, Some(m + 1), Some(0))
    case None => SemVer(required.major + 1, Some(0), Some(0))
  }

  /** `fulfills`, given the text of the required version: the required
      version is parsed first, then the candidate. */
  function FulfillsWith(requiredText: string, version: string): (r: Result<bool>)
    ensures r.Success? <==> ParseVersion(requiredText).Success? && ParseVersion(version).Success?
    ensures r.Success? ==>
      (r.value <==> !Less(ParseVersion(version).value, ParseVersion(requiredText).value)
                    && Less(ParseVersion(version).value, NextVersion(ParseVersion(requiredText).value)))
  {
    var required :- ParseVersion(requiredText);
    var current :- ParseVersion(version);
    Success(!Less(current, required) && Less(current, NextVersion(required)))
  }

  /** The required-version text as written: a literal (not a pattern)
      replacement of the three characters `\.*`. */
  function RequiredTextAsWritten(req: Requirement): string {
    Strings.ReplaceLiteral(req.text, "\\.*", "")
  }

  /** `fulfills` as written. */
  function FulfillsAsWritten(req: Requirement, version: string): Result<bool> {
    FulfillsWith(RequiredTextAsWritten(req), version)
  }

  /** The literal replacement never finds a backslash in a handled
      requirement, so the required-version text keeps its `.*`, and the
      version parser rejects it: every `fulfills` call fails. */
  lemma AsWrittenNeverStripsWildcard(r: string, version: string)
    requires HandlesRequirement(r)
    ensures RequiredTextAsWritten(Requirement(r)) == r
    ensures FulfillsAsWritten(Requirement(r), version).Failure?
  {
    assert '\\' !in r by {
      if '\\' in r {
        var k :| 0 <= k < |r| && r[k] == '\\';
        if k < |r| - 2 {
          var t := r[..|r| - 2];
          assert t[k] == '\\';
          assert '\\' in t;
          var g := Strings.Split(t, '.');
          Strings.JoinSplit(t, '.');
          NotInJoin(g, '.', '\\');
          assert false;
        }
      }
    }
    Strings.ReplaceAbsent(r, "\\.*", "");
    StarGroupRejected(r);
  }

  /** A character no group (nor the separator) holds is not in the join. */
  lemma {:induction false} NotInJoin(g: seq<string>, sep: char, c: char)
    requires c != sep
    requires forall i :: 0 <= i < |g| ==> c !in g[i]
    ensures c !in Strings.Join(g, [sep])
  {
    if |g| > 1 {
      NotInJoin(g[1..], sep, c);
    }
  }

  /** A text ending in `.*` is not a release version. */
  lemma StarGroupRejected(r: string)
    requires |r| >= 2 && r[|r| - 2..] == ".*"
    ensures !DottedDigits(r)
  {
    var g := Strings.Split(r, '.');
    assert r[|r| - 2] == '.' && r[|r| - 1] == '*' by {
      assert r[|r| - 2..][0] == '.' && r[|r| - 2..][1] == '*';
    }
    LastPieceIsStar(r);
    assert !Strings.IsDigit(g[|g| - 1][0]);
    assert !DigitGroup(g[|g| - 1]);
  }

  /** A text ending in `.*` splits on dots into pieces the last of which
      is `*`. */
  lemma {:induction false} LastPieceIsStar(r: string)
    requires |r| >= 2 && r[|r| - 2] == '.' && r[|r| - 1] == '*'
    ensures Strings.Split(r, '.')[|Strings.Split(r, '.')| - 1] == "*"
    decreases |r|
  {
    var i := Strings.IndexOf(r, '.');
    var rest := r[i + 1..];
    var g := Strings.Split(r, '.');
    assert g == [r[..i]] + Strings.Split(rest, '.');
    if i == |r| - 2 {
      assert rest == "*";
      assert Strings.Split(rest, '.') == ["*"];
    } else {
      assert rest[|rest| - 2] == '.' && rest[|rest| - 1] == '*';
      LastPieceIsStar(rest);
    }
  }

  /** The required-version text: the requirement without its trailing `.*`. */
  function RequiredText(req: Requirement): (t: string)
    requires HandlesRequirement(req.text)
    ensures t + ".*" == req.text
    ensures DottedDigits(t) && '*' !in t
  {
    var t := req.text[..|req.text| - 2];
    assert t + ".*" == req.text;
    assert '*' !in t by {
      if '*' in t {
        var k :| 0 <= k < |t| && t[k] == '*';
        Strings.JoinSplit(t, '.');
        var g := Strings.Split(t, '.');
        assert forall i :: 0 <= i < |g| ==> '*' !in g[i];
        NotInJoin(g, '.', '*');
      }
    }
    t
  }

  /** `fulfills` with the wildcard stripped. */
  function Fulfills(req: Requirement, version: string): Result<bool>
    requires HandlesRequirement(req.text)
  {
    FulfillsWith(RequiredText(req), version)
  }

  /** The Cargo meaning of a wildcard: `M.*` admits exactly the versions
      with major M; `M.m.*` those with major M and minor m; `M.m.p.*` those
      with major M, minor m and patch at least p. Only an unparsable
      candidate fails. */
  lemma FulfillsIsWildcardMatch(req: Requirement, version: string)
    requires HandlesRequirement(req.text)
    ensures ParseVersion(RequiredText(req)).Success?
    ensures Fulfills(req, version).Success? <==> ParseVersion(version).Success?
    ensures Fulfills(req, version).Success? ==>
      var v := ParseVersion(version).value;
      var q := ParseVersion(RequiredText(req)).value;
      (Fulfills(req, version).value <==>
        && v.major == q.major
        && (q.minor.Some? ==> Key(v).1 == Key(q).1 && Key(v).2 >= Key(q).2))
  {
  }
}

=== FILE: wrappers.dfy ===
/** Optional values, results and the exception kinds the modelled code raises.

    Java's nullable references and `Optional` both become `Option`; a method
    that may throw becomes a function returning `Result`, whose failure side
    names the exception class that would have been thrown.
 */
module Wrappers {

  datatype Option<+T> = None | Some(value: T) {
    predicate IsFailure() {
      None?
    }

    function PropagateFailure<U>(): Option<U>
      requires None?
    {
      None
    }

    function Extract(): T
      requires Some?
    {
      value
    }

    /** `Optional.orElse`. */
    function GetOr(default: T): T {
      match this
      case Some(v) => v
      case None => default
    }
  }

  /** The exceptions of the modelled code, by class. */
  datatype Error =
    | Validation(msg: string)            // ValidationException
    | Repo(msg: string)                  // RepoException
    | CommandLine(msg: string)           // CommandLineException
    | CannotResolveRevision(msg: string) // CannotResolveRevisionException
    | InsideGitDir(path: string, gitDir: string, msg: string) // InsideGitDirException
    | Io(msg: string)                    // IOException
    | NonReversible(msg: string)         // NonReversibleValidationException
    | InvalidAuthor(msg: string)         // InvalidAuthorException
    | CannotProvide(msg: string)         // CannotProvideException
    | CannotConvert(msg: string)         // CannotConvertException
    | Eval(msg: string)                  // Starlark EvalException
    | IllegalState(msg: string)          // IllegalStateException
    | IllegalArgument(msg: string)       // IllegalArgumentException (Preconditions.checkArgument)
    | IndexOutOfBounds                   // StringIndexOutOfBoundsException and friends
    | NullPointer                        // NullPointerException (Preconditions.checkNotNull)
    | Unsupported                        // an operation of DestinationReader.NOT_IMPLEMENTED

  datatype Result<+T> = Success(value: T) | Failure(error: Error) {
    predicate IsFailure() {
      Failure?
    }

    function PropagateFailure<U>(): Result<U>
      requires Failure?
    {
      Failure(error)
    }

    function Extract(): T
      requires Success?
    {
      value
    }
  }

  /** The result of a `void` method that may throw. */
  datatype Outcome = Pass | Fail(error: Error) {
    predicate IsFailure() {
      Fail?
    }

    function PropagateFailure<U>(): Result<U>
      requires Fail?
    {
      Failure(error)
    }
  }

  /** `checkCondition(condition, msg)` of ValidationException. */
  function CheckCondition(condition: bool, msg: string): (r: Outcome)
    ensures r.Pass? <==> condition
    ensures r.Fail? ==> r.error == Validation(msg)
  {
    if condition then Pass else Fail(Validation(msg))
  }
}
